=== FILE: README.md ===
# Active Directory management objects, modelled in Dafny

This project models the client-side logic of the .NET
`System.DirectoryServices.ActiveDirectory` management classes and one filter
from `System.DirectoryServices.AccountManagement`. The remote directory is not
modelled as a store. Every call the original makes to it (commit an entry,
create a child, read the root DSE, ask the locator) becomes an input of the
operation. Usually that input is a `StoreResult` (`Succeeds` or
`FailsWith(code)`); sometimes it is the value the directory would answer.
The modelled logic is what the classes decide themselves: argument
validation, the `existing`/`committed`/`disposed` state machines, attribute
defaults and option bits, the error classification, and the ordered,
name-unique collections.

| module (file) | models |
|---|---|
| `Common` (common.dfy) | 32/64-bit integers, `Option`, the remote-call outcome, the directory context, the case-insensitive name comparison `Utils.Compare` is used for |
| `Errors` (errors.dfy) | the exceptions the classes raise, as one datatype, and the `Result`/`Applied` wrappers |
| `ExceptionHelper` (exception_helper.dfy) | `ExceptionHelper`, the server-down message and the sync-all error information of Exception.cs |
| `DirectoryContexts` (directory_context.dfy) | the context and name checks shared by the site-topology constructors |
| `Servers`, `NameLookup` | directory servers (domain controllers and ADAM instances) and the first-match name search |
| `DomainControllerCollection`, `GlobalCatalogCollection`, `SchemaClassCollection` | the three read-only collections |
| `DirectoryServerCollection` | the writable replica collection, bound to a site or to a naming context's cross-reference |
| `ActiveDirectorySiteLink`, `ActiveDirectorySubnet` | site links and subnets |
| `ApplicationPartition` | application partitions: creation, lookups and the `Save` protocol |
| `ConstraintLinkedAttrSet` | `ADDNConstraintLinkedAttrSet.MoveNext` |

Exceptions are values. A member that raises one returns `Err(e)`. A member
that changes the object and then raises returns the changed object together
with the exception (`Applied`, `Saved`), because the change survives the
exception in the original. A null argument is `None`.

## Model

The source cells are paths from the repository root.

| member | source | states |
|---|---|---|
| ExceptionHelper.FromComException | src/libraries/System.DirectoryServices.ActiveDirectory/Exception.cs:301-367 | each HRESULT is classified into exactly one exception: access denied, logon failure, constraint violation or unwilling-to-perform as InvalidOperation, object exists, out of memory, the three server-down codes (carrying the context's server name, none without a context); every other code is an operation exception carrying the code |
| ExceptionHelper.ComMappingIsTableLookup | src/libraries/System.DirectoryServices.ActiveDirectory/Exception.cs:310-362 | the if/else chain agrees with a lookup in an nine-entry table whose keys are exactly the specially mapped codes, so the mapping is total and each code hits one branch |
| ExceptionHelper.FromErrorCode | src/libraries/System.DirectoryServices.ActiveDirectory/Exception.cs:375-399 | Win32 codes 5 and 8453 give access denied; 8, 14, 8446 and 1721 give out of memory; 1311, 1355, 1722 and 1726 give server down with the target name; every other code gives an operation exception with the code; the four outcomes partition all codes |
| ExceptionHelper.Win32GroupsAreDisjoint | src/libraries/System.DirectoryServices.ActiveDirectory/Exception.cs:383-397 | the three Win32 code groups are pairwise disjoint, so the order of the first-match chain does not matter |
| ExceptionHelper.Unsigned | src/libraries/System.DirectoryServices.ActiveDirectory/Exception.cs:406 | the `(uint)` cast yields the value in [0, 2^32) congruent to the signed code |
| ExceptionHelper.MessageCode | src/libraries/System.DirectoryServices.ActiveDirectory/Exception.cs:404-410 | an HRESULT is passed on as its unsigned value; a Win32 code keeps its low 16 bits and gets 0x8007 (severity bit and facility 7) as its high half |
| ExceptionHelper.Win32ToHResultFixedPoints | src/libraries/System.DirectoryServices.ActiveDirectory/Exception.cs:406-410 | the Win32-to-HRESULT transform is idempotent and leaves a code unchanged exactly when its high half is already 0x8007 |
| ExceptionHelper.ServerDownMessage | src/libraries/System.DirectoryServices.ActiveDirectory/Exception.cs:175-185 | the message always starts with the base message; the server line is appended exactly when the name is non-null and non-empty |
| ExceptionHelper.ReportedDropsOnlyCancelled | src/libraries/System.DirectoryServices.ActiveDirectory/Exception.cs:458-478 | the list of reported errors loses exactly the cancelled records: its length is the count of the others, none of its entries is cancelled, every other record is described in it, and it is empty exactly when every record was cancelled |
| ExceptionHelper.Win32ToHResult | src/libraries/System.DirectoryServices.ActiveDirectory/Exception.cs:407-410 | the transformed code is a 32-bit value that keeps the Win32 code's low 16 bits and has 0x8007 as its high half |
| ExceptionHelper.Describe | src/libraries/System.DirectoryServices.ActiveDirectory/Exception.cs:465-468 | a record's description keeps its category and Win32 code, and its message is the system text for the code turned into an HRESULT |
| ExceptionHelper.Reported | src/libraries/System.DirectoryServices.ActiveDirectory/Exception.cs:458-475 | the reported list is never longer than the records, and a final record that was not cancelled is described at its end |
| ExceptionHelper.CreateSyncAllException | src/libraries/System.DirectoryServices.ActiveDirectory/Exception.cs:427-488 | a null pointer gives an exception without entries; a single cancelled record or a list of only cancelled records gives null; otherwise the exception carries the description of the single record or the filtered list |
| ExceptionHelper.ErrorInformation | src/libraries/System.DirectoryServices.ActiveDirectory/Exception.cs:223-234 | no stored errors give an empty array; otherwise a copy of the same length, equal element by element |
| DirectoryContexts.ValidateTargetContext | src/libraries/System.DirectoryServices.ActiveDirectory/ActiveDirectorySiteLink.cs:651-668 | a context is accepted exactly when it is non-null and either names a forest, server or ADAM configuration set, or names nothing and is the root domain; a null context, a nameless non-root context and a named one of another kind each give their own exception |
| DirectoryContexts.ValidateName | src/libraries/System.DirectoryServices.ActiveDirectory/ActiveDirectorySiteLink.cs:670-674 | a name is accepted exactly when it is non-null and non-empty; null gives ArgumentNull for the parameter and empty gives the empty-string exception |
| NameLookup.FirstMatch | src/libraries/System.DirectoryServices.ActiveDirectory/DirectoryServerCollection.cs:138-152 | the result is the least index whose name matches, no earlier name matches, and it is -1 exactly when no name matches |
| NameLookup.OccursIffFound | src/libraries/System.DirectoryServices.ActiveDirectory/DirectoryServerCollection.cs:119-152 | a name occurs in the list exactly when the first-match search does not return -1, which is why `Contains` agrees with `IndexOf` |
| NameLookup.IndexOfName | src/libraries/System.DirectoryServices.ActiveDirectory/DomainControllerCollection.cs:42-54 | the scanning loop returns the first-match index |
| NameLookup.ContainsName | src/libraries/System.DirectoryServices.ActiveDirectory/DomainControllerCollection.cs:28-40 | the scanning loop answers true exactly when some member's name matches |
| NameLookup.CopyOf | src/libraries/System.DirectoryServices.ActiveDirectory/DomainControllerCollection.cs:16-20 | a null source gives an empty list, any other source is copied element by element in order |
| DomainControllerCollection.Create | src/libraries/System.DirectoryServices.ActiveDirectory/DomainControllerCollection.cs:14-20 | a null source gives an empty collection; a non-null source is copied in order |
| DomainControllerCollection.IndexOf | src/libraries/System.DirectoryServices.ActiveDirectory/DomainControllerCollection.cs:42-54 | null is rejected with ArgumentNull("domainController"); otherwise the least matching index, or -1 |
| DomainControllerCollection.Contains | src/libraries/System.DirectoryServices.ActiveDirectory/DomainControllerCollection.cs:28-40 | null is rejected; otherwise true exactly when some member's name matches |
| GlobalCatalogCollection.Create | src/libraries/System.DirectoryServices.ActiveDirectory/GlobalCatalogCollection.cs:14-20 | a null source gives an empty collection; a non-null source is copied in order |
| GlobalCatalogCollection.IndexOf | src/libraries/System.DirectoryServices.ActiveDirectory/GlobalCatalogCollection.cs:42-54 | null is rejected with ArgumentNull("globalCatalog"); otherwise the least matching index, or -1 |
| GlobalCatalogCollection.Contains | src/libraries/System.DirectoryServices.ActiveDirectory/GlobalCatalogCollection.cs:28-40 | null is rejected; otherwise true exactly when some member's name matches |
| SchemaClassCollection.Create | src/libraries/System.DirectoryServices.ActiveDirectory/ReadOnlyActiveDirectorySchemaClassCollection.cs:14-20 | a null source gives an empty collection; a non-null source is copied in order |
| SchemaClassCollection.IndexOf | src/libraries/System.DirectoryServices.ActiveDirectory/ReadOnlyActiveDirectorySchemaClassCollection.cs:42-54 | null is rejected with ArgumentNull("schemaClass"); otherwise the least matching index, or -1 |
| SchemaClassCollection.Contains | src/libraries/System.DirectoryServices.ActiveDirectory/ReadOnlyActiveDirectorySchemaClassCollection.cs:28-40 | null is rejected; otherwise true exactly when some member's name matches |
| DirectoryServerCollection.ForSite | src/libraries/System.DirectoryServices.ActiveDirectory/DirectoryServerCollection.cs:26-33 | the site-bound constructor gives an empty, well-formed collection for the site and transport, with nothing staged and no snapshot, not yet initialized |
| DirectoryServerCollection.ForNamingContext | src/libraries/System.DirectoryServices.ActiveDirectory/DirectoryServerCollection.cs:35-44 | the naming-context constructor holds the given replicas unvalidated, and its replica attribute mirrors the members exactly when the given list is their NTDS settings names up to order |
| DirectoryServerCollection.OnValidate | src/libraries/System.DirectoryServices.ActiveDirectory/DirectoryServerCollection.cs:322-340 | a site-bound collection accepts any server; a naming-context one accepts exactly ADAM instances for ADAM and domain controllers for Active Directory, refusing with ServerShouldBeAI or ServerShouldBeDC; every admissible server passes |
| DirectoryServerCollection.InsertHook | src/libraries/System.DirectoryServices.ActiveDirectory/DirectoryServerCollection.cs:244-279 | a naming-context binding gains the server's NTDS settings name in its replica list; an initialized site binding stages the transport for the server and keeps every other entry and field; otherwise nothing changes |
| DirectoryServerCollection.RemoveHook | src/libraries/System.DirectoryServices.ActiveDirectory/DirectoryServerCollection.cs:281-314 | a naming-context binding loses one occurrence of the server's NTDS settings name, and nothing when it is absent; a site binding, initialized or not, stages a cleared transport for the server and keeps every other entry and field |
| DirectoryServerCollection.AdmissibleIffChecksPass | src/libraries/System.DirectoryServices.ActiveDirectory/DirectoryServerCollection.cs:322-341 | a server is admissible to a binding (domain controller of version 5.2 or later for an Active Directory naming context, ADAM instance for an ADAM one, same site for a site) exactly when the explicit checks of `Add`/`Insert` and `OnValidate` all pass |
| DirectoryServerCollection.RemoveFirst | src/libraries/System.DirectoryServices.ActiveDirectory/DirectoryServerCollection.cs:286 | removing a value from a multivalued attribute takes one occurrence out of its multiset when present and changes nothing otherwise |
| DirectoryServerCollection.Add | src/libraries/System.DirectoryServices.ActiveDirectory/DirectoryServerCollection.cs:65-103 | null is rejected; the type, version or site check fails first; a name already present is rejected; then the kind check of `OnValidate` (an ADAM instance for an ADAM naming context) gives its ArgumentException; it succeeds exactly when the server is admissible and new, appending it at the end, returning its index and running the insert hook |
| DirectoryServerCollection.Insert | src/libraries/System.DirectoryServices.ActiveDirectory/DirectoryServerCollection.cs:154-192 | the same checks as `Add`, then an out-of-range index is rejected, then `OnValidate`'s kind check gives its ArgumentException; on success the server sits at `index` with the others in order around it |
| DirectoryServerCollection.SetAt | src/libraries/System.DirectoryServices.ActiveDirectory/DirectoryServerCollection.cs:52-62 | the indexer setter as written: null and duplicate names are rejected and `OnValidate` runs, but no version or site check; on success only position `index` changes, and the binding sees a remove then an insert |
| DirectoryServerCollection.SetAtChecked | src/libraries/System.DirectoryServices.ActiveDirectory/DirectoryServerCollection.cs:52-62 | the setter with the checks of `Add`: it succeeds exactly when the value is admissible, new and the index in range, and then agrees with `SetAt` |
| DirectoryServerCollection.Remove | src/libraries/System.DirectoryServices.ActiveDirectory/DirectoryServerCollection.cs:194-211 | null is rejected; a server with no matching name is rejected with NotFoundInCollection; otherwise exactly the first matching member is removed and the remove hook runs for it |
| DirectoryServerCollection.UnstageAll | src/libraries/System.DirectoryServices.ActiveDirectory/DirectoryServerCollection.cs:237-241 | after clearing a site-bound collection every former member has a change-list entry that clears its bridgehead transport; the entry of every other name is kept as it was, and no other name is added |
| DirectoryServerCollection.Clear | src/libraries/System.DirectoryServices.ActiveDirectory/DirectoryServerCollection.cs:213-242 | the list becomes empty; a naming-context binding keeps its kind and has its replica list emptied; an initialized site binding records the old members as its snapshot, stages the clearing of each, keeps every other staged entry and keeps its site, transport and initialized flag; an uninitialized site binding is unchanged |
| DirectoryServerCollection.AddRange | src/libraries/System.DirectoryServices.ActiveDirectory/DirectoryServerCollection.cs:105-117 | a null array or one holding a null element is rejected before anything is added; otherwise the servers are added one by one as `AddAll` does |
| DirectoryServerCollection.IndexOf | src/libraries/System.DirectoryServices.ActiveDirectory/DirectoryServerCollection.cs:138-152 | null is rejected; otherwise the first-match index, or -1 |
| DirectoryServerCollection.Contains | src/libraries/System.DirectoryServices.ActiveDirectory/DirectoryServerCollection.cs:119-132 | null is rejected; otherwise true exactly when some member's name matches |
| DirectoryServerCollection.GetMultiValuedProperty | src/libraries/System.DirectoryServices.ActiveDirectory/DirectoryServerCollection.cs:343-352 | one NTDS settings name per member, in list order |
| DirectoryServerCollection.AddKeepsMirror | src/libraries/System.DirectoryServices.ActiveDirectory/DirectoryServerCollection.cs:244-256 | after `Add` the cross-reference's replica locations still hold, as a multiset, the members' NTDS settings names |
| DirectoryServerCollection.InsertKeepsMirror | src/libraries/System.DirectoryServices.ActiveDirectory/DirectoryServerCollection.cs:244-256 | the same for `Insert` |
| DirectoryServerCollection.RemoveKeepsMirror | src/libraries/System.DirectoryServices.ActiveDirectory/DirectoryServerCollection.cs:281-292 | the same for `Remove`: the removed member's name leaves the replica locations |
| DirectoryServerCollection.SetAtKeepsMirror | src/libraries/System.DirectoryServices.ActiveDirectory/DirectoryServerCollection.cs:317-320 | the same for the setter, a remove followed by an insert |
| DirectoryServerCollection.ClearKeepsMirror | src/libraries/System.DirectoryServices.ActiveDirectory/DirectoryServerCollection.cs:222-236 | the same for `Clear`, which empties the attribute |
| DirectoryServerCollection.RemoveSucceedsOnMembers | src/libraries/System.DirectoryServices.ActiveDirectory/DirectoryServerCollection.cs:194-211 | on a well-formed collection `Remove` succeeds exactly when some member's name matches |
| DirectoryServerCollection.AddKeepsWellFormed | src/libraries/System.DirectoryServices.ActiveDirectory/DirectoryServerCollection.cs:65-103 | `Add` keeps names unique and every member admissible |
| DirectoryServerCollection.InsertKeepsWellFormed | src/libraries/System.DirectoryServices.ActiveDirectory/DirectoryServerCollection.cs:154-192 | `Insert` keeps names unique and every member admissible |
| DirectoryServerCollection.RemoveKeepsWellFormed | src/libraries/System.DirectoryServices.ActiveDirectory/DirectoryServerCollection.cs:194-211 | `Remove` keeps names unique and every member admissible |
| DirectoryServerCollection.ClearKeepsWellFormed | src/libraries/System.DirectoryServices.ActiveDirectory/DirectoryServerCollection.cs:213-242 | `Clear` leaves a well-formed collection |
| DirectoryServerCollection.SetAtCheckedKeepsWellFormed | src/libraries/System.DirectoryServices.ActiveDirectory/DirectoryServerCollection.cs:52-62 | the checked setter keeps names unique and every member admissible |
| DirectoryServerCollection.SetAtAdmitsOldDomainController | src/libraries/System.DirectoryServices.ActiveDirectory/DirectoryServerCollection.cs:52-62 | the setter as written puts a domain controller of version 5.0 into an Active Directory naming-context collection, which `Add` refuses |
| DirectoryServerCollection.SetAtAdmitsForeignSite | src/libraries/System.DirectoryServices.ActiveDirectory/DirectoryServerCollection.cs:52-62 | the setter as written puts a server of another site into a site's collection, which `Add` refuses |
| DirectoryServerCollection.AddAllAppends | src/libraries/System.DirectoryServices.ActiveDirectory/DirectoryServerCollection.cs:115-116 | adding servers one by one keeps the old list as a prefix and, when nothing fails, appends exactly the given servers |
| DirectoryServerCollection.AddAllKeepsWellFormed | src/libraries/System.DirectoryServices.ActiveDirectory/DirectoryServerCollection.cs:115-116 | `AddRange` leaves a well-formed collection, wherever it stops |
| ActiveDirectorySiteLink.ValidateArgument | src/libraries/System.DirectoryServices.ActiveDirectory/ActiveDirectorySiteLink.cs:651-679 | the context is checked first, then the name (null, then empty), then the transport, which must be Rpc (0) or Smtp (1); it succeeds exactly when all three pass |
| ActiveDirectorySiteLink.Create | src/libraries/System.DirectoryServices.ActiveDirectory/ActiveDirectorySiteLink.cs:44-107 | a validation error, a failed bind and a missing ADAM instance each give their exception; a failed creation gives NotSupported exactly for "no such object" on ADAM with the SMTP transport and otherwise the classified COM error; a new link is not existing and reads back cost 100, a 180-minute interval, the given schedule and no options |
| ActiveDirectorySiteLink.Name | src/libraries/System.DirectoryServices.ActiveDirectory/ActiveDirectorySiteLink.cs:203-210 | disposed links refuse; otherwise the link's name |
| ActiveDirectorySiteLink.TransportType | src/libraries/System.DirectoryServices.ActiveDirectory/ActiveDirectorySiteLink.cs:212-219 | disposed links refuse; otherwise the transport |
| ActiveDirectorySiteLink.Sites | src/libraries/System.DirectoryServices.ActiveDirectory/ActiveDirectorySiteLink.cs:221-242 | on an existing link the first read after construction or `Save` loads the directory's list and marks it retrieved; any other read answers the cached list; nothing else changes |
| ActiveDirectorySiteLink.Cost | src/libraries/System.DirectoryServices.ActiveDirectory/ActiveDirectorySiteLink.cs:244-261 | the stored cost, or 0 when the attribute is absent |
| ActiveDirectorySiteLink.SetCost | src/libraries/System.DirectoryServices.ActiveDirectory/ActiveDirectorySiteLink.cs:262-278 | negative costs are refused; any other value is read back unchanged by `Cost`, and only the cost attribute changes |
| ActiveDirectorySiteLink.ReplicationInterval | src/libraries/System.DirectoryServices.ActiveDirectory/ActiveDirectorySiteLink.cs:280-299 | the stored number of minutes in ticks, or 15 minutes when absent |
| ActiveDirectorySiteLink.SetReplicationInterval | src/libraries/System.DirectoryServices.ActiveDirectory/ActiveDirectorySiteLink.cs:300-323 | a negative span, then more than Int32.MaxValue minutes, then a span that is not whole minutes are refused in that order; any other span is read back unchanged and only the interval attribute changes |
| ActiveDirectorySiteLink.SetBits | src/libraries/System.DirectoryServices.ActiveDirectory/ActiveDirectorySiteLink.cs:371-378 | the bits in the mask become all set or all clear and every other bit keeps its value |
| ActiveDirectorySiteLink.WithOption | src/libraries/System.DirectoryServices.ActiveDirectory/ActiveDirectorySiteLink.cs:358-379 | an absent options attribute counts as 0; only the options attribute changes |
| ActiveDirectorySiteLink.SingleBitsAreIndependent | src/libraries/System.DirectoryServices.ActiveDirectory/ActiveDirectorySiteLink.cs:326-514 | setting or clearing any one of the bits 0x1, 0x2 and 0x4 leaves the other two as they were |
| ActiveDirectorySiteLink.ReciprocalReplicationEnabled | src/libraries/System.DirectoryServices.ActiveDirectory/ActiveDirectorySiteLink.cs:326-353 | true exactly when bit 0x2 is set |
| ActiveDirectorySiteLink.NotificationEnabled | src/libraries/System.DirectoryServices.ActiveDirectory/ActiveDirectorySiteLink.cs:389-415 | true exactly when bit 0x1 is set |
| ActiveDirectorySiteLink.DataCompressionEnabled | src/libraries/System.DirectoryServices.ActiveDirectory/ActiveDirectorySiteLink.cs:450-480 | true exactly when bit 0x4 is clear |
| ActiveDirectorySiteLink.SetReciprocalReplicationEnabled | src/libraries/System.DirectoryServices.ActiveDirectory/ActiveDirectorySiteLink.cs:354-386 | the getter reads back the value set; the other two flags and every other bit are unchanged |
| ActiveDirectorySiteLink.SetNotificationEnabled | src/libraries/System.DirectoryServices.ActiveDirectory/ActiveDirectorySiteLink.cs:416-447 | the getter reads back the value set; the other two flags and every other bit are unchanged |
| ActiveDirectorySiteLink.SetDataCompressionEnabled | src/libraries/System.DirectoryServices.ActiveDirectory/ActiveDirectorySiteLink.cs:481-513 | the getter reads back the value set, so bit 0x4 is set exactly when compression is disabled; the other flags and bits are unchanged |
| ActiveDirectorySiteLink.OptionSettersCommute | src/libraries/System.DirectoryServices.ActiveDirectory/ActiveDirectorySiteLink.cs:354-447 | setting notification and two-way sync gives the same link in either order |
| ActiveDirectorySiteLink.Schedule | src/libraries/System.DirectoryServices.ActiveDirectory/ActiveDirectorySiteLink.cs:516-538 | the stored schedule, or null when absent |
| ActiveDirectorySiteLink.SetSchedule | src/libraries/System.DirectoryServices.ActiveDirectory/ActiveDirectorySiteLink.cs:539-559 | the getter reads back the value set (null clears the attribute); only the schedule changes |
| ActiveDirectorySiteLink.Save | src/libraries/System.DirectoryServices.ActiveDirectory/ActiveDirectorySiteLink.cs:562-584 | a failed commit is classified and changes nothing; a successful one makes the link existing, and on a link that already existed forgets the cached site list |
| ActiveDirectorySiteLink.Delete | src/libraries/System.DirectoryServices.ActiveDirectory/ActiveDirectorySiteLink.cs:586-606 | refused unless the link exists; succeeds exactly when it exists and the removal works |
| ActiveDirectorySiteLink.GetDirectoryEntry | src/libraries/System.DirectoryServices.ActiveDirectory/ActiveDirectorySiteLink.cs:616-630 | refused unless the link exists; then the entry for the link's own path |
| ActiveDirectorySiteLink.Dispose | src/libraries/System.DirectoryServices.ActiveDirectory/ActiveDirectorySiteLink.cs:632-649 | the link becomes disposed and nothing else changes |
| ActiveDirectorySiteLink.DisposedLinkRejectsEverything | src/libraries/System.DirectoryServices.ActiveDirectory/ActiveDirectorySiteLink.cs:205-206 | after `Dispose` every getter, setter, `Save`, `Delete` and `GetDirectoryEntry` raises ObjectDisposed |
| ActiveDirectorySiteLink.NewLinkDefaultsDifferFromAbsentDefaults | src/libraries/System.DirectoryServices.ActiveDirectory/ActiveDirectorySiteLink.cs:84-86 | a newly created link reads cost 100 and 180 minutes, and the same link with the cost or the interval attribute removed reads a different value (0, 15 minutes) |
| ActiveDirectorySiteLink.SaveEnablesDeleteAndEntry | src/libraries/System.DirectoryServices.ActiveDirectory/ActiveDirectorySiteLink.cs:562-630 | after a successful `Save` the entry can be fetched, `Delete` succeeds exactly when the removal does, and saving again keeps the link existing |
| ActiveDirectorySubnet.ValidateArgument | src/libraries/System.DirectoryServices.ActiveDirectory/ActiveDirectorySubnet.cs:379-404 | the context is checked first, then the subnet name (null, then empty); it succeeds exactly when both pass |
| ActiveDirectorySubnet.CreateAsWritten | src/libraries/System.DirectoryServices.ActiveDirectory/ActiveDirectorySubnet.cs:116-154 | the two-argument constructor as written: it fails only on validation or a missing ADAM instance; a failed bind or creation still yields a subnet, one without a cached entry |
| ActiveDirectorySubnet.Create | src/libraries/System.DirectoryServices.ActiveDirectory/ActiveDirectorySubnet.cs:116-154 | the corrected constructor: it succeeds exactly when validation, the bind and the creation succeed, and raises their classified error otherwise; a new subnet has an empty entry, no site and is not existing |
| ActiveDirectorySubnet.CreateInSite | src/libraries/System.DirectoryServices.ActiveDirectory/ActiveDirectorySubnet.cs:156-174 | chained to the two-argument constructor as written: its errors pass through, then a null or empty site name and an unknown site are refused; otherwise the subnet holds the found site, and has a cached entry exactly when the bind and the creation worked |
| ActiveDirectorySubnet.CreateInSiteCorrected | src/libraries/System.DirectoryServices.ActiveDirectory/ActiveDirectorySubnet.cs:156-174 | the same checks chained to the corrected two-argument constructor: a COM error is raised before the site name is examined, and success is the corrected subnet with the found site |
| ActiveDirectorySubnet.InSiteConstructorsAgreeOnSuccess | src/libraries/System.DirectoryServices.ActiveDirectory/ActiveDirectorySubnet.cs:141-144 | both three-argument constructors give the same answer when the bind and the creation work; after a failed bind the one as written returns a subnet without an entry where the corrected one raises the classified error |
| ActiveDirectorySubnet.Name | src/libraries/System.DirectoryServices.ActiveDirectory/ActiveDirectorySubnet.cs:198-205 | disposed subnets refuse; otherwise the name |
| ActiveDirectorySubnet.Site | src/libraries/System.DirectoryServices.ActiveDirectory/ActiveDirectorySubnet.cs:207-213 | disposed subnets refuse; otherwise the assigned site |
| ActiveDirectorySubnet.SetSite | src/libraries/System.DirectoryServices.ActiveDirectory/ActiveDirectorySubnet.cs:214-227 | null is accepted and a site that is not existing is refused with InvalidOperation; the getter reads back the value set and nothing else changes |
| ActiveDirectorySubnet.Location | src/libraries/System.DirectoryServices.ActiveDirectory/ActiveDirectorySubnet.cs:230-247 | the stored location, or null when absent |
| ActiveDirectorySubnet.SetLocation | src/libraries/System.DirectoryServices.ActiveDirectory/ActiveDirectorySubnet.cs:248-271 | the getter reads back the value set (null clears the attribute); only the location changes |
| ActiveDirectorySubnet.Save | src/libraries/System.DirectoryServices.ActiveDirectory/ActiveDirectorySubnet.cs:273-312 | an existing subnet has `siteObject` replaced by the site's name (cleared when there is none); a new one has the site's name added, and becomes existing once the commit works; a failed commit leaves the staged value and the flag as they were |
| ActiveDirectorySubnet.StagedSiteObject | src/libraries/System.DirectoryServices.ActiveDirectory/ActiveDirectorySubnet.cs:280-299 | an existing subnet's siteObject is replaced by its site alone (emptied when it has none); a new subnet keeps the old values and adds its site's name |
| ActiveDirectorySubnet.Delete | src/libraries/System.DirectoryServices.ActiveDirectory/ActiveDirectorySubnet.cs:314-334 | refused unless the subnet exists; succeeds exactly when it exists and the removal works |
| ActiveDirectorySubnet.GetDirectoryEntry | src/libraries/System.DirectoryServices.ActiveDirectory/ActiveDirectorySubnet.cs:344-358 | refused unless the subnet exists; then the entry for its own path |
| ActiveDirectorySubnet.Dispose | src/libraries/System.DirectoryServices.ActiveDirectory/ActiveDirectorySubnet.cs:360-377 | the subnet becomes disposed and nothing else changes |
| ActiveDirectorySubnet.DisposedSubnetRejectsEverything | src/libraries/System.DirectoryServices.ActiveDirectory/ActiveDirectorySubnet.cs:199-201 | after `Dispose` every getter, setter, `Save`, `Delete` and `GetDirectoryEntry` raises ObjectDisposed, and `Save` changes nothing |
| ActiveDirectorySubnet.SaveExistingIsIdempotent | src/libraries/System.DirectoryServices.ActiveDirectory/ActiveDirectorySubnet.cs:280-295 | saving an existing subnet a second time changes nothing |
| ActiveDirectorySubnet.SaveEnablesDeleteAndEntry | src/libraries/System.DirectoryServices.ActiveDirectory/ActiveDirectorySubnet.cs:296-358 | a new subnet refuses `Delete` and `GetDirectoryEntry`; after a successful `Save` both work |
| ActiveDirectorySubnet.SwallowedBindFailure | src/libraries/System.DirectoryServices.ActiveDirectory/ActiveDirectorySubnet.cs:141-144 | with the server down, the constructor as written yields a subnet whose `Save` fails with a null reference, while the corrected one raises the server-down error |
| ActiveDirectorySubnet.CreatedSubnetsNeverDereferenceNull | src/libraries/System.DirectoryServices.ActiveDirectory/ActiveDirectorySubnet.cs:116-154 | whatever the remote calls answer, a subnet from the corrected constructor never fails with a null reference in `Location`, its setter or `Save` |
| ApplicationPartition.TypeIsLastRecognised | src/libraries/System.DirectoryServices.ActiveDirectory/ApplicationPartition.cs:980-987 | the capability scan answers the type of a recognised capability after which none is recognised, and no type exactly when none is recognised |
| ApplicationPartition.ScanCapabilities | src/libraries/System.DirectoryServices.ActiveDirectory/ApplicationPartition.cs:980-987 | the loop over the capabilities answers the last recognised type, or none when no capability is recognised |
| ApplicationPartition.Recognised | src/libraries/System.DirectoryServices.ActiveDirectory/ApplicationPartition.cs:981-986 | a capability announces Active Directory exactly when it matches the AD OID and ADAM exactly when it matches the ADAM OID, ignoring case; no capability matches both |
| ApplicationPartition.GetApplicationPartitionType | src/libraries/System.DirectoryServices.ActiveDirectory/ApplicationPartition.cs:975-1001 | a failed root DSE read is classified; no recognised capability is an operation exception; otherwise the scanned type |
| ApplicationPartition.NewCrossRef | src/libraries/System.DirectoryServices.ActiveDirectory/ApplicationPartition.cs:932-973 | a new cross-reference is disabled, names the partition and has no replicas and no security reference domain |
| ApplicationPartition.ValidateParameters | src/libraries/System.DirectoryServices.ActiveDirectory/ApplicationPartition.cs:762-835 | in source order: a null context, a context that is not a server, a null DN, an empty DN, a DN with no DNS form, a one-component DN, a failed type read (classified), an object class given for Active Directory, and for ADAM a null or empty object class each give their exception; success holds exactly when none applies; Active Directory is re-targeted at the server's host name |
| ApplicationPartition.Construct | src/libraries/System.DirectoryServices.ActiveDirectory/ApplicationPartition.cs:838-930 | validation errors pass through; a failed ADAM cross-reference creation or a failed head creation gives the classified COM error against the validated context, and construction succeeds exactly when neither fails; a new partition is uncommitted, not disposed, has nothing pending, and holds a fresh cross-reference exactly when it is ADAM |
| ApplicationPartition.Create | src/libraries/System.DirectoryServices.ActiveDirectory/ApplicationPartition.cs:44-50 | the two-argument constructor yields an uncommitted partition and refuses a null DN |
| ApplicationPartition.CreateWithClass | src/libraries/System.DirectoryServices.ActiveDirectory/ApplicationPartition.cs:52-58 | the constructor with an object class succeeds only for ADAM with a non-empty class, and yields an uncommitted partition |
| ApplicationPartition.Found | src/libraries/System.DirectoryServices.ActiveDirectory/ApplicationPartition.cs:61-70 | a partition produced by a lookup is committed and has nothing pending |
| ApplicationPartition.Dispose | src/libraries/System.DirectoryServices.ActiveDirectory/ApplicationPartition.cs:75-97 | the partition becomes disposed; the model keeps its other fields, since a disposed partition refuses every further use |
| ApplicationPartition.LookupChecks | src/libraries/System.DirectoryServices.ActiveDirectory/ApplicationPartition.cs:314-486 | the lookups check disposal, then a null site name, then for Active Directory an empty site name and commitment, for ADAM discoverability and commitment; they pass exactly when all hold |
| ApplicationPartition.FindDirectoryServer | src/libraries/System.DirectoryServices.ActiveDirectory/ApplicationPartition.cs:1038-1077 | after the checks, ADAM answers the configuration set's instance; Active Directory turns locator code 1355 into ObjectNotFound and other non-zero codes into the Win32 classification, and otherwise answers the locator's name without its two leading characters |
| ApplicationPartition.FindAllDirectoryServers | src/libraries/System.DirectoryServices.ActiveDirectory/ApplicationPartition.cs:1080-1098 | after the checks, the replica list of the directory |
| ApplicationPartition.FindAllDiscoverableDirectoryServers | src/libraries/System.DirectoryServices.ActiveDirectory/ApplicationPartition.cs:1101-1115 | after the checks, only Active Directory answers, with the locator's enumeration |
| ApplicationPartition.Delete | src/libraries/System.DirectoryServices.ActiveDirectory/ApplicationPartition.cs:489-511 | refused while uncommitted; succeeds exactly when the partition is committed and the cross-reference removal works |
| ApplicationPartition.GetDirectoryEntry | src/libraries/System.DirectoryServices.ActiveDirectory/ApplicationPartition.cs:661-669 | refused while uncommitted; then the entry of the partition's head |
| ApplicationPartition.UncommittedPartitionRefusesUse | src/libraries/System.DirectoryServices.ActiveDirectory/ApplicationPartition.cs:1044-1051 | an uncommitted partition refuses every lookup, `Delete` and `GetDirectoryEntry` with InvalidOperation, except that ADAM refuses the discoverable lookups with NotSupported |
| ApplicationPartition.CrossRefEntry | src/libraries/System.DirectoryServices.ActiveDirectory/ApplicationPartition.cs:1005-1019 | a cached cross-reference is used as it is |
| ApplicationPartition.SecurityReferenceDomain | src/libraries/System.DirectoryServices.ActiveDirectory/ApplicationPartition.cs:700-726 | ADAM refuses with NotSupported; an uncommitted partition answers the buffered value, a committed one the cross-reference's |
| ApplicationPartition.SetSecurityReferenceDomain | src/libraries/System.DirectoryServices.ActiveDirectory/ApplicationPartition.cs:727-758 | ADAM refuses; uncommitted, null over a null buffer changes nothing and any other value is buffered and marked modified; committed, the cross-reference receives the value and is marked modified unless null cleared nothing |
| ApplicationPartition.SecurityReferenceDomainRoundTrip | src/libraries/System.DirectoryServices.ActiveDirectory/ApplicationPartition.cs:700-758 | on Active Directory the getter answers what the setter was given, committed or not |
| ApplicationPartition.DirectoryServers | src/libraries/System.DirectoryServices.ActiveDirectory/ApplicationPartition.cs:676-697 | a disposed partition refuses; the cached collection if any; otherwise a committed partition fetches and keeps its cross-reference and gets a collection holding the replicas, bound to the cross-reference's replica list, and a failed replica read is passed on; an uncommitted one gets an empty unbound collection; only the cross-reference and the cached collection change, and the collection stays cached |
| ApplicationPartition.WithServers | src/libraries/System.DirectoryServices.ActiveDirectory/ApplicationPartition.cs:693-695 | edits to the handed-out collection leave changes pending |
| ApplicationPartition.CreationPhase | src/libraries/System.DirectoryServices.ActiveDirectory/ApplicationPartition.cs:520-581 | for Active Directory a head commit that works needs nothing more and one that fails for another reason than inappropriate authentication ends `Save`; success of the manual path leaves a cross-reference staged |
| ApplicationPartition.StagedCrossRef | src/libraries/System.DirectoryServices.ActiveDirectory/ApplicationPartition.cs:932-936 | a cross-reference already held is reused; otherwise a new disabled one for the partition |
| ApplicationPartition.CreateManually | src/libraries/System.DirectoryServices.ActiveDirectory/ApplicationPartition.cs:544-581 | the manual path starts by creating (or, if held, committing) the cross-reference, and succeeds only with one staged |
| ApplicationPartition.ReplicationRequest | src/libraries/System.DirectoryServices.ActiveDirectory/ApplicationPartition.cs:607 | the pushed value is the NTDS settings name, a colon and the cross-reference's name |
| ApplicationPartition.FlushedNew | src/libraries/System.DirectoryServices.ActiveDirectory/ApplicationPartition.cs:621-627 | the flush appends the collection's NTDS settings names, in order, to the replica list and writes the buffered security reference domain when it was modified; nothing else changes |
| ApplicationPartition.PendingCrossRef | src/libraries/System.DirectoryServices.ActiveDirectory/ApplicationPartition.cs:639-644 | a committed partition flushes its own cross-reference with the replica edits applied; nothing else in it changes |
| ApplicationPartition.Cleared | src/libraries/System.DirectoryServices.ActiveDirectory/ApplicationPartition.cs:652-654 | nothing is pending afterwards, and only the cached server collection and the modified flag change |
| ApplicationPartition.SaveCommitted | src/libraries/System.DirectoryServices.ActiveDirectory/ApplicationPartition.cs:636-654 | nothing pending means no call; pending changes are committed in one call and then forgotten; a failed commit leaves the partition as it was |
| ApplicationPartition.PublishPhase | src/libraries/System.DirectoryServices.ActiveDirectory/ApplicationPartition.cs:583-635 | the first call pushes the replication request; the partition is committed exactly when the push works; pending changes are flushed in one more call and forgotten on success |
| ApplicationPartition.Save | src/libraries/System.DirectoryServices.ActiveDirectory/ApplicationPartition.cs:514-655 | a disposed partition refuses; a successful save leaves it committed with nothing pending; the name, type and context never change, and a committed partition stays committed |
| ApplicationPartition.AdSaveCreatesCrossRefOnlyOnAuthFailure | src/libraries/System.DirectoryServices.ActiveDirectory/ApplicationPartition.cs:520-541 | for Active Directory a head-commit error other than inappropriate authentication surfaces at once, and a working head commit leads straight to the push with no cross-reference created or removed |
| ApplicationPartition.ManualCreationComesFirst | src/libraries/System.DirectoryServices.ActiveDirectory/ApplicationPartition.cs:544-553 | when `Save` creates the cross-reference itself, that creation is the first call after the failed Active Directory head commit, if any |
| ApplicationPartition.CrossRefFailureNeverCommitsHead | src/libraries/System.DirectoryServices.ActiveDirectory/ApplicationPartition.cs:547-553 | if creating or committing the cross-reference fails, the head is not committed afterwards and the partition stays uncommitted |
| ApplicationPartition.HeadFailureRemovesCrossRef | src/libraries/System.DirectoryServices.ActiveDirectory/ApplicationPartition.cs:555-571 | if the head commit after the manual creation fails, the cross-reference is removed before the error surfaces, and the removal's own error wins when it fails too |
| ApplicationPartition.CommittedOnlyAfterPush | src/libraries/System.DirectoryServices.ActiveDirectory/ApplicationPartition.cs:599-618 | an uncommitted partition becomes committed only when the push of "NTDS settings name:cross-reference name" was made and worked |
| ApplicationPartition.CommittedSaveOnlyFlushes | src/libraries/System.DirectoryServices.ActiveDirectory/ApplicationPartition.cs:636-650 | saving a committed partition makes at most one call, a cross-reference commit, exactly when changes are pending |
| ApplicationPartition.SaveIsIdempotent | src/libraries/System.DirectoryServices.ActiveDirectory/ApplicationPartition.cs:636-654 | after a successful `Save`, saving again makes no call and changes nothing, whatever the directory would answer |
| ApplicationPartition.ConstructionDecidesCommitted | src/libraries/System.DirectoryServices.ActiveDirectory/ApplicationPartition.cs:34 | a partition from the public constructors starts uncommitted and becomes committed only if `Save`'s push to the naming master worked |
| ConstraintLinkedAttrSet.MoveNext | src/libraries/System.DirectoryServices.AccountManagement/AD/ADDNConstraintLinkedAttrSet.cs:100-166 | the cursor moves forward past rejected members only, stops on a null or an accepted member or the end, and the call returns true exactly when it stops on a member |
| ConstraintLinkedAttrSet.MatchLoop | src/libraries/System.DirectoryServices.AccountManagement/AD/ADDNConstraintLinkedAttrSet.cs:111-162 | from the current element, the loop passes only rejected members and ends on a null, an accepted member or the end |
| ConstraintLinkedAttrSet.Accepts | src/libraries/System.DirectoryServices.AccountManagement/AD/ADDNConstraintLinkedAttrSet.cs:116-151 | a container constraint accepts every member when the container string is empty and no member whose distinguished name is shorter than it; a validator constraint without a validator accepts nobody |
| ConstraintLinkedAttrSet.ContainerMatchIsSuffix | src/libraries/System.DirectoryServices.AccountManagement/AD/ADDNConstraintLinkedAttrSet.cs:125-126 | a container constraint accepts a member exactly when its distinguished name is some string followed by the container string, compared ordinally |
| ConstraintLinkedAttrSet.FirstStop | src/libraries/System.DirectoryServices.AccountManagement/AD/ADDNConstraintLinkedAttrSet.cs:113-128 | the first index from a position whose element is null or accepted, with only rejected members before it |
| ConstraintLinkedAttrSet.MatchingIsAccepted | src/libraries/System.DirectoryServices.AccountManagement/AD/ADDNConstraintLinkedAttrSet.cs:118-150 | every member the reference enumeration returns satisfies the constraint |
| ConstraintLinkedAttrSet.MoveNextSkipsToFirstStop | src/libraries/System.DirectoryServices.AccountManagement/AD/ADDNConstraintLinkedAttrSet.cs:107-164 | `MoveNext` stops at the first null or accepted element after the current one; it returns false when the base cursor is exhausted or that element is null, and a true answer means the current member is accepted |
| ConstraintLinkedAttrSet.EnumerateIsMatching | src/libraries/System.DirectoryServices.AccountManagement/AD/ADDNConstraintLinkedAttrSet.cs:159-164 | calling `MoveNext` until it returns false yields exactly the accepted members after the cursor, in their original order, up to the first null |

## Left out

- ActiveDirectorySubnet.CreateAsWritten: a failed read of the configuration naming context from the root DSE is not a separate input. PropertyManager performs that read and is not part of this model. `BindFails` stands for the container bind and the child creation, the two steps whose COM errors reach the swallowing catch.
- Remote calls. Directory entries, searchers, the locator, the configuration set and root DSE reads are inputs, not a store: `StoreResult` per call, or the value the directory answers (replica lists, the ADAM instance, the server's host name and NTDS settings name, the capability list).
- `FindByName` and `GetApplicationPartition`. They are discovery searches whose result is only the internal constructors, which are modelled (`Found`, the internal site-link constructor fields).
- `ActiveDirectorySiteLink.GetSites`. Its path cracking is COM; the list it loads is the `siteList` input of `Sites`.
- `ActiveDirectorySchedule`. It is not part of this model; a schedule is its raw bytes.
- `FormatMessageW`. The message text is not modelled, only the code it is asked to describe (`MessageCode`).
- `CreateForestTrustCollisionException`. It walks native memory and is not part of this model.
- The GUID that names a new cross-reference. The name is an input (`crossRefDn`, `newCrossRefDn`).
- `Utils.GetDnsNameFromDN` and `Utils.GetDNComponents`. They are not part of this model; their answers are the `DnShape` input. A DN the first cannot convert is modelled as the `InvalidDNFormat` argument error.
- `Utils.Compare`. It is not part of this model; names are compared by ASCII case folding, an equivalence.
- The object identifiers of the Active Directory and ADAM capabilities. They are not in these files; the documented values 1.2.840.113556.1.4.800 and 1.2.840.113556.1.4.1851 are used.
- `NumericOSVersion`. It is a double; versions are integer tenths (5.2 is 52).
- `TimeSpan.TotalMinutes`. It is a double; spans are integer ticks with exact minute arithmetic.
- The `Hashtable.Synchronized` change list. Concurrency is not modelled; the change list is a map.
- `CollectionBase`. Its order of hooks is assumed from the framework's reference implementation: `OnValidate`, the change, then `On*Complete`. Its rollback when a completion hook throws is not modelled, because a hook only fails on a COM error of the property cache.
- Property-cache COM failures. Getters and hooks that read the cached entry cannot fail in the model.
- `PropertyValueCollection.Remove` of a value not present does nothing; `RemoveFirst` models that.
- DN escaping (`Utils.GetEscapedPath`) and the head entry's `objectClass` and `instanceType` values.
- `RefreshCache`. The refreshed cross-reference is taken to be the staged one.
- `ApplicationPartition.SecurityReferenceDomain`: the getter does not cache the cross-reference it fetches; the setter does.
- `ApplicationPartition.PendingCrossRef`: the original shares one cross-reference entry between the partition and its replica collection; the model keeps two copies and reconciles them when `Save` flushes.
- `ConstraintLinkedAttrSet.MoveNext`: the validator delegate is a pure function. The original may call it twice on the same member after a skip, and the model assumes both calls agree.
- `ConstraintLinkedAttrSet.BaseMoveNext`: the base set's enumeration over group members, nested groups and the primary group is a finite cursor over its results.
- ApplicationPartition.Dispose: the original also releases the cached head and cross-reference entries; the model keeps them, since every member of a disposed partition refuses before looking at them.
- `SecurityMasks.cs`. It declares constants only.
- The source comment on `ContainerStringMatch` says "begins with", but the code tests `EndsWith`. The model follows the code.

## Findings

| source | as written | input that shows it | evidently intended | confidence | as-written member | corrected member |
|---|---|---|---|---|---|---|
| src/libraries/System.DirectoryServices.ActiveDirectory/DirectoryServerCollection.cs:52-62 | the indexer setter checks only null and duplicate names before `List[index] = server`; `OnValidate` checks only the server's kind | a domain controller of version 5.0 set into an Active Directory naming-context collection, or a server of another site set into a site's collection | the setter refuses what `Add` and `Insert` refuse: old domain controllers and servers of other sites | medium, not executed | DirectoryServerCollection.SetAtAdmitsOldDomainController | DirectoryServerCollection.SetAtCheckedKeepsWellFormed |
| src/libraries/System.DirectoryServices.ActiveDirectory/ActiveDirectorySubnet.cs:141-144 | the COM error of the bind or of the child creation is classified but not thrown; the three-argument constructor chains to this one and inherits it (`CreateInSite` as written, `CreateInSiteCorrected` corrected) | the bind to the subnets container, or the `Children.Add` of the new entry, fails with a COM error (for instance the server went down after the root DSE was read): the constructor returns a subnet with a null cached entry | the classified error is thrown, as in every other constructor of these classes | high, not executed | ActiveDirectorySubnet.SwallowedBindFailure | ActiveDirectorySubnet.CreatedSubnetsNeverDereferenceNull |

=== FILE: application_partition.dfy ===
/**
 `ApplicationPartition`: an application directory partition of Active
 Directory or ADAM, created in two phases.

 The public constructors validate their arguments and stage the partition's
 head entry (and, for ADAM, a disabled cross-reference) without writing
 anything; the partition is then uncommitted. `Save` writes it: it commits
 the head entry and the cross-reference (creating the cross-reference by
 hand when the directory does not), pushes the cross-reference to the
 naming-master, marks the partition committed, and then flushes the replica
 and security-reference-domain changes buffered while it was uncommitted.
 Partitions found by lookup are committed from the start.

 Remote calls are inputs saying whether the call worked (the oracle records
 of this module); the values the directory answers with (the naming
 master's cross-reference, the server's NTDS settings name, the capability
 list of the root DSE) are inputs too.
 */
module ApplicationPartition {
  import opened Common
  import opened Errors
  import opened ExceptionHelper
  import opened Servers
  import DirectoryServerCollection

  /** Active Directory or ADAM: decides which branch of nearly every member runs. */
  datatype PartitionType = AD | ADAM

  /** The root DSE capabilities that identify an Active Directory server and an
      ADAM instance (`LDAP_CAP_ACTIVE_DIRECTORY_OID` and
      `LDAP_CAP_ACTIVE_DIRECTORY_ADAM_OID`). */
  const AdCapabilityOid: string := "1.2.840.113556.1.4.800"
  const AdamCapabilityOid: string := "1.2.840.113556.1.4.1851"

  /** `LDAP_INAPPROPRIATE_AUTH` as an HRESULT: the head commit fails this way when
      the directory could not create the cross-reference itself. */
  const E_INAPPROPRIATE_AUTH: int32 := Hr(0x8007_2029)

  /** The locator's answer when no replica of the partition is found. */
  const ERROR_NO_SUCH_DOMAIN: int32 := 1355

  /** The cached cross-reference entry of the partition in the partitions
      container: its own name, the host in `dnsRoot`, `Enabled`, `nCName`, and
      the two attributes the partition edits. */
  datatype CrossRef = CrossRef(
    dn: string,
    dnsRoot: Option<string>,
    enabled: bool,
    ncName: string,
    replicaLocations: seq<string>,
    sdReferenceDomain: Option<string>)

  /** The partition object. `crossRef` is the cached cross-reference entry
      (None until it is created or looked up); `cachedServers` the collection
      handed out by `DirectoryServers`; `securityRefDomain` the value buffered
      while uncommitted. */
  datatype Partition = Partition(
    context: DirectoryContext,
    name: string,
    dnsName: string,
    appType: PartitionType,
    committed: bool,
    disposed: bool,
    crossRef: Option<CrossRef>,
    cachedServers: Option<DirectoryServerCollection.Collection>,
    securityRefDomain: Option<string>,
    securityRefDomainModified: bool)

  /** Whether `Save` has buffered changes to write into the cross-reference. */
  predicate Pending(p: Partition)
  {
    p.cachedServers.Some? || p.securityRefDomainModified
  }

  // ---------------------------------------------------------------------------
  // Partition type
  // ---------------------------------------------------------------------------

  /** The type one capability announces, compared without regard to case. */
  function Recognised(capability: string): (r: Option<PartitionType>)
    ensures r == Some(AD) <==> SameName(capability, AdCapabilityOid)
    ensures r == Some(ADAM) <==> SameName(capability, AdamCapabilityOid)
  {
    assert !(SameName(capability, AdCapabilityOid) && SameName(capability, AdamCapabilityOid)) by {
      SameNameIsEquivalence(capability, AdCapabilityOid, AdamCapabilityOid);
      SameNameIsEquivalence(AdCapabilityOid, capability, AdamCapabilityOid);
      SameNameIsEquivalence(AdCapabilityOid, AdamCapabilityOid, AdamCapabilityOid);
    }
    if SameName(capability, AdamCapabilityOid) then Some(ADAM)
    else if SameName(capability, AdCapabilityOid) then Some(AD)
    else None
  }

  /** The type a capability list announces: the last recognised capability
      decides, as the scan overwrites its answer at every match. */
  function TypeFromCapabilities(caps: seq<string>): Option<PartitionType>
    decreases |caps|
  {
    if |caps| == 0 then None
    else if Recognised(caps[|caps| - 1]).Some? then Recognised(caps[|caps| - 1])
    else TypeFromCapabilities(caps[..|caps| - 1])
  }

  /** The type is that of a recognised capability after which no capability is
      recognised; there is none exactly when no capability is recognised. */
  lemma {:induction false} TypeIsLastRecognised(caps: seq<string>, t: PartitionType)
    ensures TypeFromCapabilities(caps) == Some(t) <==>
              exists i | 0 <= i < |caps| :: Recognised(caps[i]) == Some(t) && NoneRecognisedAfter(caps, i)
    ensures TypeFromCapabilities(caps).None? <==> forall i | 0 <= i < |caps| :: Recognised(caps[i]).None?
    decreases |caps|
  {
    if |caps| > 0 {
      var n := |caps| - 1;
      var init := caps[..n];
      assert forall i | 0 <= i < n :: init[i] == caps[i];
      TypeIsLastRecognised(init, t);
      if Recognised(caps[n]).Some? {
        if Recognised(caps[n]) == Some(t) {
          assert NoneRecognisedAfter(caps, n);
        } else {
          forall i | 0 <= i < |caps| && Recognised(caps[i]) == Some(t)
            ensures !NoneRecognisedAfter(caps, i)
          {
            assert i < n;
            assert !(Recognised(caps[n]).None?);
          }
        }
      } else {
        if TypeFromCapabilities(init) == Some(t) {
          var i :| 0 <= i < n && Recognised(init[i]) == Some(t) && NoneRecognisedAfter(init, i);
          assert NoneRecognisedAfter(caps, i);
        }
        forall i | 0 <= i < |caps| && Recognised(caps[i]) == Some(t) && NoneRecognisedAfter(caps, i)
          ensures TypeFromCapabilities(init) == Some(t)
        {
          assert i < n;
          assert NoneRecognisedAfter(init, i);
        }
      }
    }
  }

  /** No capability after position `i` is recognised. */
  predicate NoneRecognisedAfter(caps: seq<string>, i: int)
  {
    forall j | 0 <= j < |caps| && i < j :: Recognised(caps[j]).None?
  }

  /** The capability scan of `GetApplicationPartitionType`, in list order. */
  method ScanCapabilities(caps: seq<string>) returns (t: Option<PartitionType>)
    ensures t.None? <==> forall i | 0 <= i < |caps| :: Recognised(caps[i]).None?
    ensures t.Some? ==> exists i | 0 <= i < |caps| :: Recognised(caps[i]) == t && NoneRecognisedAfter(caps, i)
  {
    t := None;
    var i := 0;
    while i < |caps|
      invariant 0 <= i <= |caps|
      invariant t == TypeFromCapabilities(caps[..i])
    {
      assert caps[..i + 1][..i] == caps[..i];
      if SameName(caps[i], AdCapabilityOid) {
        t := Some(AD);
      }
      if SameName(caps[i], AdamCapabilityOid) {
        t := Some(ADAM);
      }
      i := i + 1;
    }
    assert caps[..|caps|] == caps;
    if t.Some? {
      TypeIsLastRecognised(caps, t.value);
    } else {
      TypeIsLastRecognised(caps, AD);
    }
  }

  /** `GetApplicationPartitionType`: a COM error while reading the root DSE is
      classified; a list with no recognised capability is an operation error. */
  function GetApplicationPartitionType(context: DirectoryContext, read: StoreResult, caps: seq<string>)
    : (r: Result<PartitionType>)
    ensures read.FailsWith? ==> r == Err(FromComException(Some(context), read.code))
    ensures read.Succeeds? && TypeFromCapabilities(caps).None? ==> r == Err(Operation(0))
    ensures r.Ok? <==> read.Succeeds? && TypeFromCapabilities(caps).Some?
    ensures r.Ok? ==> TypeFromCapabilities(caps) == Some(r.value)
  {
    if read.FailsWith? then Err(FromComException(Some(context), read.code))
    else match TypeFromCapabilities(caps)
      case None => Err(Operation(0))
      case Some(t) => Ok(t)
  }

  // ---------------------------------------------------------------------------
  // Construction
  // ---------------------------------------------------------------------------

  /** What parsing a distinguished name yields: its DNS form (None when the
      name cannot be converted) and its number of components. */
  datatype DnShape = DnShape(dnsName: Option<string>, components: nat)

  /** The answers of the directory during construction:
      the shape of the DN; the root DSE capability read and its values;
      `hostName`, the server's `dnsHostName` (None when reading it failed,
      whose error is classified and dropped); the cross-reference creation
      for ADAM with the name it gets and the host it records; and the
      creation of the head entry. */
  datatype CreationEnv = CreationEnv(
    shape: DnShape,
    capabilityRead: StoreResult,
    capabilities: seq<string>,
    hostName: Option<string>,
    crossRefInit: StoreResult,
    crossRefDn: string,
    adamHostName: Option<string>,
    headCreation: StoreResult)

  /** A new, disabled cross-reference for `dn`. Its `dnsRoot` is the host of
      the ADAM instance, or for Active Directory the server named by the
      context. */
  function NewCrossRef(appType: PartitionType, context: DirectoryContext, dn: string,
                       crossRefDn: string, adamHostName: Option<string>): (cr: CrossRef)
    ensures !cr.enabled && cr.ncName == dn && cr.dn == crossRefDn
    ensures cr.replicaLocations == [] && cr.sdReferenceDomain.None?
  {
    CrossRef(crossRefDn, if appType == ADAM then adamHostName else context.name, false, dn, [], None)
  }

  /** `ValidateApplicationPartitionParameters`: the context must name a server
      and the DN must be non-null, non-empty, well-formed and have more than
      one component; an explicit object class is refused for Active
      Directory and must be non-null and non-empty for ADAM. For Active
      Directory the context is then re-targeted at the server's DNS name.
      Yields the context, the DN, its DNS form and the partition type. */
  function ValidateParameters(context: Option<DirectoryContext>, distinguishedName: Option<string>,
                              objectClass: Option<string>, objectClassSpecified: bool, env: CreationEnv)
    : (r: Result<(DirectoryContext, string, string, PartitionType)>)
    ensures context.None? ==> r == Err(ArgumentNull("context"))
    ensures context.Some? && (context.value.name.None? || !context.value.isServer) ==>
              r == Err(Argument(TargetShouldBeServer))
    ensures context.Some? && context.value.name.Some? && context.value.isServer ==>
              (distinguishedName.None? ==> r == Err(ArgumentNull("distinguishedName")))
              && (distinguishedName == Some("") ==> r == Err(Argument(EmptyStringParameter)))
              && (distinguishedName.Some? && distinguishedName.value != "" && env.shape.dnsName.Some? && env.shape.components == 1
                  ==> r == Err(NotSupported(OneLevelPartitionNotSupported)))
    ensures r.Ok? ==> distinguishedName.Some? && distinguishedName.value != ""
                      && env.shape.dnsName.Some? && env.shape.components != 1
    ensures r.Ok? ==> r.value.1 == distinguishedName.value && r.value.2 == env.shape.dnsName.value
    ensures r.Ok? ==> Some(r.value.3) == TypeFromCapabilities(env.capabilities)
    ensures r.Ok? && r.value.3.AD? ==> !objectClassSpecified && r.value.0.name == env.hostName
    ensures r.Ok? && r.value.3.ADAM? ==> r.value.0 == context.value
    ensures r.Ok? && objectClassSpecified ==> objectClass.Some? && objectClass.value != ""
    ensures context.Some? && context.value.name.Some? && context.value.isServer
            && distinguishedName.Some? && distinguishedName.value != ""
            && env.shape.dnsName.Some? && env.shape.components != 1
            && GetApplicationPartitionType(context.value, env.capabilityRead, env.capabilities) == Ok(AD)
            && objectClassSpecified
            ==> r == Err(InvalidOperation(NoObjectClassForADPartition))
    ensures context.Some? && context.value.name.Some? && context.value.isServer
            && distinguishedName.Some? && distinguishedName.value != "" && env.shape.dnsName.None?
            ==> r == Err(Argument(InvalidDNFormat))
    ensures context.Some? && context.value.name.Some? && context.value.isServer
            && distinguishedName.Some? && distinguishedName.value != ""
            && env.shape.dnsName.Some? && env.shape.components != 1
            && GetApplicationPartitionType(context.value, env.capabilityRead, env.capabilities).Err?
            ==> r == Err(GetApplicationPartitionType(context.value, env.capabilityRead, env.capabilities).error)
    ensures context.Some? && context.value.name.Some? && context.value.isServer
            && distinguishedName.Some? && distinguishedName.value != ""
            && env.shape.dnsName.Some? && env.shape.components != 1
            && GetApplicationPartitionType(context.value, env.capabilityRead, env.capabilities) == Ok(ADAM)
            && objectClassSpecified
            ==> (objectClass.None? ==> r == Err(ArgumentNull("objectClass")))
                && (objectClass == Some("") ==> r == Err(Argument(EmptyStringParameter)))
    ensures r.Ok? <==> context.Some? && context.value.name.Some? && context.value.isServer
                       && distinguishedName.Some? && distinguishedName.value != ""
                       && env.shape.dnsName.Some? && env.shape.components != 1
                       && GetApplicationPartitionType(context.value, env.capabilityRead, env.capabilities).Ok?
                       && (objectClassSpecified ==>
                             GetApplicationPartitionType(context.value, env.capabilityRead, env.capabilities) == Ok(ADAM)
                             && objectClass.Some? && objectClass.value != "")
  {
    if context.None? then Err(ArgumentNull("context"))
    else
      var c := context.value;
      if c.name.None? || !c.isServer then Err(Argument(TargetShouldBeServer))
      else if distinguishedName.None? then Err(ArgumentNull("distinguishedName"))
      else if distinguishedName.value == "" then Err(Argument(EmptyStringParameter))
      else if env.shape.dnsName.None? then Err(Argument(InvalidDNFormat))
      else if env.shape.components == 1 then Err(NotSupported(OneLevelPartitionNotSupported))
      else
        var t :- GetApplicationPartitionType(c, env.capabilityRead, env.capabilities);
        if t.AD? && objectClassSpecified then Err(InvalidOperation(NoObjectClassForADPartition))
        else if objectClassSpecified && objectClass.None? then Err(ArgumentNull("objectClass"))
        else if objectClassSpecified && objectClass.value == "" then Err(Argument(EmptyStringParameter))
        else if t.AD? then
          Ok((c.(name := env.hostName, serverName := env.hostName), distinguishedName.value,
              env.shape.dnsName.value, AD))
        else Ok((c, distinguishedName.value, env.shape.dnsName.value, ADAM))
  }

  /** The public constructors (`objectClassSpecified` tells them apart):
      validate, then stage the head entry; for ADAM a disabled
      cross-reference is created first. The new partition is uncommitted. */
  function Construct(context: Option<DirectoryContext>, distinguishedName: Option<string>,
                     objectClass: Option<string>, objectClassSpecified: bool, env: CreationEnv)
    : (r: Result<Partition>)
    ensures ValidateParameters(context, distinguishedName, objectClass, objectClassSpecified, env).Err? ==>
              r == Err(ValidateParameters(context, distinguishedName, objectClass, objectClassSpecified, env).error)
    ensures var v := ValidateParameters(context, distinguishedName, objectClass, objectClassSpecified, env);
      r.Ok? <==> v.Ok? && env.headCreation.Succeeds? && (v.value.3.ADAM? ==> env.crossRefInit.Succeeds?)
    ensures var v := ValidateParameters(context, distinguishedName, objectClass, objectClassSpecified, env);
      v.Ok? && v.value.3.ADAM? && env.crossRefInit.FailsWith? ==>
        r == Err(FromComException(Some(v.value.0), env.crossRefInit.code))
    ensures var v := ValidateParameters(context, distinguishedName, objectClass, objectClassSpecified, env);
      v.Ok? && (v.value.3.AD? || env.crossRefInit.Succeeds?) && env.headCreation.FailsWith? ==>
        r == Err(FromComException(Some(v.value.0), env.headCreation.code))
    ensures r.Ok? ==> !r.value.committed && !r.value.disposed && !Pending(r.value)
                      && r.value.securityRefDomain.None?
    ensures r.Ok? ==> r.value.name == distinguishedName.value
    ensures r.Ok? ==> (r.value.crossRef.Some? <==> r.value.appType.ADAM?)
    ensures r.Ok? && r.value.appType.ADAM? ==>
              r.value.crossRef.value == NewCrossRef(ADAM, r.value.context, r.value.name, env.crossRefDn, env.adamHostName)
  {
    var (c, dn, dns, t) :- ValidateParameters(context, distinguishedName, objectClass, objectClassSpecified, env);
    if t.AD? then
      if env.headCreation.FailsWith? then Err(FromComException(Some(c), env.headCreation.code))
      else Ok(Partition(c, dn, dns, AD, false, false, None, None, None, false))
    else if env.crossRefInit.FailsWith? then Err(FromComException(Some(c), env.crossRefInit.code))
    else if env.headCreation.FailsWith? then Err(FromComException(Some(c), env.headCreation.code))
    else
      var cr := NewCrossRef(ADAM, c, dn, env.crossRefDn, env.adamHostName);
      Ok(Partition(c, dn, dns, ADAM, false, false, Some(cr), None, None, false))
  }

  /** `new ApplicationPartition(context, distinguishedName)`. */
  function Create(context: Option<DirectoryContext>, distinguishedName: Option<string>, env: CreationEnv)
    : (r: Result<Partition>)
    ensures r.Ok? ==> !r.value.committed
    ensures distinguishedName.None? && context.Some? && context.value.name.Some? && context.value.isServer ==>
              r == Err(ArgumentNull("distinguishedName"))
  {
    Construct(context, distinguishedName, None, false, env)
  }

  /** `new ApplicationPartition(context, distinguishedName, objectClass)`. */
  function CreateWithClass(context: Option<DirectoryContext>, distinguishedName: Option<string>,
                           objectClass: Option<string>, env: CreationEnv)
    : (r: Result<Partition>)
    ensures r.Ok? ==> !r.value.committed && r.value.appType.ADAM? && objectClass.Some? && objectClass.value != ""
  {
    Construct(context, distinguishedName, objectClass, true, env)
  }

  /** The internal constructor used by lookups: the partition already exists,
      so it is committed. */
  function Found(context: DirectoryContext, distinguishedName: string, dnsName: string,
                 appType: PartitionType): (p: Partition)
    ensures p.committed && !p.disposed && !Pending(p) && p.crossRef.None?
    ensures p.name == distinguishedName && p.appType == appType
  {
    Partition(context, distinguishedName, dnsName, appType, true, false, None, None, None, false)
  }

  /** `Dispose`: marks the partition disposed and changes nothing else. */
  function Dispose(p: Partition): (r: Partition)
    ensures r.disposed
    ensures r.(disposed := p.disposed) == p
  {
    p.(disposed := true)
  }

  // ---------------------------------------------------------------------------
  // Guards of the lookups, Delete and GetDirectoryEntry
  // ---------------------------------------------------------------------------

  /** The site argument of a lookup overload: none, or a possibly null name. */
  datatype SiteArg = AnySite | InSite(siteName: Option<string>)

  /** The checks a lookup makes before asking the directory: disposed, null
      site name, then for Active Directory (in the `*Internal` helper) an
      empty site name and an uncommitted partition; for ADAM an uncommitted
      partition, or for the discoverable lookups always `NotSupported`. */
  function LookupChecks(p: Partition, site: SiteArg, discoverable: bool): (r: Result<()>)
    ensures p.disposed ==> r == Err(ObjectDisposed)
    ensures !p.disposed && site == InSite(None) ==> r == Err(ArgumentNull("siteName"))
    ensures r.Ok? <==> !p.disposed && p.committed && site != InSite(None)
                       && (p.appType.AD? ==> site != InSite(Some("")))
                       && (p.appType.ADAM? ==> !discoverable)
    ensures !p.disposed && site != InSite(None) && p.appType.ADAM? && discoverable ==>
              r == Err(NotSupported(OperationInvalidForADAM))
    ensures !p.disposed && site != InSite(None) && !p.committed && (p.appType.AD? ==> site != InSite(Some("")))
            && !(p.appType.ADAM? && discoverable)
            ==> r == Err(InvalidOperation(UncommittedObject))
  {
    if p.disposed then Err(ObjectDisposed)
    else if site == InSite(None) then Err(ArgumentNull("siteName"))
    else if p.appType.AD? then
      if site == InSite(Some("")) then Err(Argument(EmptyStringParameter))
      else if !p.committed then Err(InvalidOperation(UncommittedObject))
      else Ok(())
    else if discoverable then Err(NotSupported(OperationInvalidForADAM))
    else if !p.committed then Err(InvalidOperation(UncommittedObject))
    else Ok(())
  }

  /** The answer of the domain-controller locator: its error code and, when
      the code is zero, the server name with its leading backslashes. */
  datatype LocatorAnswer = LocatorAnswer(code: int32, domainControllerName: string)

  /** `FindDirectoryServer` (all four overloads; the rediscovery flag only
      changes the locator call). Active Directory asks the locator and strips
      the two leading characters of its answer; ADAM asks the configuration
      set (`adamInstance`). The result is the server's name. */
  function FindDirectoryServer(p: Partition, site: SiteArg, locator: LocatorAnswer, adamInstance: Result<string>)
    : (r: Result<string>)
    ensures LookupChecks(p, site, false).Err? ==> r == Err(LookupChecks(p, site, false).error)
    ensures LookupChecks(p, site, false).Ok? && p.appType.ADAM? ==> r == adamInstance
    ensures LookupChecks(p, site, false).Ok? && p.appType.AD? && locator.code == ERROR_NO_SUCH_DOMAIN ==>
              r == Err(ObjectNotFound)
    ensures LookupChecks(p, site, false).Ok? && p.appType.AD? && locator.code != ERROR_NO_SUCH_DOMAIN && locator.code != 0
            ==> r == Err(FromErrorCode(locator.code, None))
    ensures r.Ok? && p.appType.AD? ==>
              && locator.code == 0 && |locator.domainControllerName| >= 2
              && locator.domainControllerName == locator.domainControllerName[..2] + r.value
  {
    var _ :- LookupChecks(p, site, false);
    if p.appType.ADAM? then adamInstance
    else if locator.code == ERROR_NO_SUCH_DOMAIN then Err(ObjectNotFound)
    else if locator.code != 0 then Err(FromErrorCode(locator.code, None))
    else if |locator.domainControllerName| < 2 then Err(ArgumentOutOfRange)
    else Ok(locator.domainControllerName[2..])
  }

  /** `FindAllDirectoryServers` (both overloads): the replica list of the
      directory, once the checks pass. */
  function FindAllDirectoryServers(p: Partition, site: SiteArg, replicas: Result<seq<string>>)
    : (r: Result<seq<string>>)
    ensures LookupChecks(p, site, false).Err? ==> r == Err(LookupChecks(p, site, false).error)
    ensures LookupChecks(p, site, false).Ok? ==> r == replicas
  {
    var _ :- LookupChecks(p, site, false);
    replicas
  }

  /** `FindAllDiscoverableDirectoryServers` (both overloads): Active Directory
      only. */
  function FindAllDiscoverableDirectoryServers(p: Partition, site: SiteArg, discovered: Result<seq<string>>)
    : (r: Result<seq<string>>)
    ensures LookupChecks(p, site, true).Err? ==> r == Err(LookupChecks(p, site, true).error)
    ensures r.Ok? ==> p.appType.AD? && r == discovered
  {
    var _ :- LookupChecks(p, site, true);
    discovered
  }

  /** `Delete`: removes the cross-reference, once the partition is committed. */
  function Delete(p: Partition, removal: StoreResult): (r: Result<()>)
    ensures p.disposed ==> r == Err(ObjectDisposed)
    ensures !p.disposed && !p.committed ==> r == Err(InvalidOperation(UncommittedObject))
    ensures !p.disposed && p.committed && removal.FailsWith? ==> r == Err(FromComException(Some(p.context), removal.code))
    ensures r.Ok? <==> !p.disposed && p.committed && removal.Succeeds?
  {
    if p.disposed then Err(ObjectDisposed)
    else if !p.committed then Err(InvalidOperation(UncommittedObject))
    else if removal.FailsWith? then Err(FromComException(Some(p.context), removal.code))
    else Ok(())
  }

  /** `GetDirectoryEntry`: the entry of the partition's head, once committed. */
  function GetDirectoryEntry(p: Partition): (r: Result<string>)
    ensures p.disposed ==> r == Err(ObjectDisposed)
    ensures !p.disposed && !p.committed ==> r == Err(InvalidOperation(CannotGetObject))
    ensures r.Ok? <==> !p.disposed && p.committed
    ensures r.Ok? ==> r.value == p.name
  {
    if p.disposed then Err(ObjectDisposed)
    else if !p.committed then Err(InvalidOperation(CannotGetObject))
    else Ok(p.name)
  }

  /** An uncommitted partition refuses every lookup, `Delete` and
      `GetDirectoryEntry` with `InvalidOperation`, except that ADAM refuses
      the discoverable lookups with `NotSupported` whatever its state. */
  lemma UncommittedPartitionRefusesUse(p: Partition, site: SiteArg, locator: LocatorAnswer,
                                       adamInstance: Result<string>, found: Result<seq<string>>,
                                       removal: StoreResult)
    requires !p.disposed && !p.committed
    requires site.InSite? ==> site.siteName.Some? && site.siteName.value != ""
    ensures FindDirectoryServer(p, site, locator, adamInstance) == Err(InvalidOperation(UncommittedObject))
    ensures FindAllDirectoryServers(p, site, found) == Err(InvalidOperation(UncommittedObject))
    ensures FindAllDiscoverableDirectoryServers(p, site, found) ==
              (if p.appType.ADAM? then Err(NotSupported(OperationInvalidForADAM))
               else Err(InvalidOperation(UncommittedObject)))
    ensures Delete(p, removal) == Err(InvalidOperation(UncommittedObject))
    ensures GetDirectoryEntry(p) == Err(InvalidOperation(CannotGetObject))
  {
  }

  // ---------------------------------------------------------------------------
  // Properties that edit the cross-reference
  // ---------------------------------------------------------------------------

  /** `GetCrossRefEntry`: the cached cross-reference, or the one the directory
      holds (`fetched`) when none is cached yet. */
  function CrossRefEntry(p: Partition, fetched: CrossRef): (cr: CrossRef)
    ensures p.crossRef.Some? ==> cr == p.crossRef.value
  {
    if p.crossRef.Some? then p.crossRef.value else fetched
  }

  /** The `SecurityReferenceDomain` getter: ADAM has none; a committed
      partition reads the cross-reference, an uncommitted one answers the
      buffered value. */
  function SecurityReferenceDomain(p: Partition, fetched: CrossRef, read: StoreResult): (r: Result<Option<string>>)
    ensures p.disposed ==> r == Err(ObjectDisposed)
    ensures !p.disposed && p.appType.ADAM? ==> r == Err(NotSupported(PropertyInvalidForADAM))
    ensures !p.disposed && p.appType.AD? && !p.committed ==> r == Ok(p.securityRefDomain)
    ensures !p.disposed && p.appType.AD? && p.committed && read.FailsWith? ==>
              r == Err(FromComException(Some(p.context), read.code))
    ensures !p.disposed && p.appType.AD? && p.committed && read.Succeeds? ==>
              r == Ok(CrossRefEntry(p, fetched).sdReferenceDomain)
  {
    if p.disposed then Err(ObjectDisposed)
    else if p.appType.ADAM? then Err(NotSupported(PropertyInvalidForADAM))
    else if p.committed then
      if read.FailsWith? then Err(FromComException(Some(p.context), read.code))
      else Ok(CrossRefEntry(p, fetched).sdReferenceDomain)
    else Ok(p.securityRefDomain)
  }

  /** The `SecurityReferenceDomain` setter. On a committed partition the value
      is written into the cached cross-reference (null clears it if present);
      on an uncommitted one it is buffered, except that null over a null
      buffer changes nothing. */
  function SetSecurityReferenceDomain(p: Partition, value: Option<string>, fetched: CrossRef)
    : (r: Result<Partition>)
    ensures p.disposed ==> r == Err(ObjectDisposed)
    ensures !p.disposed && p.appType.ADAM? ==> r == Err(NotSupported(PropertyInvalidForADAM))
    ensures r.Ok? <==> !p.disposed && p.appType.AD?
    ensures r.Ok? && !p.committed && p.securityRefDomain.None? && value.None? ==> r.value == p
    ensures r.Ok? && !p.committed && !(p.securityRefDomain.None? && value.None?) ==>
              r.value == p.(securityRefDomain := value, securityRefDomainModified := true)
    ensures r.Ok? && p.committed ==>
              r.value.crossRef == Some(CrossRefEntry(p, fetched).(sdReferenceDomain := value))
              && r.value == p.(crossRef := r.value.crossRef, securityRefDomainModified := r.value.securityRefDomainModified)
              && (r.value.securityRefDomainModified <==>
                    p.securityRefDomainModified || value.Some? || CrossRefEntry(p, fetched).sdReferenceDomain.Some?)
  {
    if p.disposed then Err(ObjectDisposed)
    else if p.appType.ADAM? then Err(NotSupported(PropertyInvalidForADAM))
    else if p.committed then
      var cr := CrossRefEntry(p, fetched);
      if value.None? then
        if cr.sdReferenceDomain.Some? then
          Ok(p.(crossRef := Some(cr.(sdReferenceDomain := None)), securityRefDomainModified := true))
        else Ok(p.(crossRef := Some(cr)))
      else Ok(p.(crossRef := Some(cr.(sdReferenceDomain := value)), securityRefDomainModified := true))
    else if p.securityRefDomain.None? && value.None? then Ok(p)
    else Ok(p.(securityRefDomain := value, securityRefDomainModified := true))
  }

  /** Whatever state the partition is in, the getter answers what the setter
      was given; on a committed partition the fetched entry no longer matters
      once it is cached. */
  lemma {:induction false} SecurityReferenceDomainRoundTrip(p: Partition, value: Option<string>,
                                                            fetched: CrossRef, later: CrossRef)
    requires !p.disposed && p.appType.AD?
    ensures SetSecurityReferenceDomain(p, value, fetched).Ok?
    ensures SecurityReferenceDomain(SetSecurityReferenceDomain(p, value, fetched).value, later, Succeeds) == Ok(value)
  {
    var q := SetSecurityReferenceDomain(p, value, fetched).value;
    if p.committed {
      assert q.crossRef.Some?;
      assert CrossRefEntry(q, later) == q.crossRef.value;
    } else {
      assert q.securityRefDomain == value;
    }
  }

  /** The `DirectoryServers` getter: the cached collection, or a new one. A
      committed partition fills it with the current replicas and binds it
      to the cross-reference's replica list; an uncommitted one starts it
      empty and unbound. The collection stays cached, so the caller's edits
      are those `Save` later writes (`WithServers`). */
  function DirectoryServers(p: Partition, replicas: Result<seq<DirectoryServer>>, fetched: CrossRef)
    : (r: Result<(Partition, DirectoryServerCollection.Collection)>)
    ensures p.disposed ==> r == Err(ObjectDisposed)
    ensures !p.disposed && p.cachedServers.Some? ==> r == Ok((p, p.cachedServers.value))
    ensures r.Ok? ==> r.value.0.cachedServers == Some(r.value.1)
    ensures r.Ok? && p.cachedServers.None? && !p.committed ==>
              r.value.1 == DirectoryServerCollection.ForNamingContext(p.appType.ADAM?, None, [])
    ensures r.Ok? && p.cachedServers.None? && p.committed ==>
              replicas.Ok? && r.value.1 == DirectoryServerCollection.ForNamingContext(
                p.appType.ADAM?, Some(CrossRefEntry(p, fetched).replicaLocations), replicas.value)
    ensures r.Ok? ==> r.value.0.committed == p.committed && r.value.0.securityRefDomain == p.securityRefDomain
    ensures r.Ok? ==> r.value.0 == p.(crossRef := r.value.0.crossRef, cachedServers := Some(r.value.1))
    ensures r.Ok? && p.cachedServers.None? && p.committed ==> r.value.0.crossRef == Some(CrossRefEntry(p, fetched))
    ensures r.Ok? && !(p.cachedServers.None? && p.committed) ==> r.value.0.crossRef == p.crossRef
    ensures !p.disposed && p.cachedServers.None? && p.committed && replicas.Err? ==> r == Err(replicas.error)
  {
    if p.disposed then Err(ObjectDisposed)
    else if p.cachedServers.Some? then Ok((p, p.cachedServers.value))
    else if p.committed then
      var servers :- replicas;
      var cr := CrossRefEntry(p, fetched);
      var c := DirectoryServerCollection.ForNamingContext(p.appType.ADAM?, Some(cr.replicaLocations), servers);
      Ok((p.(crossRef := Some(cr), cachedServers := Some(c)), c))
    else
      var c := DirectoryServerCollection.ForNamingContext(p.appType.ADAM?, None, []);
      Ok((p.(cachedServers := Some(c)), c))
  }

  /** The partition after the caller edited the collection `DirectoryServers`
      handed out (the two share it). */
  function WithServers(p: Partition, c: DirectoryServerCollection.Collection): (r: Partition)
    requires p.cachedServers.Some?
    ensures Pending(r) && r.cachedServers == Some(c)
  {
    p.(cachedServers := Some(c))
  }

  // ---------------------------------------------------------------------------
  // Save
  // ---------------------------------------------------------------------------

  /** The remote calls `Save` makes, in the order it makes them. */
  datatype RemoteCall =
    | CommitHead
    | CreateCrossRef
    | CommitCrossRef(entry: CrossRef)
    | RemoveCrossRef
    | RefreshCrossRef
    | ReplicateSingleObject(value: string)

  /** The answers of the directory to `Save`: the first head commit (Active
      Directory), the manual cross-reference creation with its name and
      host, its commit, the head commit that follows, the removal of the
      cross-reference, the refresh, the cross-reference the directory made
      itself, the server's NTDS settings name, the replication push and the
      final flush. */
  datatype SaveOracle = SaveOracle(
    headCommit: StoreResult,
    crossRefInit: StoreResult,
    newCrossRefDn: string,
    adamHostName: Option<string>,
    crossRefCommit: StoreResult,
    headRetry: StoreResult,
    crossRefRemoval: StoreResult,
    refresh: StoreResult,
    fetchedCrossRef: CrossRef,
    ntdsaName: string,
    push: StoreResult,
    flush: StoreResult)

  /** The partition after `Save`, the calls it made, and the exception it
      raised, if any. State reached before the exception survives it. */
  datatype Saved = Saved(state: Partition, calls: seq<RemoteCall>, error: Option<DsError>)

  /** Whether `Save` creates the cross-reference itself: always for ADAM, and
      for Active Directory only when the head commit reports inappropriate
      authentication. */
  predicate CreatesManually(p: Partition, o: SaveOracle)
  {
    p.appType.ADAM? || o.headCommit == FailsWith(E_INAPPROPRIATE_AUTH)
  }

  /** Whether the cross-reference is already staged, so that no creation is
      attempted. */
  function InitCalls(p: Partition): seq<RemoteCall>
  {
    if p.crossRef.Some? then [] else [CreateCrossRef]
  }

  /** The head-and-cross-reference phase of `Save` on an uncommitted
      partition. The Active Directory head commit comes first; when the
      directory cannot create the cross-reference, `Save` creates and commits
      it, commits the head, removes the cross-reference again if that fails,
      and refreshes it. */
  function CreationPhase(p: Partition, o: SaveOracle): (s: Saved)
    ensures !CreatesManually(p, o) && p.appType.AD? && o.headCommit.FailsWith? ==>
              s == Saved(p, [CommitHead], Some(FromComException(Some(p.context), o.headCommit.code)))
    ensures !CreatesManually(p, o) && o.headCommit.Succeeds? ==> s == Saved(p, [CommitHead], None)
    ensures s.error.None? ==> s.state.crossRef.Some? || !CreatesManually(p, o)
    ensures s.state == p || s.state == p.(crossRef := Some(StagedCrossRef(p, o)))
  {
    var first := if p.appType.AD? then [CommitHead] else [];
    if !CreatesManually(p, o) then
      if o.headCommit.FailsWith? then Saved(p, first, Some(FromComException(Some(p.context), o.headCommit.code)))
      else Saved(p, first, None)
    else CreateManually(p, o, first)
  }

  /** The cross-reference `Save` creates by hand, unless one is staged already. */
  function StagedCrossRef(p: Partition, o: SaveOracle): (cr: CrossRef)
    ensures p.crossRef.Some? ==> cr == p.crossRef.value
    ensures p.crossRef.None? ==> !cr.enabled && cr.ncName == p.name && cr.dn == o.newCrossRefDn
  {
    CrossRefEntry(p, NewCrossRef(p.appType, p.context, p.name, o.newCrossRefDn, o.adamHostName))
  }

  /** The manual path, after the calls `first`: create (unless staged) and
      commit the cross-reference, commit the head and remove the
      cross-reference again if that fails, then refresh the cross-reference. */
  function CreateManually(p: Partition, o: SaveOracle, first: seq<RemoteCall>): (s: Saved)
    ensures s.error.None? ==> s.state.crossRef.Some?
    ensures s.state == p || s.state == p.(crossRef := Some(StagedCrossRef(p, o)))
    ensures |s.calls| > |first| && s.calls[..|first|] == first
    ensures s.calls[|first|] == (if p.crossRef.None? then CreateCrossRef else CommitCrossRef(StagedCrossRef(p, o)))
  {
    if p.crossRef.None? && o.crossRefInit.FailsWith? then
      Saved(p, first + InitCalls(p), Some(FromComException(Some(p.context), o.crossRefInit.code)))
    else
      var cr := StagedCrossRef(p, o);
      var q := p.(crossRef := Some(cr));
      var staged := first + InitCalls(p) + [CommitCrossRef(cr)];
      if o.crossRefCommit.FailsWith? then
        Saved(q, staged, Some(FromComException(Some(p.context), o.crossRefCommit.code)))
      else if o.headRetry.FailsWith? then
        Saved(q, staged + [CommitHead, RemoveCrossRef],
              Some(if o.crossRefRemoval.FailsWith? then FromComException(None, o.crossRefRemoval.code)
                   else FromComException(Some(p.context), o.headRetry.code)))
      else if o.refresh.FailsWith? then
        Saved(q, staged + [CommitHead, RefreshCrossRef], Some(FromComException(Some(p.context), o.refresh.code)))
      else Saved(q, staged + [CommitHead, RefreshCrossRef], None)
  }

  /** The value pushed to the naming master's `replicateSingleObject`: the
      server's NTDS settings name, a colon, the cross-reference's name. */
  function ReplicationRequest(ntdsaName: string, crossRefDn: string): (v: string)
    ensures |v| == |ntdsaName| + 1 + |crossRefDn|
    ensures v[..|ntdsaName|] == ntdsaName && v[|ntdsaName|] == ':' && v[|ntdsaName| + 1..] == crossRefDn
  {
    ntdsaName + ":" + crossRefDn
  }

  /** The cross-reference the directory should hold once the buffered changes
      of an uncommitted partition are added: the collection's members'
      NTDS settings names appended to the replica list, and the buffered
      security reference domain if it was set. */
  function FlushedNew(p: Partition, cr: CrossRef): (r: CrossRef)
    ensures r.dn == cr.dn && r.ncName == cr.ncName && r.enabled == cr.enabled && r.dnsRoot == cr.dnsRoot
    ensures p.cachedServers.None? ==> r.replicaLocations == cr.replicaLocations
    ensures p.cachedServers.Some? ==>
              |r.replicaLocations| == |cr.replicaLocations| + |p.cachedServers.value.items|
              && r.replicaLocations[..|cr.replicaLocations|] == cr.replicaLocations
              && forall i | 0 <= i < |p.cachedServers.value.items| ::
                   r.replicaLocations[|cr.replicaLocations| + i] == p.cachedServers.value.items[i].ntdsaObjectName
    ensures r.sdReferenceDomain == if p.securityRefDomainModified then p.securityRefDomain else cr.sdReferenceDomain
  {
    cr.(replicaLocations := if p.cachedServers.Some?
                            then cr.replicaLocations + DirectoryServerCollection.NtdsaNames(p.cachedServers.value.items)
                            else cr.replicaLocations,
        sdReferenceDomain := if p.securityRefDomainModified then p.securityRefDomain else cr.sdReferenceDomain)
  }

  /** The cross-reference as a committed partition holds it: the cached
      entry, with the replica list the bound collection has mirrored its
      edits onto. */
  function PendingCrossRef(p: Partition): (cr: Option<CrossRef>)
    ensures cr.Some? <==> p.crossRef.Some?
    ensures cr.Some? ==> cr.value == p.crossRef.value.(replicaLocations := cr.value.replicaLocations)
  {
    if p.crossRef.None? then None
    else if p.cachedServers.Some? && p.cachedServers.value.binding.NamingContext?
            && p.cachedServers.value.binding.replicaLocations.Some?
    then Some(p.crossRef.value.(replicaLocations := p.cachedServers.value.binding.replicaLocations.value))
    else p.crossRef
  }

  /** The partition with the buffered changes forgotten. */
  function Cleared(p: Partition): (r: Partition)
    ensures !Pending(r)
    ensures r.(cachedServers := p.cachedServers, securityRefDomainModified := p.securityRefDomainModified) == p
  {
    p.(cachedServers := None, securityRefDomainModified := false)
  }

  /** `Save` on a committed partition: only the cross-reference is written,
      and only when something is pending. */
  function SaveCommitted(p: Partition, flush: StoreResult): (s: Saved)
    requires p.committed
    ensures !Pending(p) ==> s == Saved(p, [], None)
    ensures Pending(p) && p.crossRef.Some? ==> s.calls == [CommitCrossRef(PendingCrossRef(p).value)]
    ensures Pending(p) && p.crossRef.None? ==> s == Saved(p, [], Some(NullReference))
    ensures s.error.None? ==> s.state == Cleared(p).(crossRef := PendingCrossRef(p))
    ensures s.error.Some? ==> s.state == p
    ensures s.error.None? <==> !Pending(p) || (p.crossRef.Some? && flush.Succeeds?)
  {
    if !Pending(p) then Saved(p, [], None)
    else if p.crossRef.None? then Saved(p, [], Some(NullReference))
    else
      var cr := PendingCrossRef(p).value;
      if flush.FailsWith? then Saved(p, [CommitCrossRef(cr)], Some(FromComException(Some(p.context), flush.code)))
      else Saved(Cleared(p).(crossRef := Some(cr)), [CommitCrossRef(cr)], None)
  }

  /** The phases of `Save` that follow a successful creation phase on the
      partition `q`: push the cross-reference to the naming master, mark the
      partition committed, flush the buffered changes, forget them. */
  function PublishPhase(q: Partition, o: SaveOracle): (s: Saved)
    requires !q.committed
    ensures s.state.name == q.name && s.state.appType == q.appType && s.state.context == q.context
    ensures s.state.disposed == q.disposed
    ensures s.state.committed <==> o.push.Succeeds?
    ensures s.calls != [] && s.calls[0] == ReplicateSingleObject(
              ReplicationRequest(o.ntdsaName, CrossRefEntry(q, o.fetchedCrossRef).dn))
    ensures s.state.crossRef.Some? && s.state.crossRef.value.dn == CrossRefEntry(q, o.fetchedCrossRef).dn
    ensures s.error.None? <==> o.push.Succeeds? && (!Pending(q) || o.flush.Succeeds?)
    ensures s.error.None? ==> !Pending(s.state)
    ensures s.error.None? ==> s.state.crossRef == Some(FlushedNew(q, CrossRefEntry(q, o.fetchedCrossRef)))
    ensures o.push.Succeeds? && Pending(q) ==>
              s.calls == [s.calls[0], CommitCrossRef(FlushedNew(q, CrossRefEntry(q, o.fetchedCrossRef)))]
    ensures !o.push.Succeeds? || !Pending(q) ==> |s.calls| == 1
  {
    var cr := CrossRefEntry(q, o.fetchedCrossRef);
    var q1 := q.(crossRef := Some(cr));
    var push := [ReplicateSingleObject(ReplicationRequest(o.ntdsaName, cr.dn))];
    if o.push.FailsWith? then Saved(q1, push, Some(FromComException(Some(q.context), o.push.code)))
    else
      var q2 := q1.(committed := true);
      if !Pending(q2) then Saved(Cleared(q2), push, None)
      else
        var flushed := FlushedNew(q2, cr);
        var q3 := q2.(crossRef := Some(flushed));
        if o.flush.FailsWith? then
          Saved(q3, push + [CommitCrossRef(flushed)], Some(FromComException(Some(q.context), o.flush.code)))
        else Saved(Cleared(q3), push + [CommitCrossRef(flushed)], None)
  }

  /** `Save`. */
  function Save(p: Partition, o: SaveOracle): (s: Saved)
    ensures p.disposed ==> s == Saved(p, [], Some(ObjectDisposed))
    ensures s.error.None? ==> s.state.committed && !Pending(s.state) && !s.state.disposed
    ensures s.state.name == p.name && s.state.appType == p.appType && s.state.context == p.context
    ensures p.committed ==> s.state.committed
  {
    if p.disposed then Saved(p, [], Some(ObjectDisposed))
    else if p.committed then SaveCommitted(p, o.flush)
    else
      var c := CreationPhase(p, o);
      if c.error.Some? then c
      else
        var pub := PublishPhase(c.state, o);
        Saved(pub.state, c.calls + pub.calls, pub.error)
  }

  // ---------------------------------------------------------------------------
  // Properties of Save
  // ---------------------------------------------------------------------------

  /** For Active Directory a head commit that fails with anything but
      inappropriate authentication ends `Save` at once, and one that works
      leads straight to the replication push: no cross-reference is created. */
  lemma {:induction false} AdSaveCreatesCrossRefOnlyOnAuthFailure(p: Partition, o: SaveOracle)
    requires !p.disposed && !p.committed && p.appType.AD?
    ensures o.headCommit.FailsWith? && o.headCommit.code != E_INAPPROPRIATE_AUTH ==>
              Save(p, o) == Saved(p, [CommitHead], Some(FromComException(Some(p.context), o.headCommit.code)))
    ensures o.headCommit.Succeeds? ==>
              |Save(p, o).calls| >= 2 && Save(p, o).calls[0] == CommitHead
              && Save(p, o).calls[1].ReplicateSingleObject?
              && CreateCrossRef !in Save(p, o).calls && RemoveCrossRef !in Save(p, o).calls
  {
    if o.headCommit.Succeeds? {
      var c := CreationPhase(p, o);
      assert c == Saved(p, [CommitHead], None);
      var pub := PublishPhase(c.state, o);
      assert Save(p, o).calls == [CommitHead] + pub.calls;
      assert forall i | 0 <= i < |pub.calls| :: pub.calls[i].ReplicateSingleObject? || pub.calls[i].CommitCrossRef?;
    }
  }

  /** When `Save` creates the cross-reference itself, the first call after the
      failed Active Directory head commit (if any) creates or commits it. */
  lemma {:induction false} ManualCreationComesFirst(p: Partition, o: SaveOracle)
    requires !p.disposed && !p.committed && CreatesManually(p, o)
    ensures var k := if p.appType.AD? then 1 else 0;
      && |Save(p, o).calls| > k
      && (p.appType.AD? ==> Save(p, o).calls[0] == CommitHead)
      && (Save(p, o).calls[k] == CreateCrossRef || Save(p, o).calls[k].CommitCrossRef?)
      && (Save(p, o).calls[k] == CreateCrossRef <==> p.crossRef.None?)
  {
    var c := CreationPhase(p, o);
    assert |c.calls| > (if p.appType.AD? then 1 else 0);
    if c.error.None? {
      assert Save(p, o).calls[..|c.calls|] == c.calls;
    }
  }

  /** Rollback, first half: when the cross-reference cannot be created or
      committed, the head entry is not committed (beyond Active Directory's
      first, failed attempt) and the partition stays uncommitted. */
  lemma {:induction false} CrossRefFailureNeverCommitsHead(p: Partition, o: SaveOracle)
    requires !p.disposed && !p.committed && CreatesManually(p, o)
    requires (p.crossRef.None? && o.crossRefInit.FailsWith?) || o.crossRefCommit.FailsWith?
    ensures var s := Save(p, o);
      && s.error.Some? && !s.state.committed
      && (forall i | (if p.appType.AD? then 1 else 0) <= i < |s.calls| :: s.calls[i] != CommitHead)
      && (s.calls[|s.calls| - 1] == CreateCrossRef || s.calls[|s.calls| - 1].CommitCrossRef?)
  {
  }

  /** Rollback, second half: when the head commit after the manual
      cross-reference fails, the cross-reference is removed before the error
      surfaces, and the error is the removal's when the removal fails. */
  lemma {:induction false} HeadFailureRemovesCrossRef(p: Partition, o: SaveOracle)
    requires !p.disposed && !p.committed && CreatesManually(p, o)
    requires !(p.crossRef.None? && o.crossRefInit.FailsWith?) && o.crossRefCommit.Succeeds?
    requires o.headRetry.FailsWith?
    ensures var s := Save(p, o);
      && |s.calls| >= 2 && s.calls[|s.calls| - 2..] == [CommitHead, RemoveCrossRef]
      && !s.state.committed
      && s.error == Some(if o.crossRefRemoval.FailsWith? then FromComException(None, o.crossRefRemoval.code)
                         else FromComException(Some(p.context), o.headRetry.code))
  {
  }

  /** The partition becomes committed only through a successful push of
      "NTDS settings name:cross-reference name" to the naming master. */
  lemma {:induction false} CommittedOnlyAfterPush(p: Partition, o: SaveOracle)
    requires !p.disposed && !p.committed
    requires Save(p, o).state.committed
    ensures o.push.Succeeds?
    ensures var s := Save(p, o);
      && s.state.crossRef.Some?
      && ReplicateSingleObject(ReplicationRequest(o.ntdsaName, s.state.crossRef.value.dn)) in s.calls
  {
    var c := CreationPhase(p, o);
    var pub := PublishPhase(c.state, o);
    assert Save(p, o).calls == c.calls + pub.calls;
    assert pub.calls[0] in Save(p, o).calls by {
      assert Save(p, o).calls[|c.calls|] == pub.calls[0];
    }
  }

  /** `Save` on a committed partition never re-runs creation: it makes at most
      one call, a commit of the cross-reference, and only with changes
      pending. */
  lemma {:induction false} CommittedSaveOnlyFlushes(p: Partition, o: SaveOracle)
    requires !p.disposed && p.committed
    ensures |Save(p, o).calls| <= 1
    ensures forall i | 0 <= i < |Save(p, o).calls| :: Save(p, o).calls[i].CommitCrossRef?
    ensures Save(p, o).calls != [] <==> Pending(p) && p.crossRef.Some?
    ensures Save(p, o).state.committed
  {
  }

  /** A successful `Save` leaves nothing to do: saving again, whatever the
      directory would answer, makes no call and changes nothing. */
  lemma {:induction false} SaveIsIdempotent(p: Partition, o: SaveOracle, o2: SaveOracle)
    requires Save(p, o).error.None?
    ensures var q := Save(p, o).state;
      Save(q, o2) == Saved(q, [], None)
  {
    var q := Save(p, o).state;
    assert q.committed && !Pending(q) && !q.disposed;
  }

  /** A partition from the public constructors starts uncommitted and can
      only become committed through `Save`'s push to the naming master. */
  lemma {:induction false} ConstructionDecidesCommitted(context: Option<DirectoryContext>, dn: Option<string>,
                                                        objectClass: Option<string>, specified: bool,
                                                        env: CreationEnv, o: SaveOracle)
    requires Construct(context, dn, objectClass, specified, env).Ok?
    ensures var p := Construct(context, dn, objectClass, specified, env).value;
      && !p.committed
      && (Save(p, o).state.committed ==> o.push.Succeeds?)
  {
    var p := Construct(context, dn, objectClass, specified, env).value;
    if Save(p, o).state.committed {
      CommittedOnlyAfterPush(p, o);
    }
  }
}

=== FILE: common.dfy ===
/**
 Shared vocabulary of the directory-services model: machine integer widths,
 the null-or-value wrapper, the outcome of one remote store call, the
 directory context, and the case-insensitive name comparison that every
 collection uses to decide whether two members are "the same".
 */
module Common {

  /** A C# `int`. */
  newtype int32 = x: int | -0x8000_0000 <= x < 0x8000_0000

  /** A C# `long` (the tick count of a `TimeSpan`). */
  newtype int64 = x: int | -0x8000_0000_0000_0000 <= x < 0x8000_0000_0000_0000

  const Int32MaxValue: int := 0x7FFF_FFFF

  /** A reference that may be null. */
  datatype Option<+T> = None | Some(value: T)

  /** What one remote directory call did: it worked, or it raised a COM error
      carrying the given HRESULT. The store itself is abstract; callers of the
      model pick the outcome of every call (a nondeterministic oracle). */
  datatype StoreResult = Succeeds | FailsWith(code: int32)

  /** The parts of a directory context the modelled code looks at. The flags
      (`isRootDomain`, `isServer`, `isAdamConfigSet`) and the resolved server
      name are answered by the network in the original, so they are inputs. */
  datatype DirectoryContext = DirectoryContext(
    name: Option<string>,
    isRootDomain: bool,
    isServer: bool,
    isAdamConfigSet: bool,
    serverName: Option<string>)

  /** ASCII case folding of one character. */
  function FoldChar(c: char): char
  {
    if 'A' <= c <= 'Z' then (c as int + 32) as char else c
  }

  /** The case-folded form of a name: two names denote the same object exactly
      when their folded forms are equal. */
  function NameKey(s: string): (k: string)
    ensures |k| == |s|
  {
    seq(|s|, i requires 0 <= i < |s| => FoldChar(s[i]))
  }

  /** Case-insensitive name equality, the comparison every collection uses. */
  predicate SameName(a: string, b: string)
  {
    NameKey(a) == NameKey(b)
  }

  /** Two names of different lengths never match; a name always matches itself,
      and the relation is symmetric and transitive. */
  lemma SameNameIsEquivalence(a: string, b: string, c: string)
    ensures SameName(a, a)
    ensures SameName(a, b) ==> SameName(b, a)
    ensures SameName(a, b) && SameName(b, c) ==> SameName(a, c)
    ensures SameName(a, b) ==> |a| == |b|
  {
  }
}

=== FILE: constraint_filter.dfy ===
/**
 `ADDNConstraintLinkedAttrSet`: the members of a group, as the linked-attribute
 result set enumerates them, narrowed by a constraint. Either a member's
 distinguished name must end with the DN of a container (the member lies
 under it), or a validator delegate must accept the member's properties.

 The base set is a cursor over a finite sequence of results, some of which
 may be null; `MoveNext` advances it past every member the constraint
 rejects. As in the original, a rejected member is skipped by calling
 `MoveNext` again (recursively) and then re-examining the element it stopped at.
 */
module ConstraintLinkedAttrSet {
  import opened Common

  /** One result: its distinguished name and the property collection a
      validator is given. */
  datatype Member = Member(distinguishedName: string, properties: map<string, seq<string>>)

  /** The constraint and its data. A validator that is None stands for
      constraint data that is not a `ResultValidator`: nothing matches then. */
  datatype Constraint =
    | ContainerStringMatch(container: string)
    | ResultValidatorDelegateMatch(validator: Option<Member -> bool>)

  /** Ordinal `EndsWith`. */
  predicate EndsWith(s: string, suffix: string)
  {
    |suffix| <= |s| && s[|s| - |suffix|..] == suffix
  }

  /** Whether the constraint accepts a member. */
  predicate Accepts(k: Constraint, m: Member): (r: bool)
    ensures k.ContainerStringMatch? && k.container == [] ==> r
    ensures k.ContainerStringMatch? && |m.distinguishedName| < |k.container| ==> !r
    ensures k.ResultValidatorDelegateMatch? && k.validator.None? ==> !r
  {
    match k
    case ContainerStringMatch(container) => EndsWith(m.distinguishedName, container)
    case ResultValidatorDelegateMatch(validator) => validator.Some? && validator.value(m)
  }

  /** A container constraint accepts exactly the members whose distinguished
      name is some string followed by the container string. */
  lemma ContainerMatchIsSuffix(container: string, m: Member)
    ensures Accepts(ContainerStringMatch(container), m) <==>
              exists i | 0 <= i <= |m.distinguishedName| :: m.distinguishedName[i..] == container
  {
    if Accepts(ContainerStringMatch(container), m) {
      assert m.distinguishedName[|m.distinguishedName| - |container|..] == container;
    }
  }

  /** Whether enumeration stops at this element: a null ends it, an accepted
      member is returned. */
  predicate StopsAt(k: Constraint, x: Option<Member>)
  {
    x.None? || Accepts(k, x.value)
  }

  /** Every element in `from..to` is a member the constraint rejects. */
  predicate Skippable(k: Constraint, items: seq<Option<Member>>, from: int, to: int)
  {
    forall i | 0 <= i < |items| && from <= i < to :: items[i].Some? && !Accepts(k, items[i].value)
  }

  /** The base cursor: `position` is the index of the current element, -1
      before the first call and `|items|` once exhausted. */
  datatype Cursor = Cursor(items: seq<Option<Member>>, position: int)

  predicate Valid(c: Cursor)
  {
    -1 <= c.position <= |c.items|
  }

  /** The cursor after a call, and what the call returned. */
  datatype Step = Step(cursor: Cursor, moved: bool)

  /** The base set's `MoveNext`: the next element, if there is one. */
  function BaseMoveNext(c: Cursor): Step
    requires Valid(c)
  {
    if c.position + 1 < |c.items| then Step(c.(position := c.position + 1), true)
    else Step(c.(position := |c.items|), false)
  }

  // ---------------------------------------------------------------------------
  // MoveNext as written
  // ---------------------------------------------------------------------------

  /** `MoveNext`: advance the base cursor, then run the matching loop. The
      cursor ends on the first element after the current one that is null or
      accepted (or past the end), having passed only rejected members, and
      the call returns true exactly when it ends on a member. */
  function MoveNext(k: Constraint, cur: Cursor): (r: Step)
    requires Valid(cur)
    ensures Valid(r.cursor) && r.cursor.items == cur.items
    ensures cur.position <= r.cursor.position
    ensures cur.position < |cur.items| ==> cur.position < r.cursor.position
    ensures Skippable(k, cur.items, cur.position + 1, r.cursor.position)
    ensures r.cursor.position < |cur.items| ==> StopsAt(k, cur.items[r.cursor.position])
    ensures r.moved <==> r.cursor.position < |cur.items| && cur.items[r.cursor.position].Some?
    decreases |cur.items| - cur.position, 0
  {
    var b := BaseMoveNext(cur);
    if !b.moved then b
    else MatchLoop(k, b.cursor)
  }

  /** The `while (!match)` loop of `MoveNext`, entered with the cursor on an
      element: a null ends it with false, an accepted member with true, and
      a rejected one is passed by a recursive `MoveNext` whose stopping
      element the loop then examines again. */
  function MatchLoop(k: Constraint, c: Cursor): (r: Step)
    requires Valid(c) && 0 <= c.position < |c.items|
    ensures Valid(r.cursor) && r.cursor.items == c.items
    ensures c.position <= r.cursor.position
    ensures Skippable(k, c.items, c.position, r.cursor.position)
    ensures r.cursor.position < |c.items| ==> StopsAt(k, c.items[r.cursor.position])
    ensures r.moved <==> r.cursor.position < |c.items| && c.items[r.cursor.position].Some?
    decreases |c.items| - c.position, 1
  {
    var x := c.items[c.position];
    if x.None? then Step(c, false)
    else if Accepts(k, x.value) then Step(c, true)
    else
      var s := MoveNext(k, c);
      if !s.moved then s
      else MatchLoop(k, s.cursor)
  }

  // ---------------------------------------------------------------------------
  // Reference definitions
  // ---------------------------------------------------------------------------

  /** The first index from `from` on whose element stops the enumeration, or
      `|items|` when there is none. */
  function FirstStop(k: Constraint, items: seq<Option<Member>>, from: int): (j: int)
    requires 0 <= from <= |items|
    ensures from <= j <= |items|
    ensures Skippable(k, items, from, j)
    ensures j < |items| ==> StopsAt(k, items[j])
    decreases |items| - from
  {
    if from == |items| then from
    else if StopsAt(k, items[from]) then from
    else FirstStop(k, items, from + 1)
  }

  /** The members a full enumeration of `xs` returns: the accepted ones, in
      order, up to the first null. */
  function Matching(k: Constraint, xs: seq<Option<Member>>): seq<Member>
  {
    if xs == [] then []
    else if xs[0].None? then []
    else if Accepts(k, xs[0].value) then [xs[0].value] + Matching(k, xs[1..])
    else Matching(k, xs[1..])
  }

  /** The elements after the cursor. */
  function Rest(c: Cursor): seq<Option<Member>>
    requires Valid(c)
  {
    if c.position < |c.items| then c.items[c.position + 1..] else []
  }

  /** Everything the reference enumeration returns is accepted, and it never
      returns more than there are elements. */
  lemma {:induction false} MatchingIsAccepted(k: Constraint, xs: seq<Option<Member>>)
    ensures |Matching(k, xs)| <= |xs|
    ensures forall m | m in Matching(k, xs) :: Accepts(k, m)
    decreases |xs|
  {
    if xs != [] && xs[0].Some? {
      MatchingIsAccepted(k, xs[1..]);
    }
  }

  /** A position that passed only rejected members and stops (or is the end)
      is the first stop. */
  lemma FirstStopIsUnique(k: Constraint, items: seq<Option<Member>>, from: int, j: int)
    requires 0 <= from <= j <= |items|
    requires Skippable(k, items, from, j)
    requires j < |items| ==> StopsAt(k, items[j])
    ensures j == FirstStop(k, items, from)
  {
  }

  /** `MoveNext` stops exactly where the reference says: at the first null or
      accepted element after the current one. It returns false when the base
      cursor is exhausted or that element is null, and true (on an accepted
      member) otherwise. */
  lemma MoveNextSkipsToFirstStop(k: Constraint, cur: Cursor)
    requires Valid(cur)
    ensures var r := MoveNext(k, cur);
      && r.cursor.position == (if cur.position < |cur.items| then FirstStop(k, cur.items, cur.position + 1)
                               else |cur.items|)
      && (cur.position + 1 >= |cur.items| ==> !r.moved)
      && (0 <= cur.position + 1 < |cur.items| && cur.items[cur.position + 1].None? ==> !r.moved)
      && (r.moved ==> Accepts(k, cur.items[r.cursor.position].value))
  {
    var r := MoveNext(k, cur);
    if cur.position < |cur.items| {
      FirstStopIsUnique(k, cur.items, cur.position + 1, r.cursor.position);
    }
  }

  /** Passing rejected members changes nothing in the reference enumeration. */
  lemma {:induction false} MatchingSkipsRejected(k: Constraint, xs: seq<Option<Member>>, n: int)
    requires 0 <= n <= |xs|
    requires Skippable(k, xs, 0, n)
    ensures Matching(k, xs) == Matching(k, xs[n..])
    decreases n
  {
    if n > 0 {
      assert xs[0].Some? && !Accepts(k, xs[0].value);
      assert Skippable(k, xs[1..], 0, n - 1) by {
        forall i | 0 <= i < |xs[1..]| && 0 <= i < n - 1
          ensures xs[1..][i].Some? && !Accepts(k, xs[1..][i].value)
        {
          assert xs[1..][i] == xs[i + 1];
        }
      }
      MatchingSkipsRejected(k, xs[1..], n - 1);
      assert xs[1..][n - 1..] == xs[n..];
    }
  }

  /** What repeated calls of `MoveNext` return until one returns false. */
  function Enumerate(k: Constraint, cur: Cursor): seq<Member>
    requires Valid(cur)
    decreases |cur.items| - cur.position
  {
    var s := MoveNext(k, cur);
    if !s.moved then [] else [s.cursor.items[s.cursor.position].value] + Enumerate(k, s.cursor)
  }

  /** Enumerating with `MoveNext` returns exactly the accepted members after
      the cursor, in their original order, up to the first null. */
  lemma {:induction false} EnumerateIsMatching(k: Constraint, cur: Cursor)
    requires Valid(cur)
    ensures Enumerate(k, cur) == Matching(k, Rest(cur))
    decreases |cur.items| - cur.position
  {
    var s := MoveNext(k, cur);
    var items := cur.items;
    if cur.position < |items| {
      var xs := items[cur.position + 1..];
      var j := s.cursor.position;
      var n := j - (cur.position + 1);
      assert Skippable(k, xs, 0, n) by {
        forall i | 0 <= i < |xs| && 0 <= i < n
          ensures xs[i].Some? && !Accepts(k, xs[i].value)
        {
          assert xs[i] == items[cur.position + 1 + i];
        }
      }
      MatchingSkipsRejected(k, xs, n);
      assert xs[n..] == items[j..];
      if j < |items| {
        assert items[j..][1..] == items[j + 1..];
        if s.moved {
          EnumerateIsMatching(k, s.cursor);
        }
      }
    }
  }
}

=== FILE: directory_context.dfy ===
/**
 The argument checks shared by the site-topology objects (site links and
 subnets): the directory context must name a forest, a server or an ADAM
 configuration set, or — when it names nothing — stand for the logged-on
 user's root domain; and an object name must be non-null and non-empty.
 */
module DirectoryContexts {
  import opened Common
  import opened Errors

  /** The contexts the checks let through: the root domain of the caller or
      of the named forest, a named server, or a named ADAM configuration set. */
  predicate Acceptable(c: DirectoryContext)
  {
    c.isRootDomain || (c.name.Some? && (c.isServer || c.isAdamConfigSet))
  }

  /** The context checks of `ValidateArgument`. */
  function ValidateTargetContext(context: Option<DirectoryContext>): (r: Result<DirectoryContext>)
    ensures r.Ok? <==> (context.Some? && Acceptable(context.value))
    ensures context.None? ==> r == Err(ArgumentNull("context"))
    ensures context.Some? && context.value.name.None? && !context.value.isRootDomain ==>
              r == Err(Argument(ContextNotAssociatedWithDomain))
    ensures r.Err? && context.Some? && context.value.name.Some? ==> r == Err(Argument(NotADOrADAM))
    ensures r.Ok? ==> r.value == context.value
  {
    match context
    case None => Err(ArgumentNull("context"))
    case Some(c) =>
      if c.name.None? && !c.isRootDomain then Err(Argument(ContextNotAssociatedWithDomain))
      else if c.name.Some? && !(c.isRootDomain || c.isServer || c.isAdamConfigSet) then Err(Argument(NotADOrADAM))
      else Ok(c)
  }

  /** The name checks of `ValidateArgument`: null, then empty. */
  function ValidateName(name: Option<string>, parameter: string): (r: Result<string>)
    ensures r.Ok? <==> name.Some? && |name.value| > 0
    ensures name.None? ==> r == Err(ArgumentNull(parameter))
    ensures name == Some("") ==> r == Err(Argument(EmptyStringParameter))
    ensures r.Ok? ==> r.value == name.value
  {
    match name
    case None => Err(ArgumentNull(parameter))
    case Some(n) => if |n| == 0 then Err(Argument(EmptyStringParameter)) else Ok(n)
  }

  /** How binding to the container of a new object ended: the configuration
      naming context read from the root DSE, a COM error, or no ADAM instance
      found in the configuration set the context names. */
  datatype BindOutcome = Bound(configurationNamingContext: string) | BindFails(code: int32) | NoAdamInstance
}

=== FILE: directory_server_collection.dfy ===
/**
 `DirectoryServerCollection`: the editable list of servers attached either to
 a naming context (the replicas of an application partition) or to a site
 (its preferred bridgehead servers for one transport).

 Names are unique under case-insensitive comparison. A naming-context set for
 Active Directory accepts only Windows Server 2003 or later domain controllers,
 one for ADAM only ADAM instances, and a site-bound set only servers of that
 site. Every change to the list is mirrored: onto the cross-reference's
 replica-locations attribute for a naming context, onto the staged
 `bridgeheadTransportList` values of the servers for a site.

 The list operations go through the framework's `CollectionBase`, whose hook
 order is: `Add` validates then appends then calls the insert hook; `Insert`
 checks the index against `0..Count`, validates, inserts, calls the insert
 hook; the indexer setter checks the index against `0..Count-1`, validates,
 replaces, calls the set hook; `Remove` validates, removes, calls the remove
 hook; `Clear` calls the clear hook, empties, calls the clear-complete hook.
 */
module DirectoryServerCollection {
  import opened Common
  import opened Errors
  import opened Servers
  import NameLookup

  /** What the collection is attached to.
      For a naming context, `replicaLocations` is the value of the
      cross-reference's `msDS-NC-Replica-Locations`, or None when the
      collection has no cross-reference entry.
      For a site, `changeList` maps a server name to the value staged for that
      server's `bridgeheadTransportList` (None: cleared), and `copyList` is the
      snapshot of the list that `Clear` takes. */
  datatype Binding =
    | NamingContext(isAdam: bool, replicaLocations: Option<seq<string>>)
    | Site(siteDn: string, transportDn: Option<string>, initialized: bool,
           changeList: map<string, Option<string>>, copyList: seq<DirectoryServer>)

  datatype Collection = Collection(items: seq<DirectoryServer>, binding: Binding)

  /** The site-bound constructor: empty, not yet initialized, no staged changes. */
  function ForSite(siteDn: string, transportDn: Option<string>): (r: Collection)
    ensures r.items == [] && WellFormed(r) && Mirrored(r)
    ensures r.binding.Site? && r.binding.siteDn == siteDn && r.binding.transportDn == transportDn
    ensures !r.binding.initialized && r.binding.changeList == map[] && r.binding.copyList == []
  {
    Collection([], Site(siteDn, transportDn, false, map[], []))
  }

  /** The naming-context constructor: the current replicas, unvalidated. */
  function ForNamingContext(isAdam: bool, replicaLocations: Option<seq<string>>,
                            servers: seq<DirectoryServer>): (r: Collection)
    ensures r.items == servers && r.binding.NamingContext? && r.binding.isAdam == isAdam
    ensures Mirrored(r) <==> replicaLocations.None? || multiset(replicaLocations.value) == multiset(NtdsaNames(servers))
  {
    Collection(servers, NamingContext(isAdam, replicaLocations))
  }

  // ---------------------------------------------------------------------------
  // Membership rules
  // ---------------------------------------------------------------------------

  /** Whether a server may belong to a collection with this binding. */
  predicate Admissible(b: Binding, s: DirectoryServer)
  {
    match b
    case NamingContext(isAdam, _) =>
      if isAdam then s.AdamInstance?
      else s.DomainController? && s.osVersionTenths >= W2K3VersionTenths
    case Site(siteDn, _, _, _, _) => SameName(siteDn, s.siteObjectName)
  }

  /** The explicit checks `Add` and `Insert` make before looking for a
      duplicate, with the reason of the first one that fails. */
  function PreCheck(b: Binding, s: DirectoryServer): Option<ArgumentReason>
  {
    match b
    case NamingContext(isAdam, _) =>
      if isAdam then None
      else if !s.DomainController? then Some(ServerShouldBeDC)
      else if s.osVersionTenths < W2K3VersionTenths then Some(ServerShouldBeW2K3)
      else None
    case Site(siteDn, _, _, _, _) =>
      if SameName(siteDn, s.siteObjectName) then None else Some(NotWithinSite)
  }

  /** `OnValidate`: the type check the framework makes on every value that
      enters or leaves the list. */
  function OnValidate(b: Binding, s: DirectoryServer): (r: Option<ArgumentReason>)
    ensures b.Site? ==> r.None?
    ensures b.NamingContext? && b.isAdam ==> (r.None? <==> s.AdamInstance?)
    ensures b.NamingContext? && !b.isAdam ==> (r.None? <==> s.DomainController?)
    ensures r.Some? ==> r.value == (if b.isAdam then ServerShouldBeAI else ServerShouldBeDC)
    ensures Admissible(b, s) ==> r.None?
  {
    match b
    case NamingContext(isAdam, _) =>
      if isAdam then (if s.AdamInstance? then None else Some(ServerShouldBeAI))
      else (if s.DomainController? then None else Some(ServerShouldBeDC))
    case Site(_, _, _, _, _) => None
  }

  /** A server is admissible exactly when both sets of checks pass. */
  lemma AdmissibleIffChecksPass(b: Binding, s: DirectoryServer)
    ensures Admissible(b, s) <==> PreCheck(b, s).None? && OnValidate(b, s).None?
  {
  }

  /** No two members share a name. */
  predicate DistinctNames(items: seq<DirectoryServer>)
  {
    forall i, j | 0 <= i < j < |items| :: !SameName(items[i].name, items[j].name)
  }

  /** The invariant `Add`, `Insert`, `Remove` and `Clear` keep. */
  predicate WellFormed(c: Collection)
  {
    && DistinctNames(c.items)
    && forall i | 0 <= i < |c.items| :: Admissible(c.binding, c.items[i])
  }

  /** Some member has the server's name (`Contains`). */
  predicate Holds(c: Collection, s: DirectoryServer)
  {
    NameLookup.Occurs(c.items, ServerName, s.name)
  }

  // ---------------------------------------------------------------------------
  // Mirroring hooks
  // ---------------------------------------------------------------------------

  /** The NTDS settings object names of the members, in list order. */
  function NtdsaNames(items: seq<DirectoryServer>): (r: seq<string>)
    ensures |r| == |items|
  {
    seq(|items|, i requires 0 <= i < |items| => items[i].ntdsaObjectName)
  }

  /** Removing a value from a multivalued attribute: the first equal value. */
  function RemoveFirst(xs: seq<string>, x: string): (r: seq<string>)
    ensures x in xs ==> multiset(r) == multiset(xs) - multiset{x}
    ensures x !in xs ==> r == xs
    ensures |r| == if x in xs then |xs| - 1 else |xs|
  {
    if |xs| == 0 then []
    else
      assert xs == [xs[0]] + xs[1..];
      if xs[0] == x then xs[1..]
      else [xs[0]] + RemoveFirst(xs[1..], x)
  }

  /** `OnInsertComplete`. */
  function InsertHook(b: Binding, s: DirectoryServer): (r: Binding)
    ensures b.NamingContext? && b.replicaLocations.Some? ==>
              r.NamingContext? && r.isAdam == b.isAdam && r.replicaLocations.Some?
              && multiset(r.replicaLocations.value) == multiset(b.replicaLocations.value) + multiset{s.ntdsaObjectName}
    ensures b.Site? && b.initialized ==>
              && r.Site? && r == b.(changeList := r.changeList)
              && s.name in r.changeList && r.changeList[s.name] == b.transportDn
              && forall k | k in b.changeList && k != s.name :: k in r.changeList && r.changeList[k] == b.changeList[k]
    ensures (b.NamingContext? && b.replicaLocations.None?) || (b.Site? && !b.initialized) ==> r == b
  {
    match b
    case NamingContext(isAdam, locations) =>
      if locations.Some? then NamingContext(isAdam, Some(locations.value + [s.ntdsaObjectName])) else b
    case Site(_, transportDn, initialized, changeList, _) =>
      if initialized then b.(changeList := changeList[s.name := transportDn]) else b
  }

  /** `OnRemoveComplete`. Unlike the insert hook, the site case does not look
      at `initialized`. */
  function RemoveHook(b: Binding, s: DirectoryServer): (r: Binding)
    ensures b.NamingContext? && b.replicaLocations.Some? ==>
              && r.NamingContext? && r.isAdam == b.isAdam && r.replicaLocations.Some?
              && (s.ntdsaObjectName in b.replicaLocations.value ==>
                    multiset(r.replicaLocations.value) == multiset(b.replicaLocations.value) - multiset{s.ntdsaObjectName})
              && (s.ntdsaObjectName !in b.replicaLocations.value ==> r == b)
    ensures b.Site? ==>
              && r.Site? && r == b.(changeList := r.changeList)
              && s.name in r.changeList && r.changeList[s.name] == None
              && forall k | k in b.changeList && k != s.name :: k in r.changeList && r.changeList[k] == b.changeList[k]
    ensures b.NamingContext? && b.replicaLocations.None? ==> r == b
  {
    match b
    case NamingContext(isAdam, locations) =>
      if locations.Some? then NamingContext(isAdam, Some(RemoveFirst(locations.value, s.ntdsaObjectName))) else b
    case Site(_, _, _, changeList, _) =>
      b.(changeList := changeList[s.name := None])
  }

  /** The replica-locations attribute holds one value per member. */
  predicate Mirrored(c: Collection)
  {
    c.binding.NamingContext? && c.binding.replicaLocations.Some? ==>
      multiset(c.binding.replicaLocations.value) == multiset(NtdsaNames(c.items))
  }

  // ---------------------------------------------------------------------------
  // Operations
  // ---------------------------------------------------------------------------

  /** `Add`: checks type, version or site, then uniqueness, then the
      framework's validation, and appends. Returns the new member's index. */
  function Add(c: Collection, server: Option<DirectoryServer>): (r: Result<(Collection, int)>)
    ensures server.None? ==> r == Err(ArgumentNull("server"))
    ensures r.Ok? <==> server.Some? && Admissible(c.binding, server.value) && !Holds(c, server.value)
    ensures server.Some? && PreCheck(c.binding, server.value).Some? ==>
              r == Err(Argument(PreCheck(c.binding, server.value).value))
    ensures server.Some? && PreCheck(c.binding, server.value).None? && Holds(c, server.value) ==>
              r == Err(Argument(AlreadyExistingInCollection))
    ensures server.Some? && PreCheck(c.binding, server.value).None? && !Holds(c, server.value)
            && OnValidate(c.binding, server.value).Some?
            ==> r == Err(Argument(OnValidate(c.binding, server.value).value))
    ensures r.Ok? ==> r.value.0.items == c.items + [server.value] && r.value.1 == |c.items|
    ensures r.Ok? ==> r.value.0.binding == InsertHook(c.binding, server.value)
  {
    if server.None? then Err(ArgumentNull("server"))
    else
      var s := server.value;
      match PreCheck(c.binding, s)
      case Some(reason) => Err(Argument(reason))
      case None =>
        if NameLookup.FirstMatch(c.items, ServerName, s.name) != -1 then Err(Argument(AlreadyExistingInCollection))
        else
          match OnValidate(c.binding, s)
          case Some(reason) => Err(Argument(reason))
          case None => Ok((Collection(c.items + [s], InsertHook(c.binding, s)), |c.items|))
  }

  /** `Insert`: the checks of `Add`, then the framework's index check, then
      insertion before position `index`. */
  function Insert(c: Collection, index: int, server: Option<DirectoryServer>): (r: Result<Collection>)
    ensures server.None? ==> r == Err(ArgumentNull("server"))
    ensures r.Ok? <==> server.Some? && Admissible(c.binding, server.value) && !Holds(c, server.value)
                       && 0 <= index <= |c.items|
    ensures server.Some? && PreCheck(c.binding, server.value).Some? ==>
              r == Err(Argument(PreCheck(c.binding, server.value).value))
    ensures server.Some? && PreCheck(c.binding, server.value).None? && Holds(c, server.value) ==>
              r == Err(Argument(AlreadyExistingInCollection))
    ensures server.Some? && PreCheck(c.binding, server.value).None? && !Holds(c, server.value)
            && !(0 <= index <= |c.items|)
            ==> r == Err(ArgumentOutOfRange)
    ensures server.Some? && PreCheck(c.binding, server.value).None? && !Holds(c, server.value)
            && 0 <= index <= |c.items| && OnValidate(c.binding, server.value).Some?
            ==> r == Err(Argument(OnValidate(c.binding, server.value).value))
    ensures r.Ok? ==> r.value.items == c.items[..index] + [server.value] + c.items[index..]
    ensures r.Ok? ==> r.value.binding == InsertHook(c.binding, server.value)
  {
    if server.None? then Err(ArgumentNull("server"))
    else
      var s := server.value;
      match PreCheck(c.binding, s)
      case Some(reason) => Err(Argument(reason))
      case None =>
        if NameLookup.FirstMatch(c.items, ServerName, s.name) != -1 then Err(Argument(AlreadyExistingInCollection))
        else if !(0 <= index <= |c.items|) then Err(ArgumentOutOfRange)
        else
          match OnValidate(c.binding, s)
          case Some(reason) => Err(Argument(reason))
          case None => Ok(Collection(c.items[..index] + [s] + c.items[index..], InsertHook(c.binding, s)))
  }

  /** The indexer setter as written: only the null and uniqueness checks of
      its own, then the framework's index check and validation; the replaced
      member is unmirrored and the new one mirrored. */
  function SetAt(c: Collection, index: int, value: Option<DirectoryServer>): (r: Result<Collection>)
    ensures value.None? ==> r == Err(ArgumentNull("value"))
    ensures r.Ok? <==> value.Some? && !Holds(c, value.value) && 0 <= index < |c.items|
                       && OnValidate(c.binding, value.value).None?
    ensures value.Some? && Holds(c, value.value) ==> r == Err(Argument(AlreadyExistingInCollection))
    ensures r.Ok? ==> |r.value.items| == |c.items|
    ensures r.Ok? ==> r.value.items[index] == value.value
    ensures r.Ok? ==> forall j | 0 <= j < |c.items| && j != index :: r.value.items[j] == c.items[j]
    ensures r.Ok? ==> r.value.binding == InsertHook(RemoveHook(c.binding, c.items[index]), value.value)
  {
    if value.None? then Err(ArgumentNull("value"))
    else
      var s := value.value;
      if NameLookup.FirstMatch(c.items, ServerName, s.name) != -1 then Err(Argument(AlreadyExistingInCollection))
      else if !(0 <= index < |c.items|) then Err(ArgumentOutOfRange)
      else
        match OnValidate(c.binding, s)
        case Some(reason) => Err(Argument(reason))
        case None => Ok(Collection(c.items[index := s], InsertHook(RemoveHook(c.binding, c.items[index]), s)))
  }

  /** The indexer setter with the type, version and site checks that `Add`
      and `Insert` make. */
  function SetAtChecked(c: Collection, index: int, value: Option<DirectoryServer>): (r: Result<Collection>)
    ensures value.None? ==> r == Err(ArgumentNull("value"))
    ensures r.Ok? <==> value.Some? && Admissible(c.binding, value.value) && !Holds(c, value.value)
                       && 0 <= index < |c.items|
    ensures value.Some? && PreCheck(c.binding, value.value).Some? ==>
              r == Err(Argument(PreCheck(c.binding, value.value).value))
    ensures r.Ok? ==> r == SetAt(c, index, value)
  {
    if value.None? then Err(ArgumentNull("value"))
    else
      match PreCheck(c.binding, value.value)
      case Some(reason) => Err(Argument(reason))
      case None => SetAt(c, index, value)
  }

  /** `Remove`: deletes the first member whose name matches, after the
      framework's validation of that member. */
  function Remove(c: Collection, server: Option<DirectoryServer>): (r: Result<Collection>)
    ensures server.None? ==> r == Err(ArgumentNull("server"))
    ensures server.Some? && !Holds(c, server.value) ==> r == Err(Argument(NotFoundInCollection))
    ensures r.Ok? ==> server.Some? && Holds(c, server.value)
    ensures r.Ok? ==>
              var i := NameLookup.FirstMatch(c.items, ServerName, server.value.name);
              && r.value.items == c.items[..i] + c.items[i + 1..]
              && r.value.binding == RemoveHook(c.binding, c.items[i])
  {
    if server.None? then Err(ArgumentNull("server"))
    else
      var i := NameLookup.FirstMatch(c.items, ServerName, server.value.name);
      if i == -1 then Err(Argument(NotFoundInCollection))
      else
        var found := c.items[i];
        match OnValidate(c.binding, found)
        case Some(reason) => Err(Argument(reason))
        case None => Ok(Collection(c.items[..i] + c.items[i + 1..], RemoveHook(c.binding, found)))
  }

  /** The remove hook applied to every server of a list, in order (the loop
      of `OnClearComplete`). */
  function UnstageAll(changeList: map<string, Option<string>>, servers: seq<DirectoryServer>)
    : (r: map<string, Option<string>>)
    decreases |servers|
    ensures forall i | 0 <= i < |servers| :: servers[i].name in r && r[servers[i].name] == None
    ensures forall k | k in changeList :: k in r
    ensures forall k | k in r && r[k] != None :: k in changeList && r[k] == changeList[k]
    ensures forall k | k in r :: k in changeList || exists i | 0 <= i < |servers| :: servers[i].name == k
    ensures forall k | k in changeList && (forall i | 0 <= i < |servers| :: servers[i].name != k) :: r[k] == changeList[k]
  {
    if |servers| == 0 then changeList
    else
      var rest := UnstageAll(changeList[servers[0].name := None], servers[1..]);
      assert forall i | 1 <= i < |servers| :: servers[1..][i - 1] == servers[i];
      rest
  }

  /** `Clear`: empties the list. A naming-context set empties the replica
      locations; an initialized site-bound set snapshots the list and
      unstages every former member. */
  function Clear(c: Collection): (r: Collection)
    ensures r.items == []
    ensures r.binding.NamingContext? == c.binding.NamingContext?
    ensures c.binding.NamingContext? ==>
              && r.binding.isAdam == c.binding.isAdam
              && r.binding.replicaLocations == (if c.binding.replicaLocations.Some? then Some([]) else None)
    ensures c.binding.Site? && c.binding.initialized ==>
              && r.binding.Site?
              && r.binding.copyList == c.items
              && r.binding == c.binding.(copyList := c.items, changeList := r.binding.changeList)
              && (forall k | k in c.binding.changeList && (forall i | 0 <= i < |c.items| :: c.items[i].name != k) ::
                    k in r.binding.changeList && r.binding.changeList[k] == c.binding.changeList[k])
              && forall i | 0 <= i < |c.items| ::
                   c.items[i].name in r.binding.changeList && r.binding.changeList[c.items[i].name] == None
    ensures c.binding.Site? && !c.binding.initialized ==> r.binding == c.binding
  {
    match c.binding
    case NamingContext(isAdam, locations) =>
      Collection([], NamingContext(isAdam, if locations.Some? then Some([]) else None))
    case Site(_, _, initialized, changeList, _) =>
      if initialized then
        Collection([], c.binding.(copyList := c.items, changeList := UnstageAll(changeList, c.items)))
      else Collection([], c.binding)
  }

  /** Appending servers one `Add` at a time, stopping at the first exception;
      the servers added before it stay. */
  function AddAll(c: Collection, servers: seq<DirectoryServer>): Applied<Collection>
    decreases |servers|
  {
    if |servers| == 0 then Applied(c, None)
    else
      match Add(c, Some(servers[0]))
      case Err(e) => Applied(c, Some(e))
      case Ok((next, _)) => AddAll(next, servers[1..])
  }

  /** The servers of an array known to hold no null. */
  function Values(servers: seq<Option<DirectoryServer>>): (r: seq<DirectoryServer>)
    requires forall i | 0 <= i < |servers| :: servers[i].Some?
    ensures |r| == |servers|
  {
    seq(|servers|, i requires 0 <= i < |servers| => servers[i].value)
  }

  /** `AddRange`: rejects a null array, then any null element, before adding
      anything; then adds the servers in order. */
  method AddRange(c: Collection, servers: Option<seq<Option<DirectoryServer>>>) returns (a: Applied<Collection>)
    ensures servers.None? ==> a == Applied(c, Some(ArgumentNull("servers")))
    ensures servers.Some? && (exists i | 0 <= i < |servers.value| :: servers.value[i].None?) ==>
              a == Applied(c, Some(Argument(NullElement)))
    ensures servers.Some? && (forall i | 0 <= i < |servers.value| :: servers.value[i].Some?) ==>
              a == AddAll(c, Values(servers.value))
  {
    if servers.None? {
      return Applied(c, Some(ArgumentNull("servers")));
    }
    var given := servers.value;
    var k := 0;
    while k < |given|
      invariant 0 <= k <= |given|
      invariant forall i | 0 <= i < k :: given[i].Some?
    {
      if given[k].None? {
        return Applied(c, Some(Argument(NullElement)));
      }
      k := k + 1;
    }
    ghost var all := Values(given);
    var current := c;
    var i := 0;
    while i < |given|
      invariant 0 <= i <= |given|
      invariant AddAll(c, all) == AddAll(current, all[i..])
    {
      assert all[i..][1..] == all[i + 1..];
      match Add(current, given[i])
      case Err(e) =>
        return Applied(current, Some(e));
      case Ok((next, _)) =>
        current := next;
      i := i + 1;
    }
    return Applied(current, None);
  }

  /** `IndexOf`. */
  method IndexOf(c: Collection, server: Option<DirectoryServer>) returns (r: Result<int>)
    ensures server.None? <==> r.Err?
    ensures r.Err? ==> r.error == ArgumentNull("server")
    ensures r.Ok? ==> r.value == NameLookup.FirstMatch(c.items, ServerName, server.value.name)
  {
    if server.None? {
      return Err(ArgumentNull("server"));
    }
    var i := NameLookup.IndexOfName(c.items, ServerName, server.value.name);
    return Ok(i);
  }

  /** `Contains`. */
  method Contains(c: Collection, server: Option<DirectoryServer>) returns (r: Result<bool>)
    ensures server.None? <==> r.Err?
    ensures r.Err? ==> r.error == ArgumentNull("server")
    ensures r.Ok? ==> (r.value <==> Holds(c, server.value))
  {
    if server.None? {
      return Err(ArgumentNull("server"));
    }
    var found := NameLookup.ContainsName(c.items, ServerName, server.value.name);
    return Ok(found);
  }

  /** `GetMultiValuedProperty`: one NTDS settings name per member, in order. */
  method GetMultiValuedProperty(c: Collection) returns (values: seq<string>)
    ensures |values| == |c.items|
    ensures forall i | 0 <= i < |c.items| :: values[i] == c.items[i].ntdsaObjectName
  {
    values := [];
    var i := 0;
    while i < |c.items|
      invariant 0 <= i <= |c.items|
      invariant |values| == i
      invariant forall j | 0 <= j < i :: values[j] == c.items[j].ntdsaObjectName
    {
      values := values + [c.items[i].ntdsaObjectName];
      i := i + 1;
    }
  }

  // ---------------------------------------------------------------------------
  // Invariants the operations keep
  // ---------------------------------------------------------------------------

  lemma NtdsaNamesAppend(a: seq<DirectoryServer>, b: seq<DirectoryServer>)
    ensures NtdsaNames(a + b) == NtdsaNames(a) + NtdsaNames(b)
  {
  }

  /** Adding keeps the replica locations in step with the list. */
  lemma {:induction false} AddKeepsMirror(c: Collection, s: DirectoryServer)
    requires Mirrored(c)
    requires Add(c, Some(s)).Ok?
    ensures Mirrored(Add(c, Some(s)).value.0)
  {
    NtdsaNamesAppend(c.items, [s]);
  }

  /** Inserting keeps the replica locations in step with the list. */
  lemma {:induction false} InsertKeepsMirror(c: Collection, index: int, s: DirectoryServer)
    requires Mirrored(c)
    requires Insert(c, index, Some(s)).Ok?
    ensures Mirrored(Insert(c, index, Some(s)).value)
  {
    var items := c.items;
    assert items == items[..index] + items[index..];
    NtdsaNamesAppend(items[..index], items[index..]);
    NtdsaNamesAppend(items[..index], [s]);
    NtdsaNamesAppend(items[..index] + [s], items[index..]);
  }

  /** Removing keeps the replica locations in step with the list. */
  lemma {:induction false} RemoveKeepsMirror(c: Collection, s: DirectoryServer)
    requires Mirrored(c)
    requires Remove(c, Some(s)).Ok?
    ensures Mirrored(Remove(c, Some(s)).value)
  {
    var r := Remove(c, Some(s)).value;
    var i := NameLookup.FirstMatch(c.items, ServerName, s.name);
    var items := c.items;
    var pre, post := items[..i], items[i + 1..];
    var n := items[i].ntdsaObjectName;
    assert items == pre + [items[i]] + post;
    NtdsaNamesAppend(pre, [items[i]]);
    NtdsaNamesAppend(pre + [items[i]], post);
    NtdsaNamesAppend(pre, post);
    assert NtdsaNames([items[i]]) == [n];
    assert multiset(NtdsaNames(items)) == multiset(NtdsaNames(pre)) + multiset{n} + multiset(NtdsaNames(post));
    assert r.items == pre + post;
    assert multiset(NtdsaNames(r.items)) == multiset(NtdsaNames(pre)) + multiset(NtdsaNames(post));
    if c.binding.NamingContext? && c.binding.replicaLocations.Some? {
      var locations := c.binding.replicaLocations.value;
      assert n in multiset(locations);
      assert r.binding.replicaLocations.value == RemoveFirst(locations, n);
    }
  }

  /** Replacing one member changes the name multiset by one value out, one in. */
  lemma {:induction false} NtdsaNamesUpdate(items: seq<DirectoryServer>, index: int, s: DirectoryServer)
    requires 0 <= index < |items|
    ensures multiset(NtdsaNames(items[index := s]))
         == multiset(NtdsaNames(items)) - multiset{items[index].ntdsaObjectName} + multiset{s.ntdsaObjectName}
  {
    var names := NtdsaNames(items);
    assert NtdsaNames(items[index := s]) == names[index := s.ntdsaObjectName];
    assert names == names[..index] + [names[index]] + names[index + 1..];
    assert names[index := s.ntdsaObjectName] == names[..index] + [s.ntdsaObjectName] + names[index + 1..];
  }

  /** Setting an element (remove then insert) keeps the replica locations in
      step with the list. */
  lemma {:induction false} SetAtKeepsMirror(c: Collection, index: int, s: DirectoryServer)
    requires Mirrored(c)
    requires SetAt(c, index, Some(s)).Ok?
    ensures Mirrored(SetAt(c, index, Some(s)).value)
  {
    var after := SetAt(c, index, Some(s)).value.items;
    assert after == c.items[index := s];
    NtdsaNamesUpdate(c.items, index, s);
    if c.binding.NamingContext? && c.binding.replicaLocations.Some? {
      var n := c.items[index].ntdsaObjectName;
      assert NtdsaNames(c.items)[index] == n;
      assert n in multiset(NtdsaNames(c.items));
    }
  }

  /** Clearing keeps the replica locations in step with the list. */
  lemma ClearKeepsMirror(c: Collection)
    ensures Mirrored(Clear(c))
  {
  }

  /** Under the invariant, `Remove` fails exactly when no member matches. */
  lemma {:induction false} RemoveSucceedsOnMembers(c: Collection, s: DirectoryServer)
    requires WellFormed(c)
    ensures Remove(c, Some(s)).Ok? <==> Holds(c, s)
  {
    if Holds(c, s) {
      var i := NameLookup.FirstMatch(c.items, ServerName, s.name);
      assert Admissible(c.binding, c.items[i]);
      AdmissibleIffChecksPass(c.binding, c.items[i]);
    }
  }

  /** `Add` keeps names unique and every member admissible. */
  lemma {:induction false} AddKeepsWellFormed(c: Collection, s: DirectoryServer)
    requires WellFormed(c)
    requires Add(c, Some(s)).Ok?
    ensures WellFormed(Add(c, Some(s)).value.0)
  {
    var r := Add(c, Some(s)).value.0;
    assert r.binding.NamingContext? == c.binding.NamingContext?;
    forall i, j | 0 <= i < j < |r.items|
      ensures !SameName(r.items[i].name, r.items[j].name)
    {
      if j == |c.items| {
        assert !SameName(ServerName(c.items[i]), s.name);
      }
    }
  }

  /** `Insert` keeps names unique and every member admissible. */
  lemma {:induction false} InsertKeepsWellFormed(c: Collection, index: int, s: DirectoryServer)
    requires WellFormed(c)
    requires Insert(c, index, Some(s)).Ok?
    ensures WellFormed(Insert(c, index, Some(s)).value)
  {
    var r := Insert(c, index, Some(s)).value;
    var items := c.items;
    assert forall j | 0 <= j < index :: r.items[j] == items[j];
    assert r.items[index] == s;
    assert forall j | index < j < |r.items| :: r.items[j] == items[j - 1];
    forall i, j | 0 <= i < j < |r.items|
      ensures !SameName(r.items[i].name, r.items[j].name)
    {
      if i == index {
        assert !SameName(ServerName(items[j - 1]), s.name);
        SameNameIsEquivalence(s.name, items[j - 1].name, s.name);
      } else if j == index {
        assert !SameName(ServerName(items[i]), s.name);
      }
    }
  }

  /** `Remove` keeps names unique and every member admissible. */
  lemma {:induction false} RemoveKeepsWellFormed(c: Collection, s: DirectoryServer)
    requires WellFormed(c)
    requires Remove(c, Some(s)).Ok?
    ensures WellFormed(Remove(c, Some(s)).value)
  {
    var i := NameLookup.FirstMatch(c.items, ServerName, s.name);
    var r := Remove(c, Some(s)).value;
    assert forall j | 0 <= j < i :: r.items[j] == c.items[j];
    assert forall j | i <= j < |r.items| :: r.items[j] == c.items[j + 1];
  }

  /** `Clear` leaves an empty, hence well-formed, collection. */
  lemma ClearKeepsWellFormed(c: Collection)
    ensures WellFormed(Clear(c))
  {
  }

  /** The checked setter keeps names unique and every member admissible. */
  lemma {:induction false} SetAtCheckedKeepsWellFormed(c: Collection, index: int, s: DirectoryServer)
    requires WellFormed(c)
    requires SetAtChecked(c, index, Some(s)).Ok?
    ensures WellFormed(SetAtChecked(c, index, Some(s)).value)
  {
    var r := SetAtChecked(c, index, Some(s)).value;
    forall i, j | 0 <= i < j < |r.items|
      ensures !SameName(r.items[i].name, r.items[j].name)
    {
      if i == index {
        assert !SameName(ServerName(c.items[j]), s.name);
        SameNameIsEquivalence(s.name, c.items[j].name, s.name);
      } else if j == index {
        assert !SameName(ServerName(c.items[i]), s.name);
      }
    }
  }

  /** The setter as written lets a pre-2003 domain controller into the
      replica set of an Active Directory partition, which `Add` refuses. */
  lemma SetAtAdmitsOldDomainController()
    ensures
      var dc2003 := DomainController("dc1", 52, false, "site", "server1", "ntds1");
      var dc2000 := DomainController("dc2", 50, false, "site", "server2", "ntds2");
      var c := ForNamingContext(false, Some(["ntds1"]), [dc2003]);
      && WellFormed(c)
      && Add(c, Some(dc2000)).Err?
      && SetAt(c, 0, Some(dc2000)).Ok?
      && !WellFormed(SetAt(c, 0, Some(dc2000)).value)
      && SetAtChecked(c, 0, Some(dc2000)) == Err(Argument(ServerShouldBeW2K3))
  {
    var dc2003 := DomainController("dc1", 52, false, "site", "server1", "ntds1");
    var dc2000 := DomainController("dc2", 50, false, "site", "server2", "ntds2");
    var c := ForNamingContext(false, Some(["ntds1"]), [dc2003]);
    assert NameKey("dc1") != NameKey("dc2") by {
      assert NameKey("dc1")[2] == '1';
      assert NameKey("dc2")[2] == '2';
    }
    assert !Holds(c, dc2000);
  }

  /** The setter as written lets a server of another site into a site's
      bridgehead list, which `Add` refuses. */
  lemma SetAtAdmitsForeignSite()
    ensures
      var here := AdamInstance("a1", "siteA", "server1", "ntds1");
      var there := AdamInstance("b1", "siteB", "server2", "ntds2");
      var c := Collection([here], Site("siteA", None, true, map[], []));
      && WellFormed(c)
      && Add(c, Some(there)) == Err(Argument(NotWithinSite))
      && SetAt(c, 0, Some(there)).Ok?
      && !WellFormed(SetAt(c, 0, Some(there)).value)
  {
    var here := AdamInstance("a1", "siteA", "server1", "ntds1");
    var there := AdamInstance("b1", "siteB", "server2", "ntds2");
    var c := Collection([here], Site("siteA", None, true, map[], []));
    assert NameKey("siteA") != NameKey("siteB") by {
      assert NameKey("siteA")[4] == 'a';
      assert NameKey("siteB")[4] == 'b';
    }
    assert NameKey("a1") != NameKey("b1") by {
      assert NameKey("a1")[0] == 'a';
      assert NameKey("b1")[0] == 'b';
    }
    assert !Holds(c, there);
  }

  /** `AddRange` keeps what it added before an exception: the original
      members stay in front, and without an exception every server was
      appended in order. */
  lemma {:induction false} AddAllAppends(c: Collection, servers: seq<DirectoryServer>)
    ensures |c.items| <= |AddAll(c, servers).state.items|
    ensures AddAll(c, servers).state.items[..|c.items|] == c.items
    ensures AddAll(c, servers).error.None? ==> AddAll(c, servers).state.items == c.items + servers
    decreases |servers|
  {
    if |servers| > 0 {
      match Add(c, Some(servers[0]))
      case Err(e) =>
      case Ok((next, _)) =>
        AddAllAppends(next, servers[1..]);
        assert next.items[..|c.items|] == c.items;
        assert servers == [servers[0]] + servers[1..];
    }
  }

  /** `AddRange` keeps the collection well-formed, whatever it stops at. */
  lemma {:induction false} AddAllKeepsWellFormed(c: Collection, servers: seq<DirectoryServer>)
    requires WellFormed(c)
    ensures WellFormed(AddAll(c, servers).state)
    decreases |servers|
  {
    if |servers| > 0 {
      match Add(c, Some(servers[0]))
      case Err(e) =>
      case Ok((next, _)) =>
        AddKeepsWellFormed(c, servers[0]);
        AddAllKeepsWellFormed(next, servers[1..]);
    }
  }
}

=== FILE: domain_controller_collection.dfy ===
/**
 `DomainControllerCollection`: a read-only list filled once from a source list, with a
 case-insensitive first-match `IndexOf` and `Contains` that reject null.
 */
module DomainControllerCollection {
  import opened Common
  import opened Errors
  import opened Servers
  import NameLookup

  datatype Collection = Collection(items: seq<DomainController>)

  function DcName(x: DomainController): string
  {
    x.name
  }

  /** The constructor: a null source gives an empty collection, otherwise the
      source is copied in order. */
  method Create(values: Option<seq<DomainController>>) returns (c: Collection)
    ensures values.None? ==> c.items == []
    ensures values.Some? ==> |c.items| == |values.value|
    ensures values.Some? ==> forall j | 0 <= j < |c.items| :: c.items[j] == values.value[j]
  {
    var items := NameLookup.CopyOf(values);
    c := Collection(items);
  }

  /** `IndexOf`: null is rejected; otherwise the least index whose name
      matches, or -1. */
  method IndexOf(c: Collection, domainController: Option<DomainController>) returns (r: Result<int>)
    ensures domainController.None? <==> r.Err?
    ensures r.Err? ==> r.error == ArgumentNull("domainController")
    ensures r.Ok? ==> r.value == NameLookup.FirstMatch(c.items, DcName, domainController.value.name)
  {
    if domainController.None? {
      return Err(ArgumentNull("domainController"));
    }
    var i := NameLookup.IndexOfName(c.items, DcName, domainController.value.name);
    return Ok(i);
  }

  /** `Contains`: null is rejected; otherwise whether some member's name
      matches. */
  method Contains(c: Collection, domainController: Option<DomainController>) returns (r: Result<bool>)
    ensures domainController.None? <==> r.Err?
    ensures r.Err? ==> r.error == ArgumentNull("domainController")
    ensures r.Ok? ==> (r.value <==> NameLookup.Occurs(c.items, DcName, domainController.value.name))
  {
    if domainController.None? {
      return Err(ArgumentNull("domainController"));
    }
    var found := NameLookup.ContainsName(c.items, DcName, domainController.value.name);
    return Ok(found);
  }
}

=== FILE: errors.dfy ===
/**
 The exceptions the modelled classes raise, as one closed taxonomy, and the
 result wrappers that carry them.
 */
module Errors {
  import opened Common

  /** Why an `ArgumentException` was raised (the resource string it names). */
  datatype ArgumentReason =
    | EmptyStringParameter
    | TargetShouldBeServer
    | ContextNotAssociatedWithDomain
    | NotADOrADAM
    | ServerShouldBeDC
    | ServerShouldBeAI
    | ServerShouldBeW2K3
    | AlreadyExistingInCollection
    | NotWithinSite
    | NotFoundInCollection
    | NullElement
    | NegativeValue
    | NoNegativeTime
    | ReplicationIntervalExceedMax
    | ReplicationIntervalInMinutes
    | InvalidDNFormat
    | SiteNotExist

  /** Why an `InvalidOperationException` was raised. `DirectoryRefused` is the
      one produced from a COM error (constraint violation, unwilling to perform). */
  datatype InvalidOperationReason =
    | UncommittedObject
    | CannotGetObject
    | CannotDelete
    | NoObjectClassForADPartition
    | SiteNotCommitted
    | DirectoryRefused(code: int32)

  /** Why a `NotSupportedException` was raised. */
  datatype NotSupportedReason =
    | OneLevelPartitionNotSupported
    | OperationInvalidForADAM
    | PropertyInvalidForADAM
    | TransportSmtpNotSupported

  /** The exceptions of the modelled code. `Operation` is
      `ActiveDirectoryOperationException` with its error code (0 when the
      source constructs it without one); `ServerDown` carries the code and the
      server name of `ActiveDirectoryServerDownException`. `NullReference` is
      the runtime's exception for a member call on a null entry. */
  datatype DsError =
    | ArgumentNull(parameter: string)
    | Argument(reason: ArgumentReason)
    | ArgumentOutOfRange
    | InvalidEnumArgument(value: int)
    | InvalidOperation(why: InvalidOperationReason)
    | NotSupported(what: NotSupportedReason)
    | ObjectDisposed
    | ObjectNotFound
    | UnauthorizedAccess
    | Authentication
    | ObjectExists
    | OutOfMemory
    | ServerDown(code: int32, serverName: Option<string>)
    | Operation(code: int32)
    | NullReference

  /** A value, or the exception raised instead of producing it. */
  datatype Result<+T> = Ok(value: T) | Err(error: DsError) {
    predicate IsFailure() { Err? }

    function PropagateFailure<U>(): Result<U>
      requires Err?
    {
      Err(error)
    }

    function Extract(): T
      requires Ok?
    {
      value
    }
  }

  /** The state an object is left in by a call, and the exception the call
      raised, if any. Used where the original mutates the object and then
      throws, so that the mutation survives the exception. */
  datatype Applied<+S> = Applied(state: S, error: Option<DsError>)
}

=== FILE: exception_helper.dfy ===
/**
 Error classification: the mapping of COM HRESULTs and Win32 error codes to
 the exception taxonomy, the code transform used before looking up a message,
 the message of a server-down exception, and the collection of the errors
 reported by a replicate-from-all-servers call.
 */
module ExceptionHelper {
  import opened Common
  import opened Errors

  /** The signed 32-bit value of an HRESULT written as an unsigned literal,
      as the source's `unchecked((int)0x8007....)`. */
  function Hr(u: int): int32
    requires 0x8000_0000 <= u < 0x1_0000_0000
  {
    (u - 0x1_0000_0000) as int32
  }

  const E_ACCESSDENIED: int32 := Hr(0x8007_0005)
  const E_LOGON_FAILURE: int32 := Hr(0x8007_052e)
  const E_CONSTRAINT_VIOLATION: int32 := Hr(0x8007_202f)
  const E_UNWILLING_TO_PERFORM: int32 := Hr(0x8007_2035)
  const E_OBJECT_ALREADY_EXISTS: int32 := Hr(0x8007_1392)
  const E_NOT_ENOUGH_MEMORY: int32 := Hr(0x8007_0008)
  const E_SERVER_DOWN: int32 := Hr(0x8007_203a)
  const E_UNAVAILABLE: int32 := Hr(0x8007_200e)
  const E_BUSY: int32 := Hr(0x8007_200f)

  const ServerDownHResults: set<int32> := {E_SERVER_DOWN, E_UNAVAILABLE, E_BUSY}

  /** Every HRESULT that gets an exception more specific than the generic one. */
  const MappedHResults: set<int32> :=
    {E_ACCESSDENIED, E_LOGON_FAILURE, E_CONSTRAINT_VIOLATION, E_UNWILLING_TO_PERFORM,
     E_OBJECT_ALREADY_EXISTS, E_NOT_ENOUGH_MEMORY} + ServerDownHResults

  const ERROR_ACCESS_DENIED: int32 := 5
  const ERROR_NOT_ENOUGH_MEMORY: int32 := 8
  const ERROR_OUTOFMEMORY: int32 := 14
  const ERROR_NO_LOGON_SERVERS: int32 := 1311
  const ERROR_NO_SUCH_DOMAIN: int32 := 1355
  const RPC_S_OUT_OF_RESOURCES: int32 := 1721
  const RPC_S_SERVER_UNAVAILABLE: int32 := 1722
  const RPC_S_CALL_FAILED: int32 := 1726
  const ERROR_CANCELLED: int32 := 1223
  const ERROR_DS_DRA_OUT_OF_MEM: int32 := 8446
  const ERROR_DS_DRA_ACCESS_DENIED: int32 := 8453

  const AccessDeniedCodes: set<int32> := {ERROR_ACCESS_DENIED, ERROR_DS_DRA_ACCESS_DENIED}
  const OutOfMemoryCodes: set<int32> :=
    {ERROR_NOT_ENOUGH_MEMORY, ERROR_OUTOFMEMORY, ERROR_DS_DRA_OUT_OF_MEM, RPC_S_OUT_OF_RESOURCES}
  const ServerDownCodes: set<int32> :=
    {ERROR_NO_LOGON_SERVERS, ERROR_NO_SUCH_DOMAIN, RPC_S_SERVER_UNAVAILABLE, RPC_S_CALL_FAILED}

  /** The server a context names, or null for a null context. */
  function ServerNameOf(context: Option<DirectoryContext>): Option<string>
  {
    match context
    case None => None
    case Some(c) => c.serverName
  }

  /** `GetExceptionFromCOMException`: a first-match chain over the HRESULT. */
  function FromComException(context: Option<DirectoryContext>, code: int32): (e: DsError)
    ensures e.UnauthorizedAccess? <==> code == E_ACCESSDENIED
    ensures e.Authentication? <==> code == E_LOGON_FAILURE
    ensures e.InvalidOperation? <==> code == E_CONSTRAINT_VIOLATION || code == E_UNWILLING_TO_PERFORM
    ensures e.InvalidOperation? ==> e.why == DirectoryRefused(code)
    ensures e.ObjectExists? <==> code == E_OBJECT_ALREADY_EXISTS
    ensures e.OutOfMemory? <==> code == E_NOT_ENOUGH_MEMORY
    ensures e.ServerDown? <==> code in ServerDownHResults
    ensures e.ServerDown? ==> e.code == code && e.serverName == ServerNameOf(context)
    ensures e.Operation? <==> code !in MappedHResults
    ensures e.Operation? ==> e.code == code
  {
    if code == E_ACCESSDENIED then UnauthorizedAccess
    else if code == E_LOGON_FAILURE then Authentication
    else if code == E_CONSTRAINT_VIOLATION then InvalidOperation(DirectoryRefused(code))
    else if code == E_UNWILLING_TO_PERFORM then InvalidOperation(DirectoryRefused(code))
    else if code == E_OBJECT_ALREADY_EXISTS then ObjectExists
    else if code == E_NOT_ENOUGH_MEMORY then OutOfMemory
    else if code == E_SERVER_DOWN || code == E_UNAVAILABLE || code == E_BUSY then
      ServerDown(code, ServerNameOf(context))
    else Operation(code)
  }

  /** The kinds of specific exception the COM mapping can choose. */
  datatype ComKind = Denied | LogonFailure | Refused | Exists | NoMemory | Down

  /** An order-free reference for the COM mapping: a table from code to kind.
      A map cannot hold a key twice, so agreement with the first-match chain
      shows that no code is claimed by two branches. */
  const ComKinds: map<int32, ComKind> := map[
    E_ACCESSDENIED := Denied,
    E_LOGON_FAILURE := LogonFailure,
    E_CONSTRAINT_VIOLATION := Refused,
    E_UNWILLING_TO_PERFORM := Refused,
    E_OBJECT_ALREADY_EXISTS := Exists,
    E_NOT_ENOUGH_MEMORY := NoMemory,
    E_SERVER_DOWN := Down,
    E_UNAVAILABLE := Down,
    E_BUSY := Down]

  function ExceptionOfKind(kind: ComKind, context: Option<DirectoryContext>, code: int32): DsError
  {
    match kind
    case Denied => UnauthorizedAccess
    case LogonFailure => Authentication
    case Refused => InvalidOperation(DirectoryRefused(code))
    case Exists => ObjectExists
    case NoMemory => OutOfMemory
    case Down => ServerDown(code, ServerNameOf(context))
  }

  /** The COM mapping is total and agrees with the table: each code hits exactly
      one branch, and codes outside the table become the generic exception. */
  lemma ComMappingIsTableLookup(context: Option<DirectoryContext>, code: int32)
    ensures ComKinds.Keys == MappedHResults
    ensures FromComException(context, code)
         == if code in ComKinds then ExceptionOfKind(ComKinds[code], context, code) else Operation(code)
  {
  }

  /** `GetExceptionFromErrorCode(errorCode, targetName)` for Win32 codes. */
  function FromErrorCode(code: int32, targetName: Option<string>): (e: DsError)
    ensures e.UnauthorizedAccess? || e.OutOfMemory? || e.ServerDown? || e.Operation?
    ensures e.UnauthorizedAccess? <==> code in AccessDeniedCodes
    ensures e.OutOfMemory? <==> code in OutOfMemoryCodes
    ensures e.ServerDown? <==> code in ServerDownCodes
    ensures e.ServerDown? ==> e.code == code && e.serverName == targetName
    ensures e.Operation? <==> code !in AccessDeniedCodes + OutOfMemoryCodes + ServerDownCodes
    ensures e.Operation? ==> e.code == code
  {
    if code == ERROR_ACCESS_DENIED || code == ERROR_DS_DRA_ACCESS_DENIED then UnauthorizedAccess
    else if code == ERROR_NOT_ENOUGH_MEMORY || code == ERROR_OUTOFMEMORY
         || code == ERROR_DS_DRA_OUT_OF_MEM || code == RPC_S_OUT_OF_RESOURCES then OutOfMemory
    else if code == ERROR_NO_LOGON_SERVERS || code == ERROR_NO_SUCH_DOMAIN
         || code == RPC_S_SERVER_UNAVAILABLE || code == RPC_S_CALL_FAILED then ServerDown(code, targetName)
    else Operation(code)
  }

  /** The three Win32 code groups are pairwise disjoint, so the first-match
      chain never has to choose between two of them. */
  lemma Win32GroupsAreDisjoint()
    ensures AccessDeniedCodes !! OutOfMemoryCodes
    ensures AccessDeniedCodes !! ServerDownCodes
    ensures OutOfMemoryCodes !! ServerDownCodes
  {
  }

  /** The unsigned value of the bit pattern of a signed 32-bit value, as the
      source's `(uint)` cast. */
  function Unsigned(x: int32): (u: nat)
    ensures u < 0x1_0000_0000
    ensures u % 0x1_0000_0000 == x as int % 0x1_0000_0000
  {
    if x < 0 then x as int + 0x1_0000_0000 else x as int
  }

  /** Turning a Win32 code into an HRESULT: keep the low 16 bits, put 7
      (FACILITY_WIN32) in the facility field and set the severity bit. On a
      value below 2^16 the two `|` with the high constants are additions. */
  function Win32ToHResult(temp: nat): (r: nat)
    ensures r < 0x1_0000_0000
    ensures r % 0x1_0000 == temp % 0x1_0000
    ensures r / 0x1_0000 == 0x8007
  {
    temp % 0x1_0000 + 0x8007_0000
  }

  /** The code that `GetErrorMessage` asks the system to describe, as an
      unsigned 32-bit value. */
  function MessageCode(errorCode: int32, hresult: bool): (r: nat)
    ensures r < 0x1_0000_0000
    ensures hresult ==> r == Unsigned(errorCode)
    ensures !hresult ==> r % 0x1_0000 == Unsigned(errorCode) % 0x1_0000
    ensures !hresult ==> r / 0x1_0000 == 0x8007
  {
    var temp := Unsigned(errorCode);
    if hresult then temp else Win32ToHResult(temp)
  }

  /** The transform is idempotent and fixes exactly the 32-bit codes that
      already carry severity 1 and facility 7. */
  lemma Win32ToHResultFixedPoints(t: nat)
    requires t < 0x1_0000_0000
    ensures Win32ToHResult(Win32ToHResult(t)) == Win32ToHResult(t)
    ensures Win32ToHResult(t) == t <==> t / 0x1_0000 == 0x8007
  {
  }

  /** `ActiveDirectoryServerDownException.Message`: the base message, followed
      by a line naming the server when the name is non-null and non-empty. */
  function ServerDownMessage(baseMessage: string, name: Option<string>, newLine: string,
                             formatName: string -> string): (m: string)
    ensures |baseMessage| <= |m| && m[..|baseMessage|] == baseMessage
    ensures (name.None? || name.value == "") ==> m == baseMessage
    ensures name.Some? && name.value != "" ==> m[|baseMessage|..] == newLine + formatName(name.value) + newLine
    ensures |newLine| > 0 ==> (m == baseMessage <==> name.None? || name.value == "")
  {
    if !(name.None? || |name.value| == 0) then
      baseMessage + newLine + formatName(name.value) + newLine
    else
      baseMessage
  }

  /** The category a replication error falls into. */
  datatype SyncErrorCategory = ErrorContactingServer | ErrorReplicating | ServerUnreachable

  /** One native `DS_REPSYNCALL_ERRINFO` record. */
  datatype RawSyncError = RawSyncError(
    serverId: Option<string>,
    category: SyncErrorCategory,
    win32Error: int32,
    sourceId: Option<string>)

  /** `SyncFromAllServersErrorInformation`. */
  datatype SyncErrorInformation = SyncErrorInformation(
    category: SyncErrorCategory,
    errorCode: int32,
    errorMessage: string,
    sourceServer: Option<string>,
    targetServer: Option<string>)

  /** `SyncFromAllServersOperationException`; `errors` is null for the
      exception built without error information. */
  datatype SyncAllException = SyncAllException(errors: Option<seq<SyncErrorInformation>>)

  /** What the native error pointer refers to: nothing, one record (the
      `singleError` case), or a null-terminated array of records. */
  datatype ErrorBuffer = NullPointer | SingleRecord(record: RawSyncError) | RecordList(records: seq<RawSyncError>)

  /** The managed description of one record; `format` stands for the system
      message lookup of the transformed code. */
  function Describe(e: RawSyncError, format: nat -> string): (r: SyncErrorInformation)
    ensures r.category == e.category && r.errorCode == e.win32Error
    ensures r.errorMessage == format(MessageCode(e.win32Error, false))
  {
    SyncErrorInformation(e.category, e.win32Error, format(MessageCode(e.win32Error, false)), e.sourceId, e.serverId)
  }

  predicate Cancelled(e: RawSyncError)
  {
    e.win32Error == ERROR_CANCELLED
  }

  /** The descriptions of the records that were not cancelled, in order. */
  function Reported(records: seq<RawSyncError>, format: nat -> string): (r: seq<SyncErrorInformation>)
    ensures |r| <= |records|
    ensures records != [] && !Cancelled(records[|records| - 1]) ==>
              |r| > 0 && r[|r| - 1] == Describe(records[|records| - 1], format)
  {
    if |records| == 0 then []
    else
      var last := records[|records| - 1];
      Reported(records[..|records| - 1], format) + (if Cancelled(last) then [] else [Describe(last, format)])
  }

  function CancelledCount(records: seq<RawSyncError>): nat
  {
    if |records| == 0 then 0
    else CancelledCount(records[..|records| - 1]) + (if Cancelled(records[|records| - 1]) then 1 else 0)
  }

  /** Only cancelled records are dropped: every reported entry has a real error
      code, every uncancelled record is reported, and the report is empty
      exactly when every record was cancelled. */
  lemma {:induction false} ReportedDropsOnlyCancelled(records: seq<RawSyncError>, format: nat -> string)
    ensures |Reported(records, format)| == |records| - CancelledCount(records)
    ensures forall k | 0 <= k < |Reported(records, format)| :: Reported(records, format)[k].errorCode != ERROR_CANCELLED
    ensures forall i | 0 <= i < |records| && !Cancelled(records[i]) :: Describe(records[i], format) in Reported(records, format)
    ensures Reported(records, format) == [] <==> forall i | 0 <= i < |records| :: Cancelled(records[i])
  {
    if |records| > 0 {
      var init := records[..|records| - 1];
      ReportedDropsOnlyCancelled(init, format);
      assert forall i | 0 <= i < |init| :: init[i] == records[i];
      var r := Reported(records, format);
      assert r == Reported(init, format) + (if Cancelled(records[|records| - 1]) then [] else [Describe(records[|records| - 1], format)]);
      assert CancelledCount(init) <= |init|;
      forall i | 0 <= i < |records| && !Cancelled(records[i])
        ensures Describe(records[i], format) in r
      {
        if i < |init| {
          assert Describe(init[i], format) in Reported(init, format);
        }
      }
    }
  }

  /** `CreateSyncAllException`: a null pointer gives an exception without
      entries; cancelled records (the aliveness-only probe) are dropped; no
      exception at all when nothing is left. */
  method CreateSyncAllException(buffer: ErrorBuffer, format: nat -> string) returns (r: Option<SyncAllException>)
    ensures buffer.NullPointer? ==> r == Some(SyncAllException(None))
    ensures buffer.SingleRecord? ==> (r.None? <==> Cancelled(buffer.record))
    ensures buffer.SingleRecord? && r.Some? ==> r.value.errors == Some([Describe(buffer.record, format)])
    ensures buffer.RecordList? ==> (r.None? <==> forall i | 0 <= i < |buffer.records| :: Cancelled(buffer.records[i]))
    ensures buffer.RecordList? && r.Some? ==> r.value.errors == Some(Reported(buffer.records, format))
  {
    match buffer
    case NullPointer =>
      return Some(SyncAllException(None));
    case SingleRecord(e) =>
      if Cancelled(e) {
        return None;
      }
      return Some(SyncAllException(Some([Describe(e, format)])));
    case RecordList(records) =>
      var errorList: seq<SyncErrorInformation> := [];
      var i := 0;
      while i < |records|
        invariant 0 <= i <= |records|
        invariant errorList == Reported(records[..i], format)
      {
        assert records[..i + 1][..i] == records[..i];
        if !Cancelled(records[i]) {
          errorList := errorList + [Describe(records[i], format)];
        }
        i := i + 1;
      }
      assert records[..i] == records;
      ReportedDropsOnlyCancelled(records, format);
      if |errorList| == 0 {
        return None;
      }
      return Some(SyncAllException(Some(errorList)));
  }

  /** `ErrorInformation`: an empty array when no errors are stored, otherwise a
      fresh array holding a copy of each entry. */
  method ErrorInformation(ex: SyncAllException) returns (r: seq<SyncErrorInformation>)
    ensures ex.errors.None? ==> r == []
    ensures ex.errors.Some? ==> |r| == |ex.errors.value|
    ensures ex.errors.Some? ==> forall i | 0 <= i < |r| :: r[i] == ex.errors.value[i]
  {
    if ex.errors.None? {
      return [];
    }
    var errors := ex.errors.value;
    r := [];
    var i := 0;
    while i < |errors|
      invariant 0 <= i <= |errors|
      invariant r == errors[..i]
    {
      var e := errors[i];
      r := r + [SyncErrorInformation(e.category, e.errorCode, e.errorMessage, e.sourceServer, e.targetServer)];
      i := i + 1;
    }
  }
}

=== FILE: global_catalog_collection.dfy ===
/**
 `GlobalCatalogCollection`: a read-only list filled once from a source list, with a
 case-insensitive first-match `IndexOf` and `Contains` that reject null.
 */
module GlobalCatalogCollection {
  import opened Common
  import opened Errors
  import opened Servers
  import NameLookup

  datatype Collection = Collection(items: seq<GlobalCatalog>)

  function GcName(x: GlobalCatalog): string
  {
    x.name
  }

  /** The constructor: a null source gives an empty collection, otherwise the
      source is copied in order. */
  method Create(values: Option<seq<GlobalCatalog>>) returns (c: Collection)
    ensures values.None? ==> c.items == []
    ensures values.Some? ==> |c.items| == |values.value|
    ensures values.Some? ==> forall j | 0 <= j < |c.items| :: c.items[j] == values.value[j]
  {
    var items := NameLookup.CopyOf(values);
    c := Collection(items);
  }

  /** `IndexOf`: null is rejected; otherwise the least index whose name
      matches, or -1. */
  method IndexOf(c: Collection, globalCatalog: Option<GlobalCatalog>) returns (r: Result<int>)
    ensures globalCatalog.None? <==> r.Err?
    ensures r.Err? ==> r.error == ArgumentNull("globalCatalog")
    ensures r.Ok? ==> r.value == NameLookup.FirstMatch(c.items, GcName, globalCatalog.value.name)
  {
    if globalCatalog.None? {
      return Err(ArgumentNull("globalCatalog"));
    }
    var i := NameLookup.IndexOfName(c.items, GcName, globalCatalog.value.name);
    return Ok(i);
  }

  /** `Contains`: null is rejected; otherwise whether some member's name
      matches. */
  method Contains(c: Collection, globalCatalog: Option<GlobalCatalog>) returns (r: Result<bool>)
    ensures globalCatalog.None? <==> r.Err?
    ensures r.Err? ==> r.error == ArgumentNull("globalCatalog")
    ensures r.Ok? ==> (r.value <==> NameLookup.Occurs(c.items, GcName, globalCatalog.value.name))
  {
    if globalCatalog.None? {
      return Err(ArgumentNull("globalCatalog"));
    }
    var found := NameLookup.ContainsName(c.items, GcName, globalCatalog.value.name);
    return Ok(found);
  }
}

=== FILE: name_lookup.dfy ===
/**
 The first-match search by name that every collection of the library uses for
 `IndexOf`, `Contains` and `Remove`: a linear scan comparing names
 case-insensitively and stopping at the first hit.
 */
module NameLookup {
  import opened Common

  /** Some element's name matches `target`. */
  predicate Occurs<T>(items: seq<T>, nameOf: T -> string, target: string)
  {
    exists j | 0 <= j < |items| :: SameName(nameOf(items[j]), target)
  }

  /** The reference definition: the least index whose name matches `target`,
      or -1 when there is none. */
  function FirstMatch<T>(items: seq<T>, nameOf: T -> string, target: string): (i: int)
    ensures -1 <= i < |items|
    ensures 0 <= i ==> SameName(nameOf(items[i]), target)
    ensures 0 <= i ==> forall j | 0 <= j < i :: !SameName(nameOf(items[j]), target)
    ensures i == -1 <==> !Occurs(items, nameOf, target)
  {
    if |items| == 0 then -1
    else if SameName(nameOf(items[0]), target) then 0
    else
      var k := FirstMatch(items[1..], nameOf, target);
      assert forall j | 1 <= j < |items| :: items[1..][j - 1] == items[j];
      if k == -1 then -1 else k + 1
  }

  /** `Contains` holds exactly when `IndexOf` finds something. */
  lemma OccursIffFound<T>(items: seq<T>, nameOf: T -> string, target: string)
    ensures Occurs(items, nameOf, target) <==> FirstMatch(items, nameOf, target) != -1
  {
  }

  /** The `IndexOf` loop of the collections. */
  method IndexOfName<T>(items: seq<T>, nameOf: T -> string, target: string) returns (i: int)
    ensures i == FirstMatch(items, nameOf, target)
  {
    var k := 0;
    while k < |items|
      invariant 0 <= k <= |items|
      invariant forall j | 0 <= j < k :: !SameName(nameOf(items[j]), target)
    {
      if SameName(nameOf(items[k]), target) {
        return k;
      }
      k := k + 1;
    }
    return -1;
  }

  /** The `Contains` loop of the collections. */
  method ContainsName<T>(items: seq<T>, nameOf: T -> string, target: string) returns (found: bool)
    ensures found <==> Occurs(items, nameOf, target)
  {
    var k := 0;
    while k < |items|
      invariant 0 <= k <= |items|
      invariant forall j | 0 <= j < k :: !SameName(nameOf(items[j]), target)
    {
      if SameName(nameOf(items[k]), target) {
        return true;
      }
      k := k + 1;
    }
    return false;
  }

  /** The `InnerList.AddRange` copy made by the read-only collections'
      constructors: a null source gives an empty list. */
  method CopyOf<T>(values: Option<seq<T>>) returns (items: seq<T>)
    ensures values.None? ==> items == []
    ensures values.Some? ==> |items| == |values.value|
    ensures values.Some? ==> forall j | 0 <= j < |items| :: items[j] == values.value[j]
  {
    items := [];
    if values.Some? {
      var source := values.value;
      var k := 0;
      while k < |source|
        invariant 0 <= k <= |source|
        invariant items == source[..k]
      {
        items := items + [source[k]];
        k := k + 1;
      }
    }
  }
}

=== FILE: schema_class_collection.dfy ===
/**
 `ReadOnlyActiveDirectorySchemaClassCollection`: a read-only list filled once from a source list, with a
 case-insensitive first-match `IndexOf` and `Contains` that reject null.
 */
module SchemaClassCollection {
  import opened Common
  import opened Errors
  import NameLookup

  /** An `ActiveDirectorySchemaClass`; only its name takes part in lookups. */
  datatype SchemaClass = SchemaClass(name: string)

  datatype Collection = Collection(items: seq<SchemaClass>)

  function SchemaName(x: SchemaClass): string
  {
    x.name
  }

  /** The constructor: a null source gives an empty collection, otherwise the
      source is copied in order. */
  method Create(values: Option<seq<SchemaClass>>) returns (c: Collection)
    ensures values.None? ==> c.items == []
    ensures values.Some? ==> |c.items| == |values.value|
    ensures values.Some? ==> forall j | 0 <= j < |c.items| :: c.items[j] == values.value[j]
  {
    var items := NameLookup.CopyOf(values);
    c := Collection(items);
  }

  /** `IndexOf`: null is rejected; otherwise the least index whose name
      matches, or -1. */
  method IndexOf(c: Collection, schemaClass: Option<SchemaClass>) returns (r: Result<int>)
    ensures schemaClass.None? <==> r.Err?
    ensures r.Err? ==> r.error == ArgumentNull("schemaClass")
    ensures r.Ok? ==> r.value == NameLookup.FirstMatch(c.items, SchemaName, schemaClass.value.name)
  {
    if schemaClass.None? {
      return Err(ArgumentNull("schemaClass"));
    }
    var i := NameLookup.IndexOfName(c.items, SchemaName, schemaClass.value.name);
    return Ok(i);
  }

  /** `Contains`: null is rejected; otherwise whether some member's name
      matches. */
  method Contains(c: Collection, schemaClass: Option<SchemaClass>) returns (r: Result<bool>)
    ensures schemaClass.None? <==> r.Err?
    ensures r.Err? ==> r.error == ArgumentNull("schemaClass")
    ensures r.Ok? ==> (r.value <==> NameLookup.Occurs(c.items, SchemaName, schemaClass.value.name))
  {
    if schemaClass.None? {
      return Err(ArgumentNull("schemaClass"));
    }
    var found := NameLookup.ContainsName(c.items, SchemaName, schemaClass.value.name);
    return Ok(found);
  }
}

=== FILE: servers.dfy ===
/**
 The directory servers a collection can hold: a domain controller (with its
 operating-system version and global-catalog role) or an ADAM instance. Every
 server knows the distinguished names of its site, server and NTDS settings
 objects.
 */
module Servers {

  /** A `DirectoryServer`. The OS version of a domain controller is kept in
      tenths (5.2 is 52), which is exact for the versions the code compares. */
  datatype DirectoryServer =
    | DomainController(
        name: string,
        osVersionTenths: int,
        isGlobalCatalog: bool,
        siteObjectName: string,
        serverObjectName: string,
        ntdsaObjectName: string)
    | AdamInstance(
        name: string,
        siteObjectName: string,
        serverObjectName: string,
        ntdsaObjectName: string)

  /** Windows Server 2003 (5.2): the oldest domain controller that may host a
      replica of an application partition. */
  const W2K3VersionTenths := 52

  /** The `DomainController` class. */
  type DomainController = s: DirectoryServer | s.DomainController?
    witness DomainController("", 0, false, "", "", "")

  /** The `GlobalCatalog` class: a domain controller that hosts the catalog. */
  type GlobalCatalog = s: DirectoryServer | s.DomainController? && s.isGlobalCatalog
    witness DomainController("", 0, true, "", "", "")

  function ServerName(s: DirectoryServer): string
  {
    s.name
  }
}

=== FILE: site_link.dfy ===
/**
 `ActiveDirectorySiteLink`: a link between sites over one inter-site
 transport, with its cost, replication interval, option flags and schedule
 held in the cached directory entry until `Save` commits them.

 The entry's attributes are the property cache of that entry: a setter
 changes the cache, `Save` commits it. Remote calls (binding to the
 container, creating the child entry, committing, deleting) are inputs that
 say whether the call worked.
 */
module ActiveDirectorySiteLink {
  import opened Common
  import opened Errors
  import opened ExceptionHelper
  import opened DirectoryContexts

  /** `ActiveDirectoryTransportType`. */
  datatype Transport = Rpc | Smtp

  const TicksPerMinute: int := 600_000_000

  /** The values reported when the attribute is absent. */
  const SystemDefaultCost: int32 := 0
  const SystemDefaultIntervalMinutes: int32 := 15

  /** The values written into a newly created link. */
  const AppDefaultCost: int32 := 100
  const AppDefaultInterval: int32 := 180

  /** The largest interval the setter accepts, in ticks. */
  const MaxIntervalTicks: int := Int32MaxValue * TicksPerMinute

  /** The HRESULT for "no such object" that, on ADAM with the SMTP
      transport, means the transport is not supported. */
  const E_NO_SUCH_OBJECT: int32 := Hr(0x8007_2030)

  /** Bits of the `options` attribute. */
  const UseNotify: bv32 := 0x1
  const TwoWaySync: bv32 := 0x2
  const DisableCompression: bv32 := 0x4

  /** The cached directory entry of the link. */
  datatype LinkEntry = LinkEntry(
    dn: string,
    cost: Option<int32>,
    replInterval: Option<int32>,
    options: Option<bv32>,
    schedule: Option<seq<bv8>>)

  /** The link object. `sites` is what the `Sites` property last fetched. */
  datatype SiteLink = SiteLink(
    context: DirectoryContext,
    name: string,
    transport: Transport,
    existing: bool,
    disposed: bool,
    siteRetrieved: bool,
    sites: seq<string>,
    entry: LinkEntry)

  /** `ValidateArgument`: the context, then the name, then the transport
      (which must be one of the two enumeration values, 0 and 1). */
  function ValidateArgument(context: Option<DirectoryContext>, siteLinkName: Option<string>, transport: int)
    : (r: Result<(DirectoryContext, string, Transport)>)
    ensures r.Ok? <==> ValidateTargetContext(context).Ok? && ValidateName(siteLinkName, "siteLinkName").Ok?
                       && 0 <= transport <= 1
    ensures ValidateTargetContext(context).Err? ==> r == Err(ValidateTargetContext(context).error)
    ensures ValidateTargetContext(context).Ok? && ValidateName(siteLinkName, "siteLinkName").Err? ==>
              r == Err(ValidateName(siteLinkName, "siteLinkName").error)
    ensures ValidateTargetContext(context).Ok? && ValidateName(siteLinkName, "siteLinkName").Ok?
            && !(0 <= transport <= 1)
            ==> r == Err(InvalidEnumArgument(transport))
    ensures r.Ok? ==> r.value == (context.value, siteLinkName.value, if transport == 0 then Rpc else Smtp)
  {
    var c :- ValidateTargetContext(context);
    var n :- ValidateName(siteLinkName, "siteLinkName");
    if transport < 0 || transport > 1 then Err(InvalidEnumArgument(transport))
    else Ok((c, n, if transport == 0 then Rpc else Smtp))
  }

  /** The container of the links of one transport. */
  function TransportContainer(t: Transport, config: string): string
  {
    (if t == Rpc then "CN=IP" else "CN=SMTP") + ",CN=Inter-Site Transports,CN=Sites," + config
  }

  /** The public constructor. After validation it binds to the transport
      container (`bind`) and creates the child entry (`creation`);
      `adamCapability` is what the root DSE says when the creation fails with
      "no such object". The new link holds the application defaults. */
  function Create(context: Option<DirectoryContext>, siteLinkName: Option<string>, transport: int,
                  schedule: Option<seq<bv8>>, bind: BindOutcome, creation: StoreResult,
                  adamCapability: bool): (r: Result<SiteLink>)
    ensures ValidateArgument(context, siteLinkName, transport).Err? ==>
              r == Err(ValidateArgument(context, siteLinkName, transport).error)
    ensures r.Ok? <==> ValidateArgument(context, siteLinkName, transport).Ok? && bind.Bound? && creation.Succeeds?
    ensures ValidateArgument(context, siteLinkName, transport).Ok? && bind.BindFails? ==>
              r == Err(FromComException(context, bind.code))
    ensures ValidateArgument(context, siteLinkName, transport).Ok? && bind.NoAdamInstance? ==>
              r == Err(Operation(0))
    ensures ValidateArgument(context, siteLinkName, transport).Ok? && bind.Bound? && creation.FailsWith? ==>
              (r == Err(NotSupported(TransportSmtpNotSupported)) <==>
                 creation.code == E_NO_SUCH_OBJECT && adamCapability && transport == 1)
    ensures ValidateArgument(context, siteLinkName, transport).Ok? && bind.Bound? && creation.FailsWith?
            && !(creation.code == E_NO_SUCH_OBJECT && adamCapability && transport == 1)
            ==> r == Err(FromComException(context, creation.code))
    ensures r.Ok? ==> !r.value.existing && !r.value.disposed && !r.value.siteRetrieved
    ensures r.Ok? ==> r.value.name == siteLinkName.value
    ensures r.Ok? ==> Cost(r.value) == Ok(AppDefaultCost)
    ensures r.Ok? ==> ReplicationInterval(r.value) == Ok((AppDefaultInterval as int * TicksPerMinute) as int64)
    ensures r.Ok? ==> Schedule(r.value) == Ok(schedule)
    ensures r.Ok? ==> r.value.entry.options.None?
  {
    var (c, n, t) :- ValidateArgument(context, siteLinkName, transport);
    match bind
    case BindFails(code) => Err(FromComException(Some(c), code))
    case NoAdamInstance => Err(Operation(0))
    case Bound(config) =>
      match creation
      case FailsWith(code) =>
        if code == E_NO_SUCH_OBJECT && adamCapability && t == Smtp then Err(NotSupported(TransportSmtpNotSupported))
        else Err(FromComException(Some(c), code))
      case Succeeds =>
        var dn := "cn=" + n + "," + TransportContainer(t, config);
        Ok(SiteLink(c, n, t, false, false, false, [],
                    LinkEntry(dn, Some(AppDefaultCost), Some(AppDefaultInterval), None, schedule)))
  }

  /** `Name` (and `ToString`). */
  function Name(l: SiteLink): (r: Result<string>)
    ensures l.disposed <==> r == Err(ObjectDisposed)
    ensures r.Ok? ==> r.value == l.name
  {
    if l.disposed then Err(ObjectDisposed) else Ok(l.name)
  }

  /** `TransportType`. */
  function TransportType(l: SiteLink): (r: Result<Transport>)
    ensures l.disposed <==> r == Err(ObjectDisposed)
    ensures r.Ok? ==> r.value == l.transport
  {
    if l.disposed then Err(ObjectDisposed) else Ok(l.transport)
  }

  /** `Sites`: on an existing link, the first read after construction or
      after a `Save` refetches the site list (`siteList`, the names the
      directory returns); later reads return what was fetched. */
  function Sites(l: SiteLink, siteList: seq<string>): (r: Result<(SiteLink, seq<string>)>)
    ensures l.disposed <==> r.Err?
    ensures r.Err? ==> r.error == ObjectDisposed
    ensures r.Ok? && l.existing && !l.siteRetrieved ==> r.value.1 == siteList && r.value.0.siteRetrieved
    ensures r.Ok? && (!l.existing || l.siteRetrieved) ==> r.value == (l, l.sites)
    ensures r.Ok? ==> r.value.0 == l.(siteRetrieved := r.value.0.siteRetrieved, sites := r.value.1)
  {
    if l.disposed then Err(ObjectDisposed)
    else if l.existing && !l.siteRetrieved then
      var l' := l.(siteRetrieved := true, sites := siteList);
      Ok((l', siteList))
    else Ok((l, l.sites))
  }

  /** `Cost`: the stored value, or the system default when absent. */
  function Cost(l: SiteLink): (r: Result<int32>)
    ensures l.disposed <==> r == Err(ObjectDisposed)
    ensures r.Ok? && l.entry.cost.Some? ==> r.value == l.entry.cost.value
    ensures r.Ok? && l.entry.cost.None? ==> r.value == SystemDefaultCost
  {
    if l.disposed then Err(ObjectDisposed)
    else if l.entry.cost.Some? then Ok(l.entry.cost.value)
    else Ok(SystemDefaultCost)
  }

  /** The `Cost` setter: negative costs are refused; any other value is
      stored and read back unchanged, and nothing else changes. */
  function SetCost(l: SiteLink, value: int32): (r: Result<SiteLink>)
    ensures l.disposed ==> r == Err(ObjectDisposed)
    ensures !l.disposed && value < 0 ==> r == Err(Argument(NegativeValue))
    ensures r.Ok? <==> !l.disposed && value >= 0
    ensures r.Ok? ==> Cost(r.value) == Ok(value)
    ensures r.Ok? ==> r.value == l.(entry := l.entry.(cost := r.value.entry.cost))
  {
    if l.disposed then Err(ObjectDisposed)
    else if value < 0 then Err(Argument(NegativeValue))
    else Ok(l.(entry := l.entry.(cost := Some(value))))
  }

  /** `ReplicationInterval`, as a `TimeSpan` in ticks: the stored number of
      minutes, or the system default of 15 minutes when absent. */
  function ReplicationInterval(l: SiteLink): (r: Result<int64>)
    ensures l.disposed <==> r == Err(ObjectDisposed)
    ensures r.Ok? && l.entry.replInterval.Some? ==> r.value as int == l.entry.replInterval.value as int * TicksPerMinute
    ensures r.Ok? && l.entry.replInterval.None? ==> r.value as int == SystemDefaultIntervalMinutes as int * TicksPerMinute
  {
    if l.disposed then Err(ObjectDisposed)
    else if l.entry.replInterval.Some? then Ok((l.entry.replInterval.value as int * TicksPerMinute) as int64)
    else Ok((SystemDefaultIntervalMinutes as int * TicksPerMinute) as int64)
  }

  /** The `ReplicationInterval` setter: refuses a negative span, then one of
      more than `Int32.MaxValue` minutes, then one that is not a whole number
      of minutes; otherwise stores the minutes. `TotalMinutes` is computed
      exactly here. */
  function SetReplicationInterval(l: SiteLink, ticks: int64): (r: Result<SiteLink>)
    ensures l.disposed ==> r == Err(ObjectDisposed)
    ensures !l.disposed && ticks < 0 ==> r == Err(Argument(NoNegativeTime))
    ensures !l.disposed && ticks as int > MaxIntervalTicks ==> r == Err(Argument(ReplicationIntervalExceedMax))
    ensures !l.disposed && 0 <= ticks as int <= MaxIntervalTicks && ticks as int % TicksPerMinute != 0 ==>
              r == Err(Argument(ReplicationIntervalInMinutes))
    ensures r.Ok? <==> !l.disposed && 0 <= ticks as int <= MaxIntervalTicks && ticks as int % TicksPerMinute == 0
    ensures r.Ok? ==> ReplicationInterval(r.value) == Ok(ticks)
    ensures r.Ok? ==> r.value == l.(entry := l.entry.(replInterval := r.value.entry.replInterval))
  {
    if l.disposed then Err(ObjectDisposed)
    else if ticks < 0 then Err(Argument(NoNegativeTime))
    else if ticks as int > MaxIntervalTicks then Err(Argument(ReplicationIntervalExceedMax))
    else if ticks as int % TicksPerMinute != 0 then Err(Argument(ReplicationIntervalInMinutes))
    else
      var minutes := ticks as int / TicksPerMinute;
      assert minutes * TicksPerMinute == ticks as int;
      Ok(l.(entry := l.entry.(replInterval := Some(minutes as int32))))
  }

  /** The `options` attribute, 0 when absent. */
  function OptionsOf(e: LinkEntry): bv32
  {
    if e.options.Some? then e.options.value else 0
  }

  /** Sets or clears the bits of `mask` in an options value. */
  function SetBits(options: bv32, mask: bv32, on: bool): (r: bv32)
    ensures r & !mask == options & !mask
    ensures r & mask == if on then mask else 0
  {
    if on then options | mask else options & !mask
  }

  /** Sets or clears the bits of `mask` in the options attribute. */
  function WithOption(l: SiteLink, mask: bv32, on: bool): (r: SiteLink)
    ensures r.entry.options == Some(SetBits(OptionsOf(l.entry), mask, on))
    ensures r == l.(entry := l.entry.(options := r.entry.options))
  {
    l.(entry := l.entry.(options := Some(SetBits(OptionsOf(l.entry), mask, on))))
  }

  /** Setting one of the three option bits leaves the other two alone. */
  lemma SingleBitsAreIndependent(o: bv32, on: bool)
    ensures SetBits(o, UseNotify, on) & TwoWaySync == o & TwoWaySync
    ensures SetBits(o, UseNotify, on) & DisableCompression == o & DisableCompression
    ensures SetBits(o, TwoWaySync, on) & UseNotify == o & UseNotify
    ensures SetBits(o, TwoWaySync, on) & DisableCompression == o & DisableCompression
    ensures SetBits(o, DisableCompression, on) & UseNotify == o & UseNotify
    ensures SetBits(o, DisableCompression, on) & TwoWaySync == o & TwoWaySync
  {
  }

  /** `ReciprocalReplicationEnabled`: the two-way-sync bit. */
  function ReciprocalReplicationEnabled(l: SiteLink): (r: Result<bool>)
    ensures l.disposed <==> r == Err(ObjectDisposed)
    ensures r.Ok? ==> (r.value <==> OptionsOf(l.entry) & TwoWaySync != 0)
  {
    if l.disposed then Err(ObjectDisposed) else Ok(OptionsOf(l.entry) & TwoWaySync != 0)
  }

  /** `NotificationEnabled`: the use-notify bit. */
  function NotificationEnabled(l: SiteLink): (r: Result<bool>)
    ensures l.disposed <==> r == Err(ObjectDisposed)
    ensures r.Ok? ==> (r.value <==> OptionsOf(l.entry) & UseNotify != 0)
  {
    if l.disposed then Err(ObjectDisposed) else Ok(OptionsOf(l.entry) & UseNotify != 0)
  }

  /** `DataCompressionEnabled`: the negation of the disable-compression bit. */
  function DataCompressionEnabled(l: SiteLink): (r: Result<bool>)
    ensures l.disposed <==> r == Err(ObjectDisposed)
    ensures r.Ok? ==> (r.value <==> OptionsOf(l.entry) & DisableCompression == 0)
  {
    if l.disposed then Err(ObjectDisposed) else Ok(OptionsOf(l.entry) & DisableCompression == 0)
  }

  function SetReciprocalReplicationEnabled(l: SiteLink, value: bool): (r: Result<SiteLink>)
    ensures l.disposed <==> r == Err(ObjectDisposed)
    ensures r.Ok? ==> ReciprocalReplicationEnabled(r.value) == Ok(value)
    ensures r.Ok? ==> NotificationEnabled(r.value) == NotificationEnabled(l)
    ensures r.Ok? ==> DataCompressionEnabled(r.value) == DataCompressionEnabled(l)
    ensures r.Ok? ==> OptionsOf(r.value.entry) & !TwoWaySync == OptionsOf(l.entry) & !TwoWaySync
  {
    if l.disposed then Err(ObjectDisposed)
    else
      SingleBitsAreIndependent(OptionsOf(l.entry), value);
      Ok(WithOption(l, TwoWaySync, value))
  }

  function SetNotificationEnabled(l: SiteLink, value: bool): (r: Result<SiteLink>)
    ensures l.disposed <==> r == Err(ObjectDisposed)
    ensures r.Ok? ==> NotificationEnabled(r.value) == Ok(value)
    ensures r.Ok? ==> ReciprocalReplicationEnabled(r.value) == ReciprocalReplicationEnabled(l)
    ensures r.Ok? ==> DataCompressionEnabled(r.value) == DataCompressionEnabled(l)
    ensures r.Ok? ==> OptionsOf(r.value.entry) & !UseNotify == OptionsOf(l.entry) & !UseNotify
  {
    if l.disposed then Err(ObjectDisposed)
    else
      SingleBitsAreIndependent(OptionsOf(l.entry), value);
      Ok(WithOption(l, UseNotify, value))
  }

  /** Enabling compression clears the disable-compression bit; disabling it
      sets the bit. */
  function SetDataCompressionEnabled(l: SiteLink, value: bool): (r: Result<SiteLink>)
    ensures l.disposed <==> r == Err(ObjectDisposed)
    ensures r.Ok? ==> DataCompressionEnabled(r.value) == Ok(value)
    ensures r.Ok? ==> (OptionsOf(r.value.entry) & DisableCompression != 0 <==> !value)
    ensures r.Ok? ==> ReciprocalReplicationEnabled(r.value) == ReciprocalReplicationEnabled(l)
    ensures r.Ok? ==> NotificationEnabled(r.value) == NotificationEnabled(l)
    ensures r.Ok? ==> OptionsOf(r.value.entry) & !DisableCompression == OptionsOf(l.entry) & !DisableCompression
  {
    if l.disposed then Err(ObjectDisposed)
    else
      SingleBitsAreIndependent(OptionsOf(l.entry), !value);
      Ok(WithOption(l, DisableCompression, !value))
  }

  /** The option setters act on separate bits, so their order does not
      matter. */
  lemma OptionSettersCommute(l: SiteLink, notify: bool, twoWay: bool)
    requires !l.disposed
    ensures SetNotificationEnabled(SetReciprocalReplicationEnabled(l, twoWay).value, notify)
         == SetReciprocalReplicationEnabled(SetNotificationEnabled(l, notify).value, twoWay)
  {
  }

  /** `InterSiteReplicationSchedule`: the stored schedule, or null. */
  function Schedule(l: SiteLink): (r: Result<Option<seq<bv8>>>)
    ensures l.disposed <==> r == Err(ObjectDisposed)
    ensures r.Ok? ==> r.value == l.entry.schedule
  {
    if l.disposed then Err(ObjectDisposed) else Ok(l.entry.schedule)
  }

  /** The schedule setter: null clears the attribute, any other value
      overwrites it. */
  function SetSchedule(l: SiteLink, value: Option<seq<bv8>>): (r: Result<SiteLink>)
    ensures l.disposed <==> r == Err(ObjectDisposed)
    ensures r.Ok? ==> Schedule(r.value) == Ok(value)
    ensures r.Ok? ==> r.value == l.(entry := l.entry.(schedule := r.value.entry.schedule))
  {
    if l.disposed then Err(ObjectDisposed)
    else if value.None? then
      (if l.entry.schedule.Some? then Ok(l.(entry := l.entry.(schedule := None))) else Ok(l))
    else Ok(l.(entry := l.entry.(schedule := value)))
  }

  /** `Save`: commits the entry; a new link becomes existing, an existing
      one forgets its fetched site list. A failed commit changes nothing. */
  function Save(l: SiteLink, commit: StoreResult): (r: Result<SiteLink>)
    ensures l.disposed ==> r == Err(ObjectDisposed)
    ensures !l.disposed && commit.FailsWith? ==> r == Err(FromComException(Some(l.context), commit.code))
    ensures r.Ok? <==> !l.disposed && commit.Succeeds?
    ensures r.Ok? ==> r.value.existing
    ensures r.Ok? && l.existing ==> !r.value.siteRetrieved
    ensures r.Ok? && !l.existing ==> r.value.siteRetrieved == l.siteRetrieved
    ensures r.Ok? ==> r.value == l.(existing := true, siteRetrieved := r.value.siteRetrieved)
  {
    if l.disposed then Err(ObjectDisposed)
    else if commit.FailsWith? then Err(FromComException(Some(l.context), commit.code))
    else if l.existing then Ok(l.(siteRetrieved := false))
    else Ok(l.(existing := true))
  }

  /** `Delete`: only an existing link can be deleted. */
  function Delete(l: SiteLink, removal: StoreResult): (r: Result<()>)
    ensures l.disposed ==> r == Err(ObjectDisposed)
    ensures !l.disposed && !l.existing ==> r == Err(InvalidOperation(CannotDelete))
    ensures !l.disposed && l.existing && removal.FailsWith? ==> r == Err(FromComException(Some(l.context), removal.code))
    ensures r.Ok? <==> !l.disposed && l.existing && removal.Succeeds?
  {
    if l.disposed then Err(ObjectDisposed)
    else if !l.existing then Err(InvalidOperation(CannotDelete))
    else if removal.FailsWith? then Err(FromComException(Some(l.context), removal.code))
    else Ok(())
  }

  /** `GetDirectoryEntry`: an entry for the link's own path, only once the
      link exists in the directory. */
  function GetDirectoryEntry(l: SiteLink): (r: Result<string>)
    ensures l.disposed ==> r == Err(ObjectDisposed)
    ensures !l.disposed && !l.existing ==> r == Err(InvalidOperation(CannotGetObject))
    ensures r.Ok? <==> !l.disposed && l.existing
    ensures r.Ok? ==> r.value == l.entry.dn
  {
    if l.disposed then Err(ObjectDisposed)
    else if !l.existing then Err(InvalidOperation(CannotGetObject))
    else Ok(l.entry.dn)
  }

  /** `Dispose`: marks the link disposed and changes nothing else. */
  function Dispose(l: SiteLink): (r: SiteLink)
    ensures r.disposed
    ensures r.(disposed := l.disposed) == l
  {
    l.(disposed := true)
  }

  /** After `Dispose`, every member throws `ObjectDisposedException`. */
  lemma DisposedLinkRejectsEverything(l: SiteLink, siteList: seq<string>, cost: int32, ticks: int64,
                                      flag: bool, schedule: Option<seq<bv8>>, call: StoreResult)
    ensures var d := Dispose(l);
      && Name(d) == Err(ObjectDisposed) && TransportType(d) == Err(ObjectDisposed)
      && Sites(d, siteList) == Err(ObjectDisposed)
      && Cost(d) == Err(ObjectDisposed) && SetCost(d, cost) == Err(ObjectDisposed)
      && ReplicationInterval(d) == Err(ObjectDisposed) && SetReplicationInterval(d, ticks) == Err(ObjectDisposed)
      && ReciprocalReplicationEnabled(d) == Err(ObjectDisposed)
      && SetReciprocalReplicationEnabled(d, flag) == Err(ObjectDisposed)
      && NotificationEnabled(d) == Err(ObjectDisposed) && SetNotificationEnabled(d, flag) == Err(ObjectDisposed)
      && DataCompressionEnabled(d) == Err(ObjectDisposed) && SetDataCompressionEnabled(d, flag) == Err(ObjectDisposed)
      && Schedule(d) == Err(ObjectDisposed) && SetSchedule(d, schedule) == Err(ObjectDisposed)
      && Save(d, call) == Err(ObjectDisposed) && Delete(d, call) == Err(ObjectDisposed)
      && GetDirectoryEntry(d) == Err(ObjectDisposed)
  {
  }

  /** A new link reads back the application defaults (cost 100, 180
      minutes), which differ from what the same link reads once the cost or
      the interval attribute is removed (cost 0, 15 minutes). */
  lemma NewLinkDefaultsDifferFromAbsentDefaults(context: Option<DirectoryContext>, siteLinkName: Option<string>,
                                                transport: int, schedule: Option<seq<bv8>>, bind: BindOutcome,
                                                creation: StoreResult, adamCapability: bool)
    requires Create(context, siteLinkName, transport, schedule, bind, creation, adamCapability).Ok?
    ensures var l := Create(context, siteLinkName, transport, schedule, bind, creation, adamCapability).value;
      && Cost(l) == Ok(AppDefaultCost)
      && Cost(l.(entry := l.entry.(cost := None))) == Ok(SystemDefaultCost)
      && Cost(l) != Cost(l.(entry := l.entry.(cost := None)))
    ensures var l := Create(context, siteLinkName, transport, schedule, bind, creation, adamCapability).value;
      && ReplicationInterval(l) == Ok((AppDefaultInterval as int * TicksPerMinute) as int64)
      && ReplicationInterval(l.(entry := l.entry.(replInterval := None)))
         == Ok((SystemDefaultIntervalMinutes as int * TicksPerMinute) as int64)
      && ReplicationInterval(l) != ReplicationInterval(l.(entry := l.entry.(replInterval := None)))
  {
  }

  /** After a successful `Save`, `Delete` and `GetDirectoryEntry` are
      allowed, and a second `Save` keeps the link existing. */
  lemma SaveEnablesDeleteAndEntry(l: SiteLink, removal: StoreResult)
    requires Save(l, Succeeds).Ok?
    ensures GetDirectoryEntry(Save(l, Succeeds).value) == Ok(l.entry.dn)
    ensures Delete(Save(l, Succeeds).value, removal).Ok? <==> removal.Succeeds?
    ensures Save(Save(l, Succeeds).value, Succeeds).Ok?
    ensures Save(Save(l, Succeeds).value, Succeeds).value.existing
  {
  }
}

=== FILE: subnet.dfy ===
/**
 `ActiveDirectorySubnet`: a subnet object of the site topology, its
 location text and the site it is assigned to. The site assignment is kept
 on the object and written into the entry's `siteObject` attribute by `Save`.

 The entry's attributes are its property cache; `Save` commits the cache.
 Remote calls are inputs that say whether the call worked.
 */
module ActiveDirectorySubnet {
  import opened Common
  import opened Errors
  import opened ExceptionHelper
  import opened DirectoryContexts

  /** The parts of an `ActiveDirectorySite` a subnet looks at: whether it has
      been committed, and the distinguished name of its entry. */
  datatype SiteRef = SiteRef(name: string, existing: bool, dn: string)

  /** The cached directory entry of the subnet. */
  datatype SubnetEntry = SubnetEntry(dn: string, location: Option<string>, siteObject: seq<string>)

  /** The subnet object. `entry` is None when the constructor left the cached
      entry null. */
  datatype Subnet = Subnet(
    context: DirectoryContext,
    name: string,
    site: Option<SiteRef>,
    existing: bool,
    disposed: bool,
    entry: Option<SubnetEntry>)

  /** `ValidateArgument`: the context, then the name. */
  function ValidateArgument(context: Option<DirectoryContext>, subnetName: Option<string>)
    : (r: Result<(DirectoryContext, string)>)
    ensures r.Ok? <==> ValidateTargetContext(context).Ok? && ValidateName(subnetName, "subnetName").Ok?
    ensures ValidateTargetContext(context).Err? ==> r == Err(ValidateTargetContext(context).error)
    ensures ValidateTargetContext(context).Ok? && ValidateName(subnetName, "subnetName").Err? ==>
              r == Err(ValidateName(subnetName, "subnetName").error)
    ensures r.Ok? ==> r.value == (context.value, subnetName.value)
  {
    var c :- ValidateTargetContext(context);
    var n :- ValidateName(subnetName, "subnetName");
    Ok((c, n))
  }

  /** The distinguished name of a new subnet's entry. */
  function SubnetDn(name: string, config: string): string
  {
    "cn=" + name + ",CN=Subnets,CN=Sites," + config
  }

  /** The two-argument constructor as written: a COM error while binding to
      the subnets container or creating the child entry is classified but not
      thrown, so construction succeeds with a null cached entry. `BindFails`
      stands for the container bind, which the directory performs when the
      child is added. */
  function CreateAsWritten(context: Option<DirectoryContext>, subnetName: Option<string>,
                           bind: BindOutcome, creation: StoreResult): (r: Result<Subnet>)
    ensures ValidateArgument(context, subnetName).Err? ==> r == Err(ValidateArgument(context, subnetName).error)
    ensures r.Ok? <==> ValidateArgument(context, subnetName).Ok? && !bind.NoAdamInstance?
    ensures r.Ok? ==> (r.value.entry.Some? <==> bind.Bound? && creation.Succeeds?)
    ensures r.Ok? ==> !r.value.existing && !r.value.disposed && r.value.site.None?
  {
    var (c, n) :- ValidateArgument(context, subnetName);
    match bind
    case NoAdamInstance => Err(Operation(0))
    case BindFails(_) => Ok(Subnet(c, n, None, false, false, None))
    case Bound(config) =>
      if creation.FailsWith? then Ok(Subnet(c, n, None, false, false, None))
      else Ok(Subnet(c, n, None, false, false, Some(SubnetEntry(SubnetDn(n, config), None, []))))
  }

  /** The two-argument constructor with the COM error thrown, as every other
      constructor of the site-topology classes does. */
  function Create(context: Option<DirectoryContext>, subnetName: Option<string>,
                  bind: BindOutcome, creation: StoreResult): (r: Result<Subnet>)
    ensures ValidateArgument(context, subnetName).Err? ==> r == Err(ValidateArgument(context, subnetName).error)
    ensures r.Ok? <==> ValidateArgument(context, subnetName).Ok? && bind.Bound? && creation.Succeeds?
    ensures ValidateArgument(context, subnetName).Ok? && bind.BindFails? ==>
              r == Err(FromComException(context, bind.code))
    ensures ValidateArgument(context, subnetName).Ok? && bind.Bound? && creation.FailsWith? ==>
              r == Err(FromComException(context, creation.code))
    ensures r.Ok? ==> r.value.entry.Some? && r.value.entry.value.location.None? && r.value.entry.value.siteObject == []
    ensures r.Ok? ==> !r.value.existing && !r.value.disposed && r.value.site.None?
    ensures r.Ok? ==> r.value.name == subnetName.value
  {
    var (c, n) :- ValidateArgument(context, subnetName);
    match bind
    case NoAdamInstance => Err(Operation(0))
    case BindFails(code) => Err(FromComException(Some(c), code))
    case Bound(config) =>
      if creation.FailsWith? then Err(FromComException(Some(c), creation.code))
      else Ok(Subnet(c, n, None, false, false, Some(SubnetEntry(SubnetDn(n, config), None, []))))
  }

  /** The three-argument constructor as written: it chains to the
      two-argument constructor as written, then the site name must be
      non-null and non-empty and name an existing site (`foundSite`, the
      result of looking the site up by name). A swallowed COM error therefore
      still yields a subnet with a null entry, now holding the site. */
  function CreateInSite(context: Option<DirectoryContext>, subnetName: Option<string>, siteName: Option<string>,
                        bind: BindOutcome, creation: StoreResult, foundSite: Option<SiteRef>): (r: Result<Subnet>)
    ensures CreateAsWritten(context, subnetName, bind, creation).Err? ==>
              r == Err(CreateAsWritten(context, subnetName, bind, creation).error)
    ensures CreateAsWritten(context, subnetName, bind, creation).Ok? && siteName.None? ==>
              r == Err(ArgumentNull("siteName"))
    ensures CreateAsWritten(context, subnetName, bind, creation).Ok? && siteName == Some("") ==>
              r == Err(Argument(EmptyStringParameter))
    ensures CreateAsWritten(context, subnetName, bind, creation).Ok? && siteName.Some? && siteName.value != ""
            && foundSite.None?
            ==> r == Err(Argument(SiteNotExist))
    ensures r.Ok? <==> CreateAsWritten(context, subnetName, bind, creation).Ok? && siteName.Some? && siteName.value != ""
                       && foundSite.Some?
    ensures r.Ok? ==> r.value.site == foundSite && !r.value.existing && !r.value.disposed
    ensures r.Ok? ==> (r.value.entry.Some? <==> bind.Bound? && creation.Succeeds?)
  {
    var s :- CreateAsWritten(context, subnetName, bind, creation);
    var _ :- ValidateName(siteName, "siteName");
    if foundSite.None? then Err(Argument(SiteNotExist))
    else Ok(s.(site := foundSite))
  }

  /** The three-argument constructor chained to the corrected two-argument
      constructor: a COM error is raised before the site name is looked at. */
  function CreateInSiteCorrected(context: Option<DirectoryContext>, subnetName: Option<string>,
                                 siteName: Option<string>, bind: BindOutcome, creation: StoreResult,
                                 foundSite: Option<SiteRef>): (r: Result<Subnet>)
    ensures Create(context, subnetName, bind, creation).Err? ==> r == Err(Create(context, subnetName, bind, creation).error)
    ensures Create(context, subnetName, bind, creation).Ok? && siteName.None? ==> r == Err(ArgumentNull("siteName"))
    ensures Create(context, subnetName, bind, creation).Ok? && siteName == Some("") ==>
              r == Err(Argument(EmptyStringParameter))
    ensures Create(context, subnetName, bind, creation).Ok? && siteName.Some? && siteName.value != ""
            && foundSite.None?
            ==> r == Err(Argument(SiteNotExist))
    ensures r.Ok? <==> Create(context, subnetName, bind, creation).Ok? && siteName.Some? && siteName.value != ""
                       && foundSite.Some?
    ensures r.Ok? ==> r.value == Create(context, subnetName, bind, creation).value.(site := foundSite)
  {
    var s :- Create(context, subnetName, bind, creation);
    var _ :- ValidateName(siteName, "siteName");
    if foundSite.None? then Err(Argument(SiteNotExist))
    else Ok(s.(site := foundSite))
  }

  /** The two three-argument constructors agree wherever the remote calls
      work; otherwise the one as written hands out a subnet with the site but
      without an entry, or reports a null site name instead of the COM error. */
  lemma InSiteConstructorsAgreeOnSuccess(context: Option<DirectoryContext>, subnetName: Option<string>,
                                         siteName: Option<string>, bind: BindOutcome, creation: StoreResult,
                                         foundSite: Option<SiteRef>)
    ensures bind.Bound? && creation.Succeeds? ==>
              CreateInSite(context, subnetName, siteName, bind, creation, foundSite)
              == CreateInSiteCorrected(context, subnetName, siteName, bind, creation, foundSite)
    ensures ValidateArgument(context, subnetName).Ok? && bind.BindFails? && siteName.Some? && siteName.value != ""
            && foundSite.Some?
            ==> CreateInSite(context, subnetName, siteName, bind, creation, foundSite).Ok?
                && CreateInSite(context, subnetName, siteName, bind, creation, foundSite).value.entry.None?
                && CreateInSiteCorrected(context, subnetName, siteName, bind, creation, foundSite)
                   == Err(FromComException(context, bind.code))
  {
  }

  /** `Name` (and `ToString`). */
  function Name(s: Subnet): (r: Result<string>)
    ensures s.disposed <==> r == Err(ObjectDisposed)
    ensures r.Ok? ==> r.value == s.name
  {
    if s.disposed then Err(ObjectDisposed) else Ok(s.name)
  }

  /** The `Site` getter. */
  function Site(s: Subnet): (r: Result<Option<SiteRef>>)
    ensures s.disposed <==> r == Err(ObjectDisposed)
    ensures r.Ok? ==> r.value == s.site
  {
    if s.disposed then Err(ObjectDisposed) else Ok(s.site)
  }

  /** The `Site` setter: null is accepted; a site not yet committed is
      refused. */
  function SetSite(s: Subnet, value: Option<SiteRef>): (r: Result<Subnet>)
    ensures s.disposed ==> r == Err(ObjectDisposed)
    ensures !s.disposed && value.Some? && !value.value.existing ==> r == Err(InvalidOperation(SiteNotCommitted))
    ensures r.Ok? <==> !s.disposed && (value.None? || value.value.existing)
    ensures r.Ok? ==> Site(r.value) == Ok(value)
    ensures r.Ok? ==> r.value == s.(site := r.value.site)
  {
    if s.disposed then Err(ObjectDisposed)
    else if value.Some? && !value.value.existing then Err(InvalidOperation(SiteNotCommitted))
    else Ok(s.(site := value))
  }

  /** The `Location` getter: the stored text, null when absent. */
  function Location(s: Subnet): (r: Result<Option<string>>)
    ensures s.disposed ==> r == Err(ObjectDisposed)
    ensures !s.disposed && s.entry.None? ==> r == Err(NullReference)
    ensures r.Ok? <==> !s.disposed && s.entry.Some?
    ensures r.Ok? ==> r.value == s.entry.value.location
  {
    if s.disposed then Err(ObjectDisposed)
    else if s.entry.None? then Err(NullReference)
    else Ok(s.entry.value.location)
  }

  /** The `Location` setter: null clears the attribute if it is present, any
      other value overwrites it. */
  function SetLocation(s: Subnet, value: Option<string>): (r: Result<Subnet>)
    ensures s.disposed ==> r == Err(ObjectDisposed)
    ensures !s.disposed && s.entry.None? ==> r == Err(NullReference)
    ensures r.Ok? <==> !s.disposed && s.entry.Some?
    ensures r.Ok? ==> Location(r.value) == Ok(value)
    ensures r.Ok? ==> r.value == s.(entry := Some(s.entry.value.(location := r.value.entry.value.location)))
  {
    if s.disposed then Err(ObjectDisposed)
    else if s.entry.None? then Err(NullReference)
    else
      var e := s.entry.value;
      if value.None? then
        (if e.location.Some? then Ok(s.(entry := Some(e.(location := None)))) else Ok(s))
      else Ok(s.(entry := Some(e.(location := value))))
  }

  /** The `siteObject` values `Save` stages before committing. */
  function StagedSiteObject(s: Subnet, e: SubnetEntry): seq<string>
  {
    if s.existing then (if s.site.None? then [] else [s.site.value.dn])
    else if s.site.Some? then e.siteObject + [s.site.value.dn]
    else e.siteObject
  }

  /** `Save`: stages the site assignment into `siteObject` and commits. On an
      existing subnet the attribute is replaced (cleared for no site); on a
      new one the site's name is added to it, and the subnet becomes existing
      once the commit worked. The staged value stays in the cache when the
      commit fails. */
  function Save(s: Subnet, commit: StoreResult): (a: Applied<Subnet>)
    ensures s.disposed ==> a == Applied(s, Some(ObjectDisposed))
    ensures !s.disposed && s.entry.None? ==> a == Applied(s, Some(NullReference))
    ensures a.error.None? <==> !s.disposed && s.entry.Some? && commit.Succeeds?
    ensures !s.disposed && s.entry.Some? && commit.FailsWith? ==>
              a.error == Some(FromComException(Some(s.context), commit.code))
    ensures a.error.None? ==> a.state.existing
    ensures a.error.Some? ==> a.state.existing == s.existing
    ensures a.state.entry.Some? == s.entry.Some?
    ensures !s.disposed && s.entry.Some? && s.existing ==>
              a.state.entry.value.siteObject == (if s.site.None? then [] else [s.site.value.dn])
    ensures !s.disposed && s.entry.Some? && !s.existing ==>
              a.state.entry.value.siteObject == s.entry.value.siteObject + (if s.site.Some? then [s.site.value.dn] else [])
    ensures s.entry.Some? ==> a.state.entry.value == s.entry.value.(siteObject := a.state.entry.value.siteObject)
    ensures a.state == s.(existing := a.state.existing, entry := a.state.entry)
  {
    if s.disposed then Applied(s, Some(ObjectDisposed))
    else if s.entry.None? then Applied(s, Some(NullReference))
    else
      var e := s.entry.value;
      var staged := s.(entry := Some(e.(siteObject := StagedSiteObject(s, e))));
      if commit.FailsWith? then Applied(staged, Some(FromComException(Some(s.context), commit.code)))
      else Applied(staged.(existing := true), None)
  }

  /** `Delete`: only an existing subnet can be deleted. */
  function Delete(s: Subnet, removal: StoreResult): (r: Result<()>)
    ensures s.disposed ==> r == Err(ObjectDisposed)
    ensures !s.disposed && !s.existing ==> r == Err(InvalidOperation(CannotDelete))
    ensures !s.disposed && s.existing && s.entry.Some? && removal.FailsWith? ==>
              r == Err(FromComException(Some(s.context), removal.code))
    ensures r.Ok? <==> !s.disposed && s.existing && s.entry.Some? && removal.Succeeds?
  {
    if s.disposed then Err(ObjectDisposed)
    else if !s.existing then Err(InvalidOperation(CannotDelete))
    else if s.entry.None? then Err(NullReference)
    else if removal.FailsWith? then Err(FromComException(Some(s.context), removal.code))
    else Ok(())
  }

  /** `GetDirectoryEntry`: an entry for the subnet's own path, only once the
      subnet exists in the directory. */
  function GetDirectoryEntry(s: Subnet): (r: Result<string>)
    ensures s.disposed ==> r == Err(ObjectDisposed)
    ensures !s.disposed && !s.existing ==> r == Err(InvalidOperation(CannotGetObject))
    ensures r.Ok? <==> !s.disposed && s.existing && s.entry.Some?
    ensures r.Ok? ==> r.value == s.entry.value.dn
  {
    if s.disposed then Err(ObjectDisposed)
    else if !s.existing then Err(InvalidOperation(CannotGetObject))
    else if s.entry.None? then Err(NullReference)
    else Ok(s.entry.value.dn)
  }

  /** `Dispose`: marks the subnet disposed and changes nothing else. */
  function Dispose(s: Subnet): (r: Subnet)
    ensures r.disposed
    ensures r.(disposed := s.disposed) == s
  {
    s.(disposed := true)
  }

  /** After `Dispose`, every member throws `ObjectDisposedException`. */
  lemma DisposedSubnetRejectsEverything(s: Subnet, site: Option<SiteRef>, location: Option<string>, call: StoreResult)
    ensures var d := Dispose(s);
      && Name(d) == Err(ObjectDisposed) && Site(d) == Err(ObjectDisposed)
      && SetSite(d, site) == Err(ObjectDisposed)
      && Location(d) == Err(ObjectDisposed) && SetLocation(d, location) == Err(ObjectDisposed)
      && Save(d, call).error == Some(ObjectDisposed) && Save(d, call).state == d
      && Delete(d, call) == Err(ObjectDisposed) && GetDirectoryEntry(d) == Err(ObjectDisposed)
  {
  }

  /** Saving an existing subnet twice stages the same `siteObject` value:
      the second save changes nothing in the entry. */
  lemma SaveExistingIsIdempotent(s: Subnet)
    requires Save(s, Succeeds).error.None?
    requires s.existing
    ensures Save(Save(s, Succeeds).state, Succeeds) == Save(s, Succeeds)
  {
  }

  /** A new subnet that has been saved can be deleted and fetched; before
      that, both are refused. */
  lemma SaveEnablesDeleteAndEntry(s: Subnet)
    requires !s.disposed && !s.existing && s.entry.Some?
    ensures Delete(s, Succeeds) == Err(InvalidOperation(CannotDelete))
    ensures GetDirectoryEntry(s) == Err(InvalidOperation(CannotGetObject))
    ensures Delete(Save(s, Succeeds).state, Succeeds).Ok?
    ensures GetDirectoryEntry(Save(s, Succeeds).state) == Ok(s.entry.value.dn)
  {
  }

  /** The constructor as written turns a failed bind into a subnet with a
      null entry, whose `Save` then fails with a null reference instead of
      the directory's error; the corrected constructor reports the error. */
  lemma SwallowedBindFailure(context: DirectoryContext)
    requires Acceptable(context)
    ensures var w := CreateAsWritten(Some(context), Some("10.0.0.0/8"), BindFails(E_SERVER_DOWN), Succeeds);
      && w.Ok? && w.value.entry.None?
      && Save(w.value, Succeeds).error == Some(NullReference)
    ensures Create(Some(context), Some("10.0.0.0/8"), BindFails(E_SERVER_DOWN), Succeeds)
         == Err(ServerDown(E_SERVER_DOWN, context.serverName))
  {
  }

  /** Whatever the remote calls do, the corrected constructor never hands out
      a subnet with a null entry, so no later member fails with a null
      reference. */
  lemma {:induction false} CreatedSubnetsNeverDereferenceNull(
    context: Option<DirectoryContext>, subnetName: Option<string>, bind: BindOutcome, creation: StoreResult,
    location: Option<string>, commit: StoreResult)
    requires Create(context, subnetName, bind, creation).Ok?
    ensures var s := Create(context, subnetName, bind, creation).value;
      && Location(s).Ok? && SetLocation(s, location).Ok?
      && Save(s, commit).error != Some(NullReference)
  {
    var s := Create(context, subnetName, bind, creation).value;
    assert s.entry.Some?;
    if commit.FailsWith? {
      assert Save(s, commit).error == Some(FromComException(Some(s.context), commit.code));
    }
  }
}
